=== FILE: README.md ===
# mira-download-manager, modelled in Dafny

This project models the decision logic of the mira download manager. The
manager is a service that takes download tasks from a message queue, submits
them to a qBittorrent daemon, and follows each torrent until it finishes. It
then tells the video manager which files arrived, and it cleans up old jobs
and directories. The model covers the following:

- The qBittorrent adapter:
  - the daemon's state vocabulary and its translation into job statuses;
  - one reconciliation cycle of the polling loop;
  - the re-login/retry rules of `sendRequest`, `download` and `connect`;
  - `remove`, `getTorrentContent` and `ensureExists`.
- The job record and the two repository queries, plus the clean-up task queue.
- The download service:
  - the completion messages built when a torrent completes, in both the file-mapping branch and the legacy "largest file" branch;
  - the completion trigger;
  - the submission of a job.
- The job cleaner:
  - the sweep of the clean-up queue;
  - the expiry check;
  - the timers that drive both.
- The object-storage service:
  - the single or multipart upload, as the sequence of storage commands it sends;
  - the bucket lifecycle check.
- The file manager:
  - the stored file name;
  - the choice between a local copy and an HTTP fetch from a rewritten URL.
- The configuration getters with their defaults, the file URL, placeholder substitution and the start-up check.
- The download manager:
  - the job built from a task;
  - the acknowledgement policy of both consumers;
  - the destination of a video;
  - the path reported to the catalogue service.

Everything outside the process is a parameter: the daemon, the store, the
message broker, the object store, the file system, clocks and random ids. A
reply is an `Outcome`, a `Result`, a sequence of them, or a function from the
attempt number to a reply. Each operation returns what it sent and what it
concluded.

Modules, in dependency order:

- `Wrappers`: `Option`, `Result` and `Outcome`.
- `Text`: JavaScript `indexOf`, `replace`, `substring` and lowercasing.
- `Paths`: POSIX `join`, `basename` and `extname`.
- `UriEncoding`: `encodeURIComponent`.
- `QBittorrentStates`, `Jobs`, `JobRepository` and `CleanUpTasks`.
- `QBittorrentReconciliation` and `QBittorrentSession`.
- `DownloadService`, `JobCleaner`, `S3Service`, `FileManageService`, `ConfigManager` and `DownloadManager`.

Notes on the code:

- `JobStatus` has six values, including Error.
- The code never stamps `endTime` and never marks a job Error when completion fails.
- The code does not de-duplicate uploaded objects during completion.
- In the code, a failed completion is not caught by the service.

## Model

| member | source | states |
|---|---|---|
| QBittorrentStates.Parse | src/domain/QBittorrentState.ts:17-36 | a string parses to the state whose value it is, and to nothing when no state has that value |
| QBittorrentStates.Vocabulary | src/domain/QBittorrentState.ts:17-36 | every state is listed; each state's string value parses back to it; distinct states have distinct values |
| QBittorrentStates.NineteenStates | src/domain/QBittorrentState.ts:17-36 | the vocabulary has exactly 19 pairwise distinct states |
| QBittorrentReconciliation.ConvertStateToJobStatus | src/download-adapter/QBittorrentDownloadAdapter.ts:260-288 | a string outside the vocabulary maps to Removed |
| QBittorrentReconciliation.ConvertClassifiesVocabulary | src/download-adapter/QBittorrentDownloadAdapter.ts:260-288 | the map classifies states by meaning: Complete iff the state has finished downloading (so pausedUP and checkingUP do); Error iff faulted; Downloading iff fetching; Pending iff not started (including unknown and checkingDL); Paused iff pausedDL; Removed iff moving or unknown to the vocabulary |
| QBittorrentReconciliation.ConvertMatchesExpected | src/download-adapter/QBittorrentDownloadAdapter.ts:260-288 | each named state maps to the status its category calls for |
| QBittorrentReconciliation.HashIndex | src/download-adapter/QBittorrentDownloadAdapter.ts:185-188 | the hash-to-index map has exactly the listed hashes as keys, each pointing at the last entry with that hash |
| QBittorrentReconciliation.LastOccurrenceUnique | src/download-adapter/QBittorrentDownloadAdapter.ts:185-188 | a hash has at most one last occurrence |
| QBittorrentReconciliation.ReconcileJob | src/download-adapter/QBittorrentDownloadAdapter.ts:192-208 | the job keeps its id and torrent id; an untouched job is unchanged; a torrent id missing from the live list (a null id looks up "null") gives Removed and a status change; an already-agreeing job stays untouched |
| QBittorrentReconciliation.JobsWith | src/download-adapter/QBittorrentDownloadAdapter.ts:190-208 | a list holds exactly the rewritten jobs with that verdict |
| QBittorrentReconciliation.Tick | src/download-adapter/QBittorrentDownloadAdapter.ts:185-209 | one result per job in order; the changed and progress-only lists are the jobs with those verdicts |
| QBittorrentReconciliation.TickStatusFollowsDaemon | src/download-adapter/QBittorrentDownloadAdapter.ts:185-209 | after a cycle each job's status is the mapped state of the last live entry with its hash, or Removed when no entry has it |
| QBittorrentReconciliation.TickOutcomes | src/download-adapter/QBittorrentDownloadAdapter.ts:196-203 | a new status overwrites status and progress and lists the job as changed; same status with new progress overwrites progress only and lists it as progress-only; otherwise the job is untouched and unlisted |
| QBittorrentReconciliation.TickListsAreRewrites | src/download-adapter/QBittorrentDownloadAdapter.ts:196-208 | a job listed as changed is some job's rewrite with a new status or Removed; a job listed as progress-only is some job's rewrite with the same status and a new progress |
| QBittorrentReconciliation.EventsFor | src/download-adapter/QBittorrentDownloadAdapter.ts:213-219 | one event per changed job, in order: a delete event iff the new status is Removed, otherwise a status event |
| QBittorrentReconciliation.EventsNameChangedJobs | src/download-adapter/QBittorrentDownloadAdapter.ts:213-219 | a delete event names an id iff a changed job with that id was Removed, and a status event iff a changed job with that id was not |
| QBittorrentReconciliation.EventsForSplits | src/download-adapter/QBittorrentDownloadAdapter.ts:213-219 | the events of two batches are the events of each in turn, since each event depends on its own job only |
| QBittorrentReconciliation.UpdateJobs | src/download-adapter/QBittorrentDownloadAdapter.ts:251-258 | one save of the given jobs; a failed save is reported and swallowed |
| QBittorrentReconciliation.CheckTorrentStatus | src/download-adapter/QBittorrentDownloadAdapter.ts:177-241 | a failed job query is reported every time and rescheduled after 5000 ms; a failed live-list request is neither reported nor rescheduled; otherwise one save of changed plus progress-only jobs, or of progress-only jobs, or none; events only for changed jobs and whatever the save did; always rescheduled |
| QBittorrentReconciliation.SettledAgainstDaemon | src/download-adapter/QBittorrentDownloadAdapter.ts:192-208 | a job the loop body leaves unsettled has a live entry, and running the loop body on it again leaves it untouched |
| QBittorrentReconciliation.SecondCycleIsQuiet | src/download-adapter/QBittorrentDownloadAdapter.ts:177-229 | reloading the unsettled jobs after a cycle against the same live list produces no change, no save and no event |
| QBittorrentSession.SendRequest | src/download-adapter/QBittorrentDownloadAdapter.ts:314-328 | at most two GETs with one login between them; a login iff the first reply is 403; success iff the first reply succeeds or a 403 is followed by a good login and a good retry; the retry carries the new cookie; a second failure or any non-403 error is rethrown; the outcome is the one read off the replies alone, whatever the cookie, and the cookie changes only through that login |
| QBittorrentSession.SavePath | src/download-adapter/QBittorrentDownloadAdapter.ts:86-88 | the save path is the location (or the default location when it is empty) joined with the temporary id, and its basename is that id |
| QBittorrentSession.EnsureExists | src/download-adapter/QBittorrentDownloadAdapter.ts:290-305 | every probe is a full properties request for the lower-cased hash, and only such requests and logins are sent; the first probe carries the current cookie; found at the first probe that resolves to success after only 404s; a probe resolving to any other error is rethrown; still waiting iff every probe so far resolved to 404; without a re-login the cookie is unchanged |
| QBittorrentSession.ProbesThreadCookie | src/download-adapter/QBittorrentDownloadAdapter.ts:290-305 | after a first probe that re-logs in and then sees 404, the next probe carries the cookie of that login |
| QBittorrentSession.Download | src/download-adapter/QBittorrentDownloadAdapter.ts:85-119 | no post when the hash cannot be computed; every post repeats the form and header built before the loop; at most two posts and one login; a login iff the first post is 403; a failed login, a second 403 or another error is rethrown without any probe; once posted, the wait starts from the session cookie after the add phase, and its probes, its final cookie and its end decide the result: the hash, the probe error rethrown, or still waiting |
| QBittorrentSession.Remove | src/download-adapter/QBittorrentDownloadAdapter.ts:121-133 | both requests are full requests with re-login; the properties request with the lower-cased hash goes first, and if it fails only it was sent and nothing is queued; the delete, with `deleteFiles` as 'true'/'false', carries the cookie the properties request left; a failed delete is rethrown and queues nothing; a queueing failure is reported and swallowed |
| QBittorrentSession.RemoveQueuesIff | src/download-adapter/QBittorrentDownloadAdapter.ts:121-133 | the clean-up queue changes iff both requests succeed and the insert succeeds, and then by one task for the save path, put last |
| QBittorrentSession.CompletedFiles | src/download-adapter/QBittorrentDownloadAdapter.ts:146-148 | exactly the files with progress 1 are kept |
| QBittorrentSession.CompletedFilesKeepsOrder | src/download-adapter/QBittorrentDownloadAdapter.ts:146-148 | the filter distributes over concatenation, so daemon order is kept |
| QBittorrentSession.CompletedFilesIdempotent | src/download-adapter/QBittorrentDownloadAdapter.ts:146-148 | filtering twice is filtering once |
| QBittorrentSession.GetTorrentContent | src/download-adapter/QBittorrentDownloadAdapter.ts:142-149 | the files request uses the lowercased hash and returns exactly the finished files |
| QBittorrentSession.ConnectAsWrittenNeverGivesUp | src/download-adapter/QBittorrentDownloadAdapter.ts:65-83 | as written, connect never gives up, because the retry count is reset on every entry |
| QBittorrentSession.ConnectAsWrittenLoops | src/download-adapter/QBittorrentDownloadAdapter.ts:65-83 | as written, k failed logins followed by a success make k+1 attempts and start k+1 polling loops |
| QBittorrentSession.ConnectAsWrittenCounterexample | src/download-adapter/QBittorrentDownloadAdapter.ts:65-83 | eleven failures then a success: twelve attempts and twelve polling loops |
| QBittorrentSession.ConnectIsCapped | src/download-adapter/QBittorrentDownloadAdapter.ts:65-83 | with the count kept across retries: at most 11 attempts; gives up iff the first 11 logins fail; connected iff one of them succeeds; at most one polling loop |
| Jobs.Unsettled | src/repository/DownloadJobRepository.ts:28-32 | Pending, Downloading and Paused are the unsettled statuses |
| JobRepository.ListUnsettledJobs | src/repository/DownloadJobRepository.ts:23-36 | exactly the stored jobs of that downloader with an unsettled status, drawn from the store |
| JobRepository.UnsettledExcludesSettled | src/repository/DownloadJobRepository.ts:26-32 | no Complete, Error or Removed job, and no job of another downloader, is returned |
| JobRepository.SortDesc | src/repository/DownloadJobRepository.ts:38-40 | a permutation ordered by creation time, newest first, with null times first |
| JobRepository.ListJobByStatusWithDescOrder | src/repository/DownloadJobRepository.ts:38-40 | exactly the jobs with that status (as a multiset), ordered by creation time, non-increasing |
| CleanUpTasks.AddTempFolderPath | src/repository/CleanUpTaskRepository.ts:21-25 | exactly one task is appended, carrying the path; existing tasks are untouched |
| CleanUpTasks.NoDedup | src/repository/CleanUpTaskRepository.ts:21-25 | adding the same path twice gives two tasks |
| DownloadService.RemoteFiles | src/service/DownloadService.ts:117-124 | one remote file per torrent file, in order, with its basename, its local path under the save path, and its file URL |
| DownloadService.FindIndexByName | src/service/DownloadService.ts:127 | -1 iff no file has the name, otherwise the first such index |
| DownloadService.WithoutIndex | src/service/DownloadService.ts:132 | drops exactly one element when the index is in range (multiset and membership), and nothing otherwise |
| DownloadService.FindVideoFilePicksFirstLargest | src/service/DownloadService.ts:166-176 | the chosen index holds a maximal size and no earlier file is as large; index 0 when no size is positive |
| DownloadService.DownloadComplete | src/service/DownloadService.ts:113-153 | adapter errors propagate; any mapping, even an empty one, gives exactly one message per mapping entry; without a mapping, one message, or an error when there are no files; every message carries a fresh id, the job id, bangumi id, manager id and video id |
| DownloadService.MappingMessages | src/service/DownloadService.ts:125-134 | message k carries the mapping's video id; an unmatched path gives no video file and all files as others; otherwise the first file with that name is the video and the others are all files but that index, including files claimed by other mappings |
| DownloadService.LegacyMessageShape | src/service/DownloadService.ts:140-152 | the video is the largest file; the others are the remote files less the first entry whose name equals the video's basename, which may come before the video, leaving n-1 |
| DownloadService.LegacyDropsNamesake | src/service/DownloadService.ts:145-150 | two files with the same basename in different directories, the second larger: the second is the video and stays among the others, while the unrelated first file is the one dropped |
| DownloadService.CompletionTriggers | src/service/DownloadService.ts:46-60 | events with an empty id are never looked up; each event's `findOne` reads the store as it is then; completion runs once per event whose job is found and Complete, in arrival order, up to the first rejected lookup and no further; the count equals the number of such events; that rejection ends the subscription and is what it ended with |
| DownloadService.OneJobCompletesOnce | src/service/DownloadService.ts:46-60 | two events for one job that find it Downloading and then Complete trigger completion once, for the second |
| DownloadService.Submit | src/service/DownloadService.ts:71-86 | the daemon is asked for the torrent in the default location joined with the bangumi id; the job is handed to save with the returned hash and the configured downloader iff the daemon answers, otherwise unchanged; success iff the daemon answers and the save succeeds; a daemon failure or a save failure reaches the caller |
| JobCleaner.Sweep | src/service/JobCleaner.ts:104-121 | a task stays queued iff its removal failed with a code other than ENOENT; the pass only drops tasks, never adds or duplicates one |
| JobCleaner.SweepSplits | src/service/JobCleaner.ts:104-121 | a failed removal does not stop the pass: the sweep distributes over any split of the queue |
| JobCleaner.SweepClears | src/service/JobCleaner.ts:104-121 | when every removal succeeds or finds nothing, the queue empties |
| JobCleaner.DoCleanUp | src/service/JobCleaner.ts:100-124 | the queue never gains a task; a fetch failure is thrown and leaves the stored queue as it was; an empty queue is not flushed; otherwise exactly one flush, which applies the sweep or, when it fails, keeps the queue |
| JobCleaner.AfterDeletes | src/service/JobCleaner.ts:67-75 | a job whose delete threw is marked Removed and the others are kept as fetched |
| JobCleaner.DoCheckJob | src/service/JobCleaner.ts:62-81 | a throw while reading the retention setting or taking the repository rejects the call before anything is asked; otherwise the cutoff is days times 86 400 000 ms, files are never deleted, all fetched jobs go into one save, and a fetch or save error is reported and swallowed |
| JobCleaner.ExpiryOnlyMarksRemoved | src/service/JobCleaner.ts:67-76 | the saved jobs differ from the fetched ones in status only, and only towards Removed |
| JobCleaner.Step | src/service/JobCleaner.ts:41-98 | start arms the check for 24 h and the sweep for 5 min; a finished sweep re-arms whether it failed or not; a finished check re-arms iff it did not reject, and otherwise its loop goes idle; stop clears only pending timers; stopCleanUp touches only the sweep |
| JobCleaner.StopDuringTickRearms | src/service/JobCleaner.ts:46-59 | stop during a running tick does not end that loop: the tick re-arms itself iff it is a sweep or a check that did not reject, and otherwise the loop is idle |
| JobCleaner.RejectedCheckStops | src/service/JobCleaner.ts:55-59 | a rejected check leaves the check loop idle for good, short of a new start, whatever the sweep does |
| JobCleaner.IdleStaysIdle | src/service/JobCleaner.ts:41-98 | once both loops are idle, nothing runs again until start |
| JobCleaner.StopBetweenTicks | src/service/JobCleaner.ts:46-53 | stop between ticks silences both loops until the next start |
| S3Service.EnsureBucketMissingRule | src/service/S3Service.ts:89-108 | as written, an existing bucket whose lifecycle rules all carry other ids throws a TypeError and no lifecycle is put |
| S3Service.EnsureBucket | src/service/S3Service.ts:51-111 | corrected (see ## Findings): no command without object storage; an absent bucket is created and then given the rule; for an existing bucket the rule is put iff it is missing, has no expiration or has other days, or the service answers 404; success leaves a conforming rule or has just put one |
| S3Service.EnsureBucketFixIsLocal | src/service/S3Service.ts:89-108 | the corrected check agrees with the code except when the rule is missing |
| S3Service.Chunks | src/service/S3Service.ts:155-160 | the chunks are each between 1 byte and 5 MiB and add up to the file size |
| S3Service.Multipart | src/service/S3Service.ts:142-204 | parts are numbered 1..k in chunk order; success iff every part has an ETag and completion succeeds, and then completion lists exactly those parts in order and the object URL is returned; when part m is the first without an ETag, the commands stop after its upload and end with one abort with the same upload id; a failed completion is followed by that abort; the error thrown is the abort's own when the abort fails, else the part's or the completion's |
| S3Service.Upload | src/service/S3Service.ts:113-210 | no command and a null result without object storage; at most 5 GiB gives one put with the file's length, reported as s3://bucket/basename; a missing upload id throws before any part and without an abort; larger files go through the multipart sequence under the basename with the issued id, with its success condition, commands and errors |
| S3Service.NamesakesShareKey | src/service/S3Service.ts:118 | two different paths with the same basename are stored under the same key |
| FileManageService.ProcessFilename | src/service/FileManageService.ts:75-82 | the stored name holds no comma and no separator |
| FileManageService.ProcessFilenameShape | src/service/FileManageService.ts:75-82 | the stored name is the comma-free basename's stem, a dash, the random suffix, then its extension; directories are dropped |
| FileManageService.ProcessFilenameKeepsExtension | src/service/FileManageService.ts:76-81 | the extension of the comma-free name is the extension of the stored name |
| FileManageService.TrimEndSlash | src/service/FileManageService.ts:95-97 | one trailing slash is removed when present, otherwise the input is returned |
| FileManageService.TrimEndSlashRemovesOne | src/service/FileManageService.ts:95-97 | only one slash goes, so trimming is not idempotent on `//` |
| FileManageService.Rewrite | src/service/FileManageService.ts:56-61 | protocol and host name come from the mapped host; a mapped host without a port keeps the file's port, and a mapped port replaces it, each dropped when it is the default of the scheme in force; the result's port is empty or one of the two and never the new scheme's default; the path is the host's path less one trailing slash followed by the file's path; the query is kept |
| FileManageService.RewriteKeepsFilePort | src/service/FileManageService.ts:56-61 | a file on localhost:8080 mapped to an https host with no port is fetched from that host on port 8080 |
| FileManageService.RewriteIdempotentIffRoot | src/service/FileManageService.ts:56-61 | rewriting twice keeps the path of rewriting once iff the host path is empty or `/`; scheme, host name and query are stable, and so is the port when the mapped host gives none |
| FileManageService.Download | src/service/FileManageService.ts:40-69 | a localhost host: one local copy, no fetch, copy errors swallowed; another host: one fetch of the rewritten URL; no host: the file URI fetched unchanged, or nothing when it is empty |
| FileManageService.DownloadUsesOneRoute | src/service/FileManageService.ts:40-69 | a local mapping never depends on the fetch, and any other case never depends on the copy |
| FileManageService.BareHostKeepsFileRoute | src/service/FileManageService.ts:56-61 | a mapping to a host with no port and an empty or root path fetches from that scheme and host with the file's own path and query, and the file's port unless it is the new scheme's default |
| FileManageService.NoHostMapFetchesOwnUri | src/service/FileManageService.ts:41-67 | with no configured host map every download fetches the file's own URI, or does nothing when it is empty |
| ConfigManager.AmqpConfig | src/utils/ConfigManagerImpl.ts:116-132 | falsy settings fall back to localhost, 5672, guest and guest, so no option is falsy; the protocol, locale, frame size, heartbeat and vhost are fixed |
| ConfigManager.AmqpConfigSettles | src/utils/ConfigManagerImpl.ts:116-132 | feeding the chosen options back in gives the same options |
| ConfigManager.AmqpServerUrl | src/utils/ConfigManagerImpl.ts:108-114 | the environment value when it is non-empty, else the configured URL |
| ConfigManager.ServerHost | src/utils/ConfigManagerImpl.ts:136-138 | the configured host, or localhost when it is empty; never empty |
| ConfigManager.ServerPort | src/utils/ConfigManagerImpl.ts:139-141 | the configured port, or 8080 when it is 0; never 0 |
| ConfigManager.ServerDefaultsSettle | src/utils/ConfigManagerImpl.ts:136-141 | feeding the chosen host and port back in gives the same host, port and server origin |
| ConfigManager.AppIdHostMap | src/utils/ConfigManagerImpl.ts:155-157 | an absent map reads as empty |
| ConfigManager.DecimalString | src/utils/ConfigManagerImpl.ts:148 | the port printed into the URL is a non-empty run of decimal digits, without a leading zero, whose value is the port |
| ConfigManager.GetFileUrl | src/utils/ConfigManagerImpl.ts:142-149 | with a base URL: base, content route, raw job id, encoded path; otherwise https iff enabled, with the defaulted host and port |
| ConfigManager.FileUrlCarriesPath | src/utils/ConfigManagerImpl.ts:142-149 | whatever the base URL or job id contain, the text after the last `?` is the one query parameter, and it decodes to the path's UTF-8 octets |
| ConfigManager.ProcessPath | src/utils/ConfigManagerImpl.ts:163-168 | a path without placeholders is unchanged |
| ConfigManager.ProcessPathSubstitutes | src/utils/ConfigManagerImpl.ts:163-168 | for `$`-free text and directories, a path holding one placeholder, or all three in order, gets each replaced by its directory and the text around kept |
| ConfigManager.ProcessPathReplacesOnce | src/utils/ConfigManagerImpl.ts:163-168 | for `$`-free text, a second `${cwd}` stays as written while the first is replaced |
| ConfigManager.VerifyConfig | src/utils/ConfigManagerImpl.ts:170-177 | passes iff the manager id and the downloader are set; the manager id is checked first |
| ConfigManager.VerifyConfigReportsFirstUnset | src/utils/ConfigManagerImpl.ts:170-177 | the result is the first unset of the two required settings, in check order, named in the error |
| UriEncoding.RoundTrip | src/utils/ConfigManagerImpl.ts:144 | percent-decoding the encoded path gives back its UTF-8 octets |
| UriEncoding.EncodeUnescapedIsIdentity | src/utils/ConfigManagerImpl.ts:144 | a path made only of unescaped characters is its own encoding |
| DownloadManager.JobFromMessage | src/DownloadManager.ts:109-117 | the job carries the request's bangumi id, URL, video id, mapping, the request itself and its id, a creation time, no torrent yet, and the column defaults |
| DownloadManager.JobKeepsRequest | src/DownloadManager.ts:109-119 | the job's columns restate the request before and after submission, and the job starts unsettled |
| DownloadManager.OnDownloadTask | src/DownloadManager.ts:109-119 | the daemon is asked for the task's torrent under the bangumi directory; success iff the daemon answers and the save succeeds; a saved job carries the hash and is Pending |
| DownloadManager.SubmittedJobIsPolled | src/DownloadManager.ts:109-119 | a successfully submitted job carries the returned hash and the configured daemon, and the unsettled-jobs query of that daemon returns it |
| DownloadManager.DownloadTaskAck | src/DownloadManager.ts:68-77 | acknowledged iff handled; a failure is handed back after 3000 ms |
| DownloadManager.VideoManagerAck | src/DownloadManager.ts:59-66 | always acknowledged |
| DownloadManager.AckPolicies | src/DownloadManager.ts:59-77 | a download task is acknowledged iff the daemon answered and the save succeeded, and redelivered otherwise; a video-manager message never is |
| DownloadManager.OnVideoManagerMessage | src/DownloadManager.ts:91-107 | a processed video is fetched to the bangumi directory under its processed name; otherwise the copy's result is the destination; the catalogue is called exactly when the transfer call returned a path, with the encoded relative path; a copy that found no job resolves `undefined`, and the handler then throws a TypeError with no catalogue call; both transfers swallow their own copy errors, so a return does not prove the file arrived |
| DownloadManager.RelativePath | src/DownloadManager.ts:124 | when the bangumi id occurs, the rest after it and one more character |
| DownloadManager.RelativePathOfJoin | src/DownloadManager.ts:92-124 | for root/bangumiId/rest, where the id first occurs as its own segment, the relative path is rest |
| DownloadManager.RelativePathWhenAbsent | src/DownloadManager.ts:124 | when the id does not occur, the first id-length characters are dropped |
| DownloadManager.ProcessedPathIsFileName | src/DownloadManager.ts:92-124 | for a processed video the catalogue is given just the stored file name |

## Left out

- HTTP, RPC and storage transport: axios, the daemon endpoints, cookie parsing in `login`, and the S3 SDK. Their replies are parameters.
- Timers, rxjs subjects and promise scheduling. One cycle or tick is modelled at a time; rescheduling and emitted events are outputs.
- Floating-point progress and metrics. Progress is a `real` compared only for equality.
- Random ids (`nanoid`, `uuid4`) and clock readings. They are parameters.
- Strings are sequences of Unicode scalar values, so a lone UTF-16 surrogate cannot occur. `encodeURIComponent` would throw a URIError on one (src/utils/ConfigManagerImpl.ts:144, src/DownloadManager.ts:129); that error path is not modelled.
- The Deluge adapter, the HTTP controllers, wiring and start-up, migrations and test doubles. None of them holds logic of the modelled core.
- `torrent-utils`. The info hash is a parameter that may be missing.
- Several operations are oracles: `copyVideoFile`, `DownloadService.delete`, `getJobCanBeCleanUp` and `findOne`. The first three are used only through their outcomes; `findOne` appears as the lookup function, one answer per event, which may reject.
- DownloadService.CompletionTriggers: `mergeMap` may resolve lookups out of arrival order; the model takes them in arrival order, so a rejection ends the subscription after exactly the earlier events.
- WHATWG URL setters beyond the port rules: the protocol setter's refusal to switch between special and non-special schemes, and percent-encoding in the pathname setter, are not modelled; a URL that fails to parse is not modelled either, since parsing is a total parameter.
- QBittorrentSession.GetTorrentContent: its files request is modelled by its final reply only, without the re-login exchange of `sendRequest`.
- File copies, streams, `mkdir` and `rm`. Only their outcomes are modelled.
- Path normalisation. `join` is modelled without collapsing `.`, `..` or repeated separators.
- WHATWG URL parsing and serialisation. Parsing is a parameter and the rewritten URL is kept as its parts.
- `$` patterns in replacement strings, and lowercasing beyond ASCII.
- `appliedProcessRuleId`. It is read from a job field that does not exist, so it is always undefined.
- Publishing failures in completion, and the order in which concurrent completions run.
- The `_lastError` comparison in the reconciliation catch. The field is never assigned, so every failure is reported.
- Running `start` twice and so orphaning timers. The cleaner's state holds one timer per loop.
- S3Service.Chunks: models the file stream as full 5 MiB chunks followed by the remainder, which is what a file stream with that high-water mark yields.
- S3Service.EnsureBucket: a lifecycle response without a `Rules` array is not modelled.
- DownloadManager.RelativePath: its contract covers only the case where the id occurs with room after it; the other case is covered by RelativePathWhenAbsent.
- ConfigManager.ServerPort: numbers are integers, so NaN is not modelled as falsy.

## Findings

| source | as written | input that shows it | evidently intended | confidence | as-written member | corrected member |
|---|---|---|---|---|---|---|
| src/download-adapter/QBittorrentDownloadAdapter.ts:65-83 | `connect` sets the retry count to 0 on every entry, including the recursive retry, so the cap of 10 retries is never reached; each successful nested call also starts a polling loop | eleven failed logins then a success: twelve attempts and twelve polling loops | at most 11 attempts, then the error is rethrown; one polling loop | not executed | QBittorrentSession.ConnectAsWrittenCounterexample | QBittorrentSession.ConnectIsCapped |
| src/service/S3Service.ts:89-108 | when the bucket exists but has no rule with the managed id, line 93 reads `rule.Expiration` of `undefined`; the TypeError is not a service error, so line 108 rethrows it and no rule is put | a bucket listed by the service whose lifecycle rules all carry ids other than the managed one | put the rule, as for a rule with a wrong expiry | not executed | S3Service.EnsureBucketMissingRule | S3Service.EnsureBucket |

=== FILE: cleanup_task_repository.dfy ===
/** The queue of directories waiting to be removed. */
module CleanUpTasks {

  /** A queued removal of one directory. */
  datatype CleanUpTask = CleanUpTask(directoryPath: string)

  /** `addTempFolderPath(path)`: persists one new task for `path` after the
      existing ones. */
  function AddTempFolderPath(queue: seq<CleanUpTask>, path: string): (r: seq<CleanUpTask>)
    ensures |r| == |queue| + 1
    ensures r[..|queue|] == queue
    ensures r[|queue|].directoryPath == path
  {
    queue + [CleanUpTask(path)]
  }

  /** There is no de-duplication: adding a path that is already queued adds a
      second task for it. */
  lemma NoDedup(queue: seq<CleanUpTask>, path: string)
    ensures var r := AddTempFolderPath(AddTempFolderPath(queue, path), path);
      multiset(r)[CleanUpTask(path)] == multiset(queue)[CleanUpTask(path)] + 2
  {
    var once := AddTempFolderPath(queue, path);
    assert once == queue + [CleanUpTask(path)];
    assert AddTempFolderPath(once, path) == once + [CleanUpTask(path)];
  }
}

=== FILE: config_manager.dfy ===
/** The configuration manager: the getters that fall back to defaults for
    falsy settings, the placeholder substitution in paths, the file URL
    handed to other services, and the start-up check. Environment variables,
    the working directory and the home directory are parameters. Falsy
    settings are the empty string and the number 0. */
module ConfigManager {
  import opened Wrappers
  import opened Text
  import opened UriEncoding

  datatype AmqpSettings = AmqpSettings(host: string, port: int, user: string, password: string)
  datatype WebserverSettings = WebserverSettings(enableHttps: bool, host: string, port: int)

  /** The settings read from the configuration file. */
  datatype AppConfig = AppConfig(
    amqp: AmqpSettings,
    amqpUrl: string,
    downloader: string,
    downloadLocation: string,
    downloadManagerId: string,
    webserver: WebserverSettings,
    appIdHostMap: Option<map<string, string>>)

  /** The connection options handed to the message broker client. */
  datatype AmqpConnect = AmqpConnect(
    protocol: string, hostname: string, port: int, username: string, password: string,
    locale: string, frameMax: int, heartbeat: int, vhost: string)

  const DefaultAmqpPort: int := 5672
  const DefaultServerPort: int := 8080

  /** `a || b` on strings. */
  function OrString(a: string, b: string): string {
    if a != "" then a else b
  }

  /** `a || b` on numbers. */
  function OrNumber(a: int, b: int): int {
    if a != 0 then a else b
  }

  /** `amqpConfig`: every falsy setting falls back to localhost, 5672 and
      guest/guest; the other options are fixed. */
  function AmqpConfig(c: AppConfig): (r: AmqpConnect)
    ensures r.hostname != "" && r.port != 0 && r.username != "" && r.password != ""
    ensures c.amqp.host != "" ==> r.hostname == c.amqp.host
    ensures c.amqp.port != 0 ==> r.port == c.amqp.port
    ensures c.amqp.user != "" ==> r.username == c.amqp.user
    ensures c.amqp.password != "" ==> r.password == c.amqp.password
    ensures r.protocol == "amqp" && r.locale == "en_US" && r.frameMax == 0 && r.heartbeat == 0 && r.vhost == "/"
  {
    AmqpConnect("amqp", OrString(c.amqp.host, "localhost"), OrNumber(c.amqp.port, DefaultAmqpPort),
                OrString(c.amqp.user, "guest"), OrString(c.amqp.password, "guest"),
                "en_US", 0, 0, "/")
  }

  /** The defaults are a fixed point: a configuration holding the options
      already chosen yields the same options again. */
  lemma AmqpConfigSettles(c: AppConfig)
    ensures var r := AmqpConfig(c);
      AmqpConfig(c.(amqp := AmqpSettings(r.hostname, r.port, r.username, r.password))) == r
  {
  }

  /** `amqpServerUrl`: the `AMQP_URL` environment value unless it is empty. */
  function AmqpServerUrl(env: string, c: AppConfig): (r: string)
    ensures env != "" ==> r == env
    ensures env == "" ==> r == c.amqpUrl
  {
    OrString(env, c.amqpUrl)
  }

  function EnabledHttps(c: AppConfig): bool {
    c.webserver.enableHttps
  }

  /** `serverHost`: never empty. */
  function ServerHost(c: AppConfig): (r: string)
    ensures r != ""
    ensures c.webserver.host != "" ==> r == c.webserver.host
    ensures c.webserver.host == "" ==> r == "localhost"
  {
    OrString(c.webserver.host, "localhost")
  }

  /** `serverPort`: never 0. */
  function ServerPort(c: AppConfig): (r: int)
    ensures r != 0
    ensures c.webserver.port != 0 ==> r == c.webserver.port
    ensures c.webserver.port == 0 ==> r == DefaultServerPort
  {
    OrNumber(c.webserver.port, DefaultServerPort)
  }

  /** The server defaults are a fixed point too: a configuration holding
      the host and port already chosen yields them again, and so the same
      server origin. */
  lemma ServerDefaultsSettle(c: AppConfig)
    ensures var d := c.(webserver := c.webserver.(host := ServerHost(c), port := ServerPort(c)));
      ServerHost(d) == ServerHost(c) && ServerPort(d) == ServerPort(c) &&
      ServerOrigin("", d) == ServerOrigin("", c)
  {
  }

  /** `appIdHostMap`: an absent map reads as empty. */
  function AppIdHostMap(c: AppConfig): (r: map<string, string>)
    ensures c.appIdHostMap.None? ==> r == map[]
    ensures c.appIdHostMap.Some? ==> r == c.appIdHostMap.value
  {
    c.appIdHostMap.GetOr(map[])
  }

  /** The number a string of decimal digits denotes, most significant
      digit first. */
  function DigitsValue(s: string): int
  {
    if |s| == 0 then 0
    else 10 * DigitsValue(s[..|s| - 1]) + (s[|s| - 1] as int - '0' as int)
  }

  /** The decimal digits of `n`, as a template literal prints them: no
      leading zero, and they denote `n`. */
  function DecimalString(n: nat): (r: string)
    ensures |r| > 0 && forall i :: 0 <= i < |r| ==> '0' <= r[i] <= '9'
    ensures |r| > 1 ==> r[0] != '0'
    ensures DigitsValue(r) == n
  {
    var d := [('0' as int + n % 10) as char];
    if n < 10 then d
    else
      var high := DecimalString(n / 10);
      assert (high + d)[..|high + d| - 1] == high;
      high + d
  }

  /** A number as JavaScript prints it (integers only). */
  function NumberString(n: int): (r: string)
    ensures |r| > 0
  {
    if n < 0 then "-" + DecimalString(-n) else DecimalString(n)
  }

  const QueryKey: string := "relativeFilePath="

  /** Where the file routes are served: `SERVER_BASE_URL` (`baseUrl`) when
      it is set, otherwise this server's scheme, host and port. */
  function ServerOrigin(baseUrl: string, c: AppConfig): (r: string)
    ensures baseUrl != "" ==> r == baseUrl
    ensures baseUrl == "" ==>
      r == (if EnabledHttps(c) then "https" else "http") + "://" + ServerHost(c) + ":" + NumberString(ServerPort(c))
  {
    if baseUrl != "" then baseUrl
    else (if EnabledHttps(c) then "https" else "http") + "://" + ServerHost(c) + ":" + NumberString(ServerPort(c))
  }

  /** `getFileUrl(relativePath, jobId)`: the job's content route on the
      server origin; the job id goes in raw and the path percent-encoded as
      the only query parameter. */
  function GetFileUrl(relativePath: string, jobId: string, baseUrl: string, c: AppConfig): (r: string)
    ensures baseUrl != "" ==> r == baseUrl + "/file/content/" + jobId + "?" + QueryKey + Encode(relativePath)
    ensures baseUrl == "" ==>
      r == (if EnabledHttps(c) then "https" else "http") + "://" + ServerHost(c) + ":" + NumberString(ServerPort(c)) +
           "/file/content/" + jobId + "?" + QueryKey + Encode(relativePath)
  {
    (ServerOrigin(baseUrl, c) + "/file/content/" + jobId) + "?" + QueryKey + Encode(relativePath)
  }

  /** Whatever the base URL or job id contain, the text after the URL's last
      `?` is the one query parameter, and it decodes to the UTF-8 octets of
      the relative path. */
  lemma FileUrlCarriesPath(relativePath: string, jobId: string, baseUrl: string, c: AppConfig)
    ensures var r := GetFileUrl(relativePath, jobId, baseUrl, c);
      var q := LastIndexOfChar(r, '?');
      0 <= q && r[q + 1..] == QueryKey + Encode(relativePath) &&
      PercentDecode(r[q + 1 + |QueryKey|..]) == Some(Utf8String(relativePath))
  {
    QueryAfterLastMark(ServerOrigin(baseUrl, c) + "/file/content/" + jobId, relativePath);
  }

  /** The query of `prefix?relativeFilePath=<encoded path>` is found after
      the last `?` and decodes to the path's octets. */
  lemma QueryAfterLastMark(prefix: string, relativePath: string)
    ensures var r := prefix + "?" + QueryKey + Encode(relativePath);
      var q := LastIndexOfChar(r, '?');
      0 <= q && r[q + 1..] == QueryKey + Encode(relativePath) &&
      PercentDecode(r[q + 1 + |QueryKey|..]) == Some(Utf8String(relativePath))
  {
    var encoded := Encode(relativePath);
    var tail := QueryKey + encoded;
    assert '?' !in tail by {
      assert forall i :: 0 <= i < |encoded| ==> EncodedChar(encoded[i]);
      assert forall i :: 0 <= i < |tail| ==> tail[i] != '?';
    }
    assert prefix + "?" + QueryKey + encoded == prefix + ['?'] + tail;
    LastOccurrenceSplits(prefix, '?', tail);
    assert tail[|QueryKey|..] == encoded;
    RoundTrip(relativePath);
  }

  const CwdPlaceholder: string := "${cwd}"
  const HomePlaceholder: string := "${home}"
  const ProjectRootPlaceholder: string := "${project_root}"

  /** `processPath`: the first `${cwd}`, then the first `${home}`, then the
      first `${project_root}` are replaced, each in the result of the
      previous replacement. */
  function ProcessPath(p: string, cwd: string, home: string, projectRoot: string): (r: string)
    ensures (IndexOf(p, CwdPlaceholder) == -1 && IndexOf(p, HomePlaceholder) == -1 &&
             IndexOf(p, ProjectRootPlaceholder) == -1) ==> r == p
  {
    ReplaceFirst(ReplaceFirst(ReplaceFirst(p, CwdPlaceholder, cwd), HomePlaceholder, home),
                 ProjectRootPlaceholder, projectRoot)
  }

  /** Text that no placeholder can start in. */
  predicate Plain(s: string) {
    '$' !in s
  }

  /** Each placeholder is put in place of its marker, whichever of the three
      the path holds, provided the path's own text and the substituted
      directories contain no `$`. */
  lemma ProcessPathSubstitutes(a: string, b: string, c: string, d: string,
                               cwd: string, home: string, projectRoot: string)
    requires Plain(a) && Plain(b) && Plain(c) && Plain(d)
    requires Plain(cwd) && Plain(home) && Plain(projectRoot)
    ensures ProcessPath(a + CwdPlaceholder + b, cwd, home, projectRoot) == a + cwd + b
    ensures ProcessPath(a + HomePlaceholder + b, cwd, home, projectRoot) == a + home + b
    ensures ProcessPath(a + ProjectRootPlaceholder + b, cwd, home, projectRoot) == a + projectRoot + b
    ensures ProcessPath(a + CwdPlaceholder + b + HomePlaceholder + c + ProjectRootPlaceholder + d,
                        cwd, home, projectRoot) == a + cwd + b + home + c + projectRoot + d
  {
    SubstitutesCwd(a, b, cwd, home, projectRoot);
    SubstitutesHome(a, b, cwd, home, projectRoot);
    SubstitutesProjectRoot(a, b, cwd, home, projectRoot);
    SubstitutesAll(a, b, c, d, cwd, home, projectRoot);
  }

  lemma SubstitutesCwd(a: string, b: string, cwd: string, home: string, projectRoot: string)
    requires Plain(a) && Plain(b) && Plain(cwd)
    ensures ProcessPath(a + CwdPlaceholder + b, cwd, home, projectRoot) == a + cwd + b
  {
    ReplaceLeading(a, CwdPlaceholder, b, cwd);
    SkipPlain(a + cwd + b, HomePlaceholder, home);
    SkipPlain(a + cwd + b, ProjectRootPlaceholder, projectRoot);
  }

  lemma SubstitutesHome(a: string, b: string, cwd: string, home: string, projectRoot: string)
    requires Plain(a) && Plain(b) && Plain(home)
    ensures ProcessPath(a + HomePlaceholder + b, cwd, home, projectRoot) == a + home + b
  {
    SkipOtherMarker(a, HomePlaceholder, b, CwdPlaceholder, cwd);
    ReplaceLeading(a, HomePlaceholder, b, home);
    SkipPlain(a + home + b, ProjectRootPlaceholder, projectRoot);
  }

  lemma SubstitutesProjectRoot(a: string, b: string, cwd: string, home: string, projectRoot: string)
    requires Plain(a) && Plain(b)
    ensures ProcessPath(a + ProjectRootPlaceholder + b, cwd, home, projectRoot) == a + projectRoot + b
  {
    SkipOtherMarker(a, ProjectRootPlaceholder, b, CwdPlaceholder, cwd);
    SkipOtherMarker(a, ProjectRootPlaceholder, b, HomePlaceholder, home);
    ReplaceLeading(a, ProjectRootPlaceholder, b, projectRoot);
  }

  lemma SubstitutesAll(a: string, b: string, c: string, d: string,
                       cwd: string, home: string, projectRoot: string)
    requires Plain(a) && Plain(b) && Plain(c) && Plain(cwd) && Plain(home)
    ensures ProcessPath(a + CwdPlaceholder + b + HomePlaceholder + c + ProjectRootPlaceholder + d,
                        cwd, home, projectRoot) == a + cwd + b + home + c + projectRoot + d
  {
    var tail := c + ProjectRootPlaceholder + d;
    var s0 := a + CwdPlaceholder + (b + HomePlaceholder + tail);
    var s1 := (a + cwd + b) + HomePlaceholder + tail;
    var s2 := (a + cwd + b + home + c) + ProjectRootPlaceholder + d;
    assert s0 == a + CwdPlaceholder + b + HomePlaceholder + c + ProjectRootPlaceholder + d by {
      Regroup(a, CwdPlaceholder, b, HomePlaceholder, c, ProjectRootPlaceholder, d);
    }
    assert ReplaceFirst(s0, CwdPlaceholder, cwd) == s1 by {
      ReplaceLeading(a, CwdPlaceholder, b + HomePlaceholder + tail, cwd);
      Regroup(a, cwd, b, HomePlaceholder, c, ProjectRootPlaceholder, d);
    }
    assert ReplaceFirst(s1, HomePlaceholder, home) == s2 by {
      ReplaceLeading(a + cwd + b, HomePlaceholder, tail, home);
      Regroup(a, cwd, b, home, c, ProjectRootPlaceholder, d);
    }
    assert ReplaceFirst(s2, ProjectRootPlaceholder, projectRoot) == a + cwd + b + home + c + projectRoot + d by {
      ReplaceLeading(a + cwd + b + home + c, ProjectRootPlaceholder, d, projectRoot);
    }
  }

  /** Concatenation regrouped the three ways the substitution steps see it. */
  lemma Regroup(a: string, m1: string, b: string, m2: string, c: string, m3: string, d: string)
    ensures a + m1 + (b + m2 + (c + m3 + d)) == a + m1 + b + m2 + c + m3 + d
    ensures (a + m1 + b) + m2 + (c + m3 + d) == a + m1 + b + m2 + c + m3 + d
    ensures a + m1 + (b + m2 + (c + m3 + d)) == (a + m1 + b) + m2 + (c + m3 + d)
    ensures (a + m1 + b + m2 + c) + m3 + d == a + m1 + b + m2 + c + m3 + d
  {
  }

  /** A marker after plain text is the one replaced. */
  lemma ReplaceLeading(a: string, marker: string, b: string, v: string)
    requires Plain(a) && |marker| > 0 && marker[0] == '$'
    ensures ReplaceFirst(a + marker + b, marker, v) == a + v + b
  {
    FirstAfterLeadFree(a, marker, b);
    var s := a + marker + b;
    assert s[..|a|] == a && s[|a| + |marker|..] == b;
  }

  /** One of the three placeholders. */
  predicate IsPlaceholder(m: string) {
    m == CwdPlaceholder || m == HomePlaceholder || m == ProjectRootPlaceholder
  }

  /** Plain text holds no marker, so the replace leaves it alone. */
  lemma SkipPlain(s: string, marker: string, v: string)
    requires Plain(s) && IsPlaceholder(marker)
    ensures ReplaceFirst(s, marker, v) == s
  {
    AbsentBesidesLead(s, marker, -1);
  }

  /** Between plain texts, one placeholder is not mistaken for another. */
  lemma SkipOtherMarker(x: string, m: string, y: string, marker: string, v: string)
    requires Plain(x) && Plain(y) && IsPlaceholder(m) && IsPlaceholder(marker) && m != marker
    ensures ReplaceFirst(x + m + y, marker, v) == x + m + y
  {
    var s := x + m + y;
    var k := |x|;
    forall i | 0 <= i < |s| && i != k ensures s[i] != '$' {
      if i < k {
        assert s[i] == x[i];
      } else if i < k + |m| {
        assert s[i] == m[i - k];
      } else {
        assert s[i] == y[i - k - |m|];
      }
    }
    if k + |marker| <= |s| {
      assert s[k..k + |marker|][2] == s[k + 2] == m[2];
    }
    AbsentBesidesLead(s, marker, k);
  }

  /** Only the first occurrence of a placeholder is replaced: a second
      `${cwd}` stays in the result as written. */
  lemma ProcessPathReplacesOnce(a: string, b: string, c: string, cwd: string, home: string, projectRoot: string)
    requires Plain(a) && Plain(b) && Plain(c) && Plain(cwd)
    ensures ProcessPath(a + CwdPlaceholder + b + CwdPlaceholder + c, cwd, home, projectRoot) ==
            a + cwd + b + CwdPlaceholder + c
  {
    var tail := b + CwdPlaceholder + c;
    assert a + CwdPlaceholder + b + CwdPlaceholder + c == a + CwdPlaceholder + tail;
    ReplaceLeading(a, CwdPlaceholder, tail, cwd);
    var s := a + cwd + tail;
    var k := |a + cwd + b|;
    assert s == (a + cwd + b) + CwdPlaceholder + c;
    SkipOtherMarker(a + cwd + b, CwdPlaceholder, c, HomePlaceholder, home);
    SkipOtherMarker(a + cwd + b, CwdPlaceholder, c, ProjectRootPlaceholder, projectRoot);
  }


  /** `defaultDownloadLocation`. */
  function DefaultDownloadLocation(c: AppConfig, cwd: string, home: string, projectRoot: string): string {
    ProcessPath(c.downloadLocation, cwd, home, projectRoot)
  }

  /** `verifyConfig`: the manager id is checked first, then the downloader. */
  function VerifyConfig(c: AppConfig): (r: Outcome<string>)
    ensures r.Pass? <==> c.downloadManagerId != "" && c.downloader != ""
    ensures c.downloadManagerId == "" ==> r == Fail("download_manager_id is not set")
    ensures c.downloadManagerId != "" && c.downloader == "" ==> r == Fail("downloader is not set")
  {
    if c.downloadManagerId == "" then Fail("download_manager_id is not set")
    else if c.downloader == "" then Fail("downloader is not set")
    else Pass
  }

  /** A required setting: its name and its value. */
  datatype Setting = Setting(name: string, value: string)

  /** The settings `verifyConfig` requires, in the order it checks them. */
  function RequiredSettings(c: AppConfig): seq<Setting> {
    [Setting("download_manager_id", c.downloadManagerId), Setting("downloader", c.downloader)]
  }

  /** The first unset setting of `settings` named in the error, or success. */
  function FirstUnset(settings: seq<Setting>): (r: Outcome<string>)
    ensures r.Pass? <==> forall k :: 0 <= k < |settings| ==> settings[k].value != ""
  {
    if |settings| == 0 then Pass
    else if settings[0].value == "" then Fail(settings[0].name + " is not set")
    else FirstUnset(settings[1..])
  }

  /** `verifyConfig` reports the first unset required setting, in its
      order, by name; nothing but the two required settings matters. */
  lemma VerifyConfigReportsFirstUnset(c: AppConfig)
    ensures VerifyConfig(c) == FirstUnset(RequiredSettings(c))
  {
    var s := RequiredSettings(c);
    assert "download_manager_id" + " is not set" == "download_manager_id is not set";
    assert "downloader" + " is not set" == "downloader is not set";
    if c.downloadManagerId != "" {
      assert s[1..] == [Setting("downloader", c.downloader)];
      if c.downloader != "" {
        assert s[1..][1..] == [];
      }
    }
  }
}

=== FILE: download_job.dfy ===
/** The persisted download job and the values it is built from. */
module Jobs {
  import opened Wrappers

  /** A download job's status. */
  datatype JobStatus = Pending | Downloading | Paused | Complete | Error | Removed

  /** The torrent daemon flavour a job was submitted to. */
  datatype DownloaderType = QBittorrent | Deluge

  /** One entry of a caller-supplied mapping: which file of the torrent is the
      video with id `videoId`. */
  datatype FileMapping = FileMapping(videoId: string, filePath: string)

  /** The inbound download request, as far as the job reads it. */
  datatype DownloadTaskMessage = DownloadTaskMessage(
    id: string,
    bangumiId: string,
    torrentUrl: string,
    videoId: Option<string>,
    fileMapping: Option<seq<FileMapping>>)

  /** A job record. `torrentId`, `fileMapping`, `videoId`, `createTime` and
      `endTime` are nullable columns; the other fields are not. Progress is
      the daemon's fraction and is only ever compared for equality. Times are
      milliseconds since the epoch. */
  datatype DownloadJob = DownloadJob(
    id: string,
    torrentId: Option<string>,
    downloader: DownloaderType,
    status: JobStatus,
    torrentUrl: string,
    bangumiId: string,
    downloadTaskMessageId: string,
    downloadTaskMessage: DownloadTaskMessage,
    fileMapping: Option<seq<FileMapping>>,
    videoId: Option<string>,
    progress: real,
    createTime: Option<int>,
    endTime: Option<int>)

  /** The column defaults of a freshly created job. */
  const DefaultDownloader: DownloaderType := QBittorrent
  const DefaultStatus: JobStatus := Pending
  const DefaultProgress: real := 0.0

  /** A job is settled once it is Complete, Error or Removed. */
  predicate Unsettled(s: JobStatus) {
    s == Pending || s == Downloading || s == Paused
  }
}

=== FILE: download_manager.dfy ===
/** The download manager: turning a download task into a job, the
    acknowledgement policy of the two queue consumers, where a video from
    the video manager is stored, and the path reported back to the
    catalogue service. Queues, the catalogue call and the file transfers are
    parameters. */
module DownloadManager {
  import opened Wrappers
  import opened Text
  import opened Paths
  import opened UriEncoding
  import opened Jobs
  import opened QBittorrentReconciliation
  import opened QBittorrentSession
  import opened DownloadService
  import opened FileManageService
  import JobRepository

  /** Delay before a failed download task is handed back to the queue. */
  const RedeliveryDelayMs: nat := 3000

  /** `onDownloadTask`'s job: the request's fields and the request itself,
      a fresh id, the creation time `now`, and the column defaults. */
  function JobFromMessage(msg: DownloadTaskMessage, id: string, now: int): (job: DownloadJob)
    ensures job.id == id && job.createTime == Some(now)
    ensures job.downloadTaskMessage == msg && job.downloadTaskMessageId == msg.id
    ensures job.bangumiId == msg.bangumiId && job.torrentUrl == msg.torrentUrl
    ensures job.videoId == msg.videoId && job.fileMapping == msg.fileMapping
    ensures job.torrentId.None? && job.endTime.None?
    ensures job.status == DefaultStatus && job.downloader == DefaultDownloader && job.progress == DefaultProgress
  {
    DownloadJob(id, None, DefaultDownloader, DefaultStatus, msg.torrentUrl, msg.bangumiId, msg.id, msg,
                msg.fileMapping, msg.videoId, DefaultProgress, Some(now), None)
  }

  /** The request as far as a job's own columns record it. */
  function MessageOf(job: DownloadJob): DownloadTaskMessage {
    DownloadTaskMessage(job.downloadTaskMessageId, job.bangumiId, job.torrentUrl, job.videoId, job.fileMapping)
  }

  /** `onDownloadTask`: build the job and submit it. */
  function OnDownloadTask(msg: DownloadTaskMessage, id: string, now: int, configured: Option<DownloaderType>,
                          defaultLocation: string, added: Result<string, Failure>, save: Outcome<Fault>): (r: SubmitRun)
    ensures r.request == (msg.torrentUrl, Join(defaultLocation, msg.bangumiId))
    ensures r.outcome.Pass? <==> added.Ok? && save.Pass?
    ensures r.saved.Some? ==> added.Ok? && r.saved.value.torrentId == Some(added.value) && r.saved.value.status == Pending
  {
    Submit(JobFromMessage(msg, id, now), configured, defaultLocation, added, save)
  }

  /** A stored job restates its request: its columns and its copy of the
      message agree with what arrived, before and after submission, and it
      starts unsettled. */
  lemma JobKeepsRequest(msg: DownloadTaskMessage, id: string, now: int, configured: Option<DownloaderType>,
                        defaultLocation: string, added: Result<string, Failure>, save: Outcome<Fault>)
    ensures MessageOf(JobFromMessage(msg, id, now)) == msg
    ensures Unsettled(JobFromMessage(msg, id, now).status)
    ensures var r := OnDownloadTask(msg, id, now, configured, defaultLocation, added, save);
      r.saved.Some? ==> MessageOf(r.saved.value) == msg && r.saved.value.downloadTaskMessage == msg
  {
  }

  /** Once a task is submitted and saved, the daemon's polling loop picks
      the job up: it is Pending, carries the hash the daemon returned, and
      is listed among the unsettled jobs of the configured daemon (the
      default one when the setting is not recognised). */
  lemma SubmittedJobIsPolled(msg: DownloadTaskMessage, id: string, now: int, configured: Option<DownloaderType>,
                             defaultLocation: string, added: Result<string, Failure>, save: Outcome<Fault>,
                             store: seq<DownloadJob>)
    requires OnDownloadTask(msg, id, now, configured, defaultLocation, added, save).outcome.Pass?
    ensures var job := OnDownloadTask(msg, id, now, configured, defaultLocation, added, save).saved.value;
      && job.torrentId == Some(added.value)
      && job.downloader == configured.GetOr(DefaultDownloader)
      && job in JobRepository.ListUnsettledJobs(store + [job], configured.GetOr(DefaultDownloader))
  {
    var job := OnDownloadTask(msg, id, now, configured, defaultLocation, added, save).saved.value;
    assert job in store + [job];
  }

  /** What a consumer tells the queue: whether the message is acknowledged,
      and after how long. */
  datatype Ack = Ack(accepted: bool, delayMs: nat)

  /** The download-task consumer acknowledges a handled task at once, and
      hands a failed one back after the redelivery delay. */
  function DownloadTaskAck(handled: Outcome<SubmitError>): (a: Ack)
    ensures a.accepted <==> handled.Pass?
    ensures a.delayMs == (if handled.Pass? then 0 else RedeliveryDelayMs)
  {
    match handled
    case Pass => Ack(true, 0)
    case Fail(_) => Ack(false, RedeliveryDelayMs)
  }

  /** The video-manager consumer acknowledges every message, failed or not. */
  function VideoManagerAck(handled: Outcome<Fault>): (a: Ack)
    ensures a == Ack(true, 0)
  {
    Ack(true, 0)
  }

  /** A download task is redelivered when the daemon refuses it or when the
      job cannot be saved afterwards, and only then; a video-manager
      message is never redelivered. */
  lemma AckPolicies(msg: DownloadTaskMessage, id: string, now: int, configured: Option<DownloaderType>,
                    defaultLocation: string, added: Result<string, Failure>, save: Outcome<Fault>,
                    handled: Outcome<Fault>)
    ensures DownloadTaskAck(OnDownloadTask(msg, id, now, configured, defaultLocation, added, save).outcome).accepted
            <==> added.Ok? && save.Pass?
    ensures VideoManagerAck(handled).accepted
  {
  }

  /** A message from the video manager. */
  datatype VideoManagerMessage = VideoManagerMessage(
    bangumiId: string,
    videoId: string,
    isProcessed: bool,
    processedFile: RemoteFile,
    downloadTaskId: string,
    jobExecutorId: string)

  /** `callAlbireoRpc`'s relative path: what follows the first occurrence
      of the bangumi id and one more character. */
  function RelativePath(p: string, bangumiId: string): (r: string)
    ensures IndexOf(p, bangumiId) != -1 && IndexOf(p, bangumiId) + |bangumiId| + 1 <= |p| ==>
      r == p[IndexOf(p, bangumiId) + |bangumiId| + 1..]
  {
    JsSubstring(p, IndexOf(p, bangumiId) + |bangumiId| + 1, |p|)
  }

  /** A path built as `root/bangumiId/rest`, whose first occurrence of the
      bangumi id is that segment, yields `rest`. */
  lemma RelativePathOfJoin(root: string, bangumiId: string, rest: string)
    requires root != "" && bangumiId != "" && rest != ""
    requires IndexOf(root + [Sep] + bangumiId, bangumiId) == |root| + 1
    ensures RelativePath(Join(Join(root, bangumiId), rest), bangumiId) == rest
  {
    var dir := root + [Sep] + bangumiId;
    var p := dir + [Sep] + rest;
    assert Join(Join(root, bangumiId), rest) == p;
    assert p[..|dir|] == dir;
    FirstOccurrenceInPrefix(dir, [Sep] + rest, bangumiId, |root| + 1);
    assert p == dir + ([Sep] + rest);
    assert p[|dir| + 1..] == rest;
  }

  /** The first occurrence in a string is still the first once text is
      appended. */
  lemma FirstOccurrenceInPrefix(s: string, t: string, b: string, k: nat)
    requires IndexOf(s, b) == k
    ensures IndexOf(s + t, b) == k
  {
    var st := s + t;
    assert OccursAt(s, b, k);
    assert st[k..k + |b|] == s[k..k + |b|];
    assert OccursAt(st, b, k);
    forall i | 0 <= i < k
      ensures !OccursAt(st, b, i)
    {
      assert !OccursAt(s, b, i);
      assert i + |b| <= |s|;
      assert st[i..i + |b|] == s[i..i + |b|];
    }
  }

  /** When the bangumi id does not occur at all, the start is `-1 + |id| + 1`,
      so the first `|id|` characters are dropped instead. */
  lemma RelativePathWhenAbsent(p: string, bangumiId: string)
    requires IndexOf(p, bangumiId) == -1 && |bangumiId| <= |p|
    ensures RelativePath(p, bangumiId) == p[|bangumiId|..]
  {
  }

  /** The catalogue call made when a video is in place. */
  datatype RpcRequest = RpcRequest(url: string, videoId: string, bangumiId: string, filePath: string)

  /** What handling one video-manager message did: where the video was put,
      the transfer asked of the file manager, the catalogue call, and
      whether it threw. */
  datatype VideoRun = VideoRun(
    dest: Option<string>,
    download: Option<(RemoteFile, string, string)>,
    rpc: Option<RpcRequest>,
    outcome: Outcome<Fault>)

  /** The stored name of a processed video in the bangumi directory. */
  function ProcessedDestination(defaultLocation: string, msg: VideoManagerMessage, hash: string): string
    requires NanoidAlphabet(hash)
  {
    Join(Join(defaultLocation, msg.bangumiId), ProcessFilename(Basename(msg.processedFile.filename), hash))
  }

  /** `onVideoManagerMessage`: a processed video is fetched from the video
      manager under a fresh name (`hash` is the random suffix); otherwise
      the finished download is copied (`copied` is where `copyVideoFile`
      put it, or `None` when it found no job and resolved `undefined`).
      Then the catalogue is told the path relative to the bangumi
      directory; an `undefined` path makes that step throw a TypeError
      before any request. `fetched` and `copied` are what the transfer
      calls returned or threw, and `rpc` is the outcome of the catalogue
      call. */
  function OnVideoManagerMessage(msg: VideoManagerMessage, defaultLocation: string, rpcUrl: string,
                                 hash: string, fetched: Outcome<Fault>, copied: Result<Option<string>, Fault>,
                                 rpc: Outcome<Fault>): (r: VideoRun)
    requires NanoidAlphabet(hash)
    ensures msg.isProcessed ==>
      && r.dest == Some(ProcessedDestination(defaultLocation, msg, hash))
      && r.download == Some((msg.processedFile, r.dest.value, msg.jobExecutorId))
    ensures !msg.isProcessed ==> r.download.None? && (r.dest.Some? <==> copied.Ok? && copied.value.Some?)
    ensures !msg.isProcessed && copied.Ok? && copied.value.Some? ==> r.dest == Some(copied.value.value)
    // the catalogue is called exactly when the transfer call returned a
    // path; both transfers swallow their own copy errors, so a return does
    // not prove that the file arrived
    ensures r.rpc.Some? <==> (if msg.isProcessed then fetched.Pass? else copied.Ok? && copied.value.Some?)
    ensures !msg.isProcessed && copied == Ok(None) ==> r.outcome == Fail(UndefinedPath)
    ensures r.rpc.Some? ==>
      r.rpc.value == RpcRequest(rpcUrl + "/download_complete", msg.videoId, msg.bangumiId, Encode(RelativePath(r.dest.value, msg.bangumiId)))
    ensures r.rpc.Some? ==> r.outcome == rpc
  {
    var savePath := Join(defaultLocation, msg.bangumiId);
    if msg.isProcessed then
      var dest := Join(savePath, ProcessFilename(Basename(msg.processedFile.filename), hash));
      var download := Some((msg.processedFile, dest, msg.jobExecutorId));
      match fetched
      case Fail(e) => VideoRun(Some(dest), download, None, Fail(e))
      case Pass => VideoRun(Some(dest), download, Some(Notify(rpcUrl, msg, dest)), rpc)
    else
      match copied
      case Err(e) => VideoRun(None, None, None, Fail(e))
      case Ok(None) => VideoRun(None, None, None, Fail(UndefinedPath))
      case Ok(Some(dest)) => VideoRun(Some(dest), None, Some(Notify(rpcUrl, msg, dest)), rpc)
  }

  /** What `callAlbireoRpc` throws when handed an `undefined` path: reading
      `substring` of `undefined`. */
  const UndefinedPath := Fault("TypeError: Cannot read properties of undefined (reading 'substring')")

  function Notify(rpcUrl: string, msg: VideoManagerMessage, dest: string): RpcRequest {
    RpcRequest(rpcUrl + "/download_complete", msg.videoId, msg.bangumiId, Encode(RelativePath(dest, msg.bangumiId)))
  }

  /** For a processed video, the catalogue is given the stored file name
      alone, provided the bangumi id first occurs as its own directory. */
  lemma ProcessedPathIsFileName(msg: VideoManagerMessage, defaultLocation: string, rpcUrl: string,
                                hash: string, copied: Result<Option<string>, Fault>, rpc: Outcome<Fault>)
    requires NanoidAlphabet(hash) && msg.isProcessed
    requires defaultLocation != "" && msg.bangumiId != ""
    requires IndexOf(defaultLocation + [Sep] + msg.bangumiId, msg.bangumiId) == |defaultLocation| + 1
    ensures var r := OnVideoManagerMessage(msg, defaultLocation, rpcUrl, hash, Pass, copied, rpc);
      r.rpc.Some? &&
      r.rpc.value.filePath == Encode(ProcessFilename(Basename(msg.processedFile.filename), hash))
  {
    var name := ProcessFilename(Basename(msg.processedFile.filename), hash);
    assert |name| > 0;
    RelativePathOfJoin(defaultLocation, msg.bangumiId, name);
  }
}

=== FILE: download_service.dfy ===
/** The download service: submitting a job to the daemon, choosing which
    status changes trigger completion, and building the completion messages
    that announce a finished torrent's files. The daemon's answers, the
    file-URL builder and the id supply are parameters. */
module DownloadService {
  import opened Wrappers
  import opened Paths
  import opened Jobs
  import opened QBittorrentSession
  import opened QBittorrentReconciliation

  /** One published file: its base name, where it lies on this host, and the
      URL it is served under. */
  datatype RemoteFile = RemoteFile(filename: string, fileLocalPath: string, fileUri: string)

  /** The outbound completion message. */
  datatype DownloadMessage = DownloadMessage(
    id: string,
    downloadTaskId: string,
    bangumiId: string,
    downloadManagerId: string,
    videoId: Option<string>,
    videoFile: Option<RemoteFile>,
    otherFiles: seq<RemoteFile>)

  /** Why a completion produced no message. */
  datatype CompletionError = AdapterFailed(failure: Failure) | NoVideoFile

  /** The published form of every torrent file, in order. `fileUrl(name,
      jobId)` is the configured URL builder. */
  function RemoteFiles(files: seq<TorrentFile>, savePath: string, jobId: string,
                       fileUrl: (string, string) -> string): (r: seq<RemoteFile>)
    ensures |r| == |files|
    ensures forall i :: 0 <= i < |files| ==>
      r[i] == RemoteFile(Basename(files[i].name), Join(savePath, files[i].name), fileUrl(files[i].name, jobId))
  {
    seq(|files|, i requires 0 <= i < |files| =>
      RemoteFile(Basename(files[i].name), Join(savePath, files[i].name), fileUrl(files[i].name, jobId)))
  }

  /** `files.findIndex(f => f.name === name)`. */
  function FindIndexByName(files: seq<TorrentFile>, name: string): (r: int)
    ensures -1 <= r < |files|
    ensures r == -1 <==> forall i :: 0 <= i < |files| ==> files[i].name != name
    ensures r != -1 ==> files[r].name == name && forall i :: 0 <= i < r ==> files[i].name != name
  {
    if |files| == 0 then -1
    else if files[0].name == name then 0
    else
      var k := FindIndexByName(files[1..], name);
      if k == -1 then -1 else k + 1
  }

  /** `remotes.findIndex(f => f.filename === name)`. */
  function FindIndexByFilename(remotes: seq<RemoteFile>, name: string): (r: int)
    ensures -1 <= r < |remotes|
    ensures r == -1 <==> forall i :: 0 <= i < |remotes| ==> remotes[i].filename != name
    ensures r != -1 ==> remotes[r].filename == name && forall i :: 0 <= i < r ==> remotes[i].filename != name
  {
    if |remotes| == 0 then -1
    else if remotes[0].filename == name then 0
    else
      var k := FindIndexByFilename(remotes[1..], name);
      if k == -1 then -1 else k + 1
  }

  /** `s.filter((f, i) => i !== j)`: every element but the one at `j`. */
  function WithoutIndex<T>(s: seq<T>, j: int): (r: seq<T>)
    ensures 0 <= j < |s| ==> |r| == |s| - 1 && multiset(r) + multiset{s[j]} == multiset(s)
    ensures 0 <= j < |s| ==> forall i :: 0 <= i < |s| && i != j ==> s[i] in r
    ensures !(0 <= j < |s|) ==> r == s
  {
    if 0 <= j < |s| then
      assert s == s[..j] + [s[j]] + s[j + 1..];
      var r := s[..j] + s[j + 1..];
      assert forall i :: 0 <= i < j ==> s[i] == r[i];
      assert forall i :: j < i < |s| ==> s[i] == r[i - 1];
      r
    else s
  }

  /** `s.splice(start, 1)` on the remaining array: a negative start counts
      from the end. */
  function SpliceOne<T>(s: seq<T>, start: int): (r: seq<T>)
    ensures 0 <= start ==> r == WithoutIndex(s, start)
  {
    var k := if start < 0 then (if |s| + start < 0 then 0 else |s| + start) else start;
    WithoutIndex(s, k)
  }

  /** The position `findVideoFile` settles on after scanning `files[i..]`,
      having kept the largest size seen so far and its position. */
  function MaxScan(files: seq<TorrentFile>, i: nat, maxSize: int, maxIndex: nat): (r: nat)
    decreases |files| - i
    ensures r == maxIndex || i <= r < |files|
  {
    if i >= |files| then maxIndex
    else if maxSize < files[i].size then MaxScan(files, i + 1, files[i].size, i)
    else MaxScan(files, i + 1, maxSize, maxIndex)
  }

  /** `findVideoFile`: the index of the file it picks, 0 when nothing is
      larger than zero bytes. */
  function FindVideoFile(files: seq<TorrentFile>): (r: nat)
    ensures |files| > 0 ==> r < |files|
  {
    MaxScan(files, 0, 0, 0)
  }

  /** Position `k` holds the first file of the largest size. */
  predicate FirstLargest(files: seq<TorrentFile>, k: int) {
    && 0 <= k < |files|
    && (forall i :: 0 <= i < |files| ==> files[i].size <= files[k].size)
    && (forall i :: 0 <= i < k ==> files[i].size < files[k].size)
  }

  /** The scan picks the first file of the largest size when some file has
      a positive size (ties go to the earliest), and index 0 otherwise. */
  lemma FindVideoFilePicksFirstLargest(files: seq<TorrentFile>)
    ensures (exists i :: 0 <= i < |files| && files[i].size > 0) ==> FirstLargest(files, FindVideoFile(files))
    ensures (forall i :: 0 <= i < |files| ==> files[i].size <= 0) ==> FindVideoFile(files) == 0
  {
    MaxScanInvariant(files, 0, 0, 0);
  }

  lemma {:induction false} MaxScanInvariant(files: seq<TorrentFile>, i: nat, maxSize: int, maxIndex: nat)
    requires i <= |files|
    requires || (maxSize == 0 && maxIndex == 0 && forall j :: 0 <= j < i ==> files[j].size <= 0)
             || (maxIndex < i && maxSize == files[maxIndex].size && maxSize > 0 &&
                 (forall j :: 0 <= j < i ==> files[j].size <= maxSize) &&
                 (forall j :: 0 <= j < maxIndex ==> files[j].size < maxSize))
    ensures var r := MaxScan(files, i, maxSize, maxIndex);
      && ((exists j :: 0 <= j < |files| && files[j].size > 0) ==> FirstLargest(files, r))
      && ((forall j :: 0 <= j < |files| ==> files[j].size <= 0) ==> r == 0)
    decreases |files| - i
  {
    if i < |files| {
      if maxSize < files[i].size {
        MaxScanInvariant(files, i + 1, files[i].size, i);
      } else {
        MaxScanInvariant(files, i + 1, maxSize, maxIndex);
      }
    }
  }

  /** `newMessage(job)`: a fresh id, the job's ids and video, and this
      instance's id. */
  function NewMessage(job: DownloadJob, id: string, applicationId: string): DownloadMessage {
    DownloadMessage(id, job.id, job.bangumiId, applicationId, job.videoId, None, [])
  }

  /** The fields `newMessage` fills and no later step overwrites. */
  predicate Stamped(msg: DownloadMessage, job: DownloadJob, id: string, applicationId: string) {
    && msg.id == id && msg.downloadTaskId == job.id
    && msg.bangumiId == job.bangumiId && msg.downloadManagerId == applicationId
  }

  /** Message k carries the k-th fresh id and the job's stamp. */
  predicate AllStamped(msgs: seq<DownloadMessage>, job: DownloadJob, freshId: nat -> string, applicationId: string) {
    forall k :: 0 <= k < |msgs| ==> Stamped(msgs[k], job, freshId(k), applicationId)
  }

  /** The message for mapping entry `m` over the job's torrent files. */
  function MappingMessage(job: DownloadJob, m: FileMapping, files: seq<TorrentFile>,
                          remotes: seq<RemoteFile>, id: string, applicationId: string): (r: DownloadMessage)
    requires |remotes| == |files|
    ensures Stamped(r, job, id, applicationId)
  {
    var j := FindIndexByName(files, m.filePath);
    NewMessage(job, id, applicationId).(
      videoId := Some(m.videoId),
      videoFile := if j == -1 then None else Some(remotes[j]),
      otherFiles := WithoutIndex(remotes, j))
  }

  /** One message per mapping entry, in mapping order. */
  function MappingMessagesFor(job: DownloadJob, mapping: seq<FileMapping>, files: seq<TorrentFile>, savePath: string,
                              fileUrl: (string, string) -> string, freshId: nat -> string, applicationId: string): (r: seq<DownloadMessage>)
    ensures |r| == |mapping|
    ensures AllStamped(r, job, freshId, applicationId)
  {
    var remotes := RemoteFiles(files, savePath, job.id, fileUrl);
    seq(|mapping|, k requires 0 <= k < |mapping| =>
      MappingMessage(job, mapping[k], files, remotes, freshId(k), applicationId))
  }

  /** `downloadComplete(job)` in the legacy case: the largest file is the
      video; the first file with the same base name is dropped from the
      others. The video's remote form is rebuilt from the same name, save
      path and job id as its entry in `remotes`, so it is that entry. */
  function LegacyMessage(job: DownloadJob, files: seq<TorrentFile>, remotes: seq<RemoteFile>,
                         id: string, applicationId: string): (r: DownloadMessage)
    requires |remotes| == |files| > 0
    ensures Stamped(r, job, id, applicationId)
  {
    var videoFile := remotes[FindVideoFile(files)];
    NewMessage(job, id, applicationId).(
      videoFile := Some(videoFile),
      otherFiles := SpliceOne(remotes, FindIndexByFilename(remotes, videoFile.filename)))
  }

  /** `downloadComplete(job)`: the messages handed to the publisher, from the
      adapter's completed files and save path. A file mapping, even an empty
      one, yields one message per entry; without one the single legacy
      message is built, which fails on an empty file list because the
      guessed video file is undefined. `freshId(k)` is the id of message k. */
  function DownloadComplete(job: DownloadJob, content: Result<seq<TorrentFile>, Failure>,
                            info: Result<string, Failure>, applicationId: string,
                            fileUrl: (string, string) -> string, freshId: nat -> string): (r: Result<seq<DownloadMessage>, CompletionError>)
    ensures content.Err? ==> r == Err(AdapterFailed(content.error))
    ensures content.Ok? && info.Err? ==> r == Err(AdapterFailed(info.error))
    ensures content.Ok? && info.Ok? && job.fileMapping.Some? ==> r.Ok? && |r.value| == |job.fileMapping.value|
    ensures content.Ok? && info.Ok? && job.fileMapping.None? ==>
      (|content.value| == 0 <==> r == Err(NoVideoFile)) && (r.Ok? ==> |r.value| == 1)
    ensures r.Ok? ==> AllStamped(r.value, job, freshId, applicationId)
  {
    match content
    case Err(f) => Err(AdapterFailed(f))
    case Ok(files) =>
      match info
      case Err(f) => Err(AdapterFailed(f))
      case Ok(savePath) => Completion(job, files, savePath, applicationId, fileUrl, freshId)
  }

  /** The messages of a completion whose files and save path were read. */
  function Completion(job: DownloadJob, files: seq<TorrentFile>, savePath: string, applicationId: string,
                      fileUrl: (string, string) -> string, freshId: nat -> string): (r: Result<seq<DownloadMessage>, CompletionError>)
    ensures job.fileMapping.Some? ==> r.Ok? && |r.value| == |job.fileMapping.value|
    ensures job.fileMapping.None? ==> (|files| == 0 <==> r == Err(NoVideoFile)) && (r.Ok? ==> |r.value| == 1)
    ensures r.Ok? ==> AllStamped(r.value, job, freshId, applicationId)
  {
    match job.fileMapping
    case Some(mapping) => Ok(MappingMessagesFor(job, mapping, files, savePath, fileUrl, freshId, applicationId))
    case None => LegacyCompletion(job, files, RemoteFiles(files, savePath, job.id, fileUrl), applicationId, freshId)
  }

  /** The legacy completion: one message, or none when there is no file to
      call the video. */
  function LegacyCompletion(job: DownloadJob, files: seq<TorrentFile>, remotes: seq<RemoteFile>,
                            applicationId: string, freshId: nat -> string): (r: Result<seq<DownloadMessage>, CompletionError>)
    requires |remotes| == |files|
    ensures |files| == 0 <==> r == Err(NoVideoFile)
    ensures r.Ok? ==> |r.value| == 1 && AllStamped(r.value, job, freshId, applicationId)
  {
    if |files| == 0 then Err(NoVideoFile)
    else
      var msg := LegacyMessage(job, files, remotes, freshId(0), applicationId);
      assert AllStamped([msg], job, freshId, applicationId) by {
        assert Stamped([msg][0], job, freshId(0), applicationId);
      }
      Ok([msg])
  }

  /** Mapping message k announces entry k's video: the first torrent file
      whose name is the entry's path, or no file when none is; the others are
      every remaining file, including files other entries claim. */
  lemma MappingMessages(job: DownloadJob, files: seq<TorrentFile>, savePath: string, applicationId: string,
                        fileUrl: (string, string) -> string, freshId: nat -> string, k: nat)
    requires job.fileMapping.Some? && k < |job.fileMapping.value|
    ensures var r := DownloadComplete(job, Ok(files), Ok(savePath), applicationId, fileUrl, freshId);
      var m := job.fileMapping.value[k];
      var remotes := RemoteFiles(files, savePath, job.id, fileUrl);
      var msg := r.value[k];
      && r.Ok?
      && msg.videoId == Some(m.videoId)
      && ((forall i :: 0 <= i < |files| ==> files[i].name != m.filePath) ==>
            msg.videoFile.None? && msg.otherFiles == remotes)
      && (forall j :: 0 <= j < |files| && files[j].name == m.filePath && (forall i :: 0 <= i < j ==> files[i].name != m.filePath) ==>
            && msg.videoFile == Some(remotes[j])
            && |msg.otherFiles| == |files| - 1
            && multiset(msg.otherFiles) + multiset{remotes[j]} == multiset(remotes)
            && forall i :: 0 <= i < |files| && i != j ==> remotes[i] in msg.otherFiles)
  {
    var m := job.fileMapping.value[k];
    var remotes := RemoteFiles(files, savePath, job.id, fileUrl);
    var msgs := MappingMessagesFor(job, job.fileMapping.value, files, savePath, fileUrl, freshId, applicationId);
    assert DownloadComplete(job, Ok(files), Ok(savePath), applicationId, fileUrl, freshId) == Ok(msgs);
    assert msgs[k] == MappingMessage(job, m, files, remotes, freshId(k), applicationId);
  }

  /** The legacy message announces the first largest file (the first file
      when none has a positive size) under the job's own video id, and lists
      one file fewer as the others: the first one sharing the video's base
      name, which comes no later than the video itself. */
  lemma LegacyMessageShape(job: DownloadJob, files: seq<TorrentFile>, savePath: string, applicationId: string,
                           fileUrl: (string, string) -> string, freshId: nat -> string)
    requires job.fileMapping.None? && |files| > 0
    ensures var r := DownloadComplete(job, Ok(files), Ok(savePath), applicationId, fileUrl, freshId);
      var remotes := RemoteFiles(files, savePath, job.id, fileUrl);
      var v := FindVideoFile(files);
      var w := FindIndexByFilename(remotes, Basename(files[v].name));
      && v < |files| && r.Ok? && |r.value| == 1
      && r.value[0].videoId == job.videoId
      && r.value[0].videoFile == Some(remotes[v])
      && 0 <= w <= v
      && r.value[0].otherFiles == WithoutIndex(remotes, w)
      && |r.value[0].otherFiles| == |files| - 1
  {
    FindVideoFilePicksFirstLargest(files);
    var remotes := RemoteFiles(files, savePath, job.id, fileUrl);
    var v := FindVideoFile(files);
    var msg := LegacyMessage(job, files, remotes, freshId(0), applicationId);
    assert DownloadComplete(job, Ok(files), Ok(savePath), applicationId, fileUrl, freshId) == Ok([msg]);
    assert msg.videoFile == Some(remotes[v]);
    assert remotes[v].filename == Basename(files[v].name);
    var w := FindIndexByFilename(remotes, Basename(files[v].name));
    assert msg.otherFiles == WithoutIndex(remotes, w);
  }

  /** Two completed files with the same base name `n` in directories `da`
      and `db`, the second one larger. */
  function Namesakes(da: string, db: string, n: string): seq<TorrentFile> {
    [TorrentFile(Join(da, n), 1, 1.0), TorrentFile(Join(db, n), 2, 1.0)]
  }

  lemma NamesakeVideo(da: string, db: string, n: string)
    ensures FindVideoFile(Namesakes(da, db, n)) == 1
  {
    var files := Namesakes(da, db, n);
    assert MaxScan(files, 2, 2, 1) == 1;
    assert MaxScan(files, 1, 1, 0) == 1;
  }

  /** Two files with the same base name in different directories: the
      legacy message announces the larger, second one, keeps it among the
      others as well, and drops the unrelated first file instead. */
  lemma LegacyDropsNamesake(job: DownloadJob, da: string, db: string, n: string, savePath: string,
                            applicationId: string, fileUrl: (string, string) -> string, freshId: nat -> string)
    requires job.fileMapping.None?
    requires n != "" && Sep !in n && da != db
    ensures var files := Namesakes(da, db, n);
      var r := DownloadComplete(job, Ok(files), Ok(savePath), applicationId, fileUrl, freshId);
      var remotes := RemoteFiles(files, savePath, job.id, fileUrl);
      && r.Ok? && r.value[0].videoFile == Some(remotes[1])
      && r.value[0].otherFiles == [remotes[1]]
      && remotes[0] != remotes[1]
  {
    NamesakeVideo(da, db, n);
    LegacyMessageShape(job, Namesakes(da, db, n), savePath, applicationId, fileUrl, freshId);
    NamesakeRemotes(da, db, n, savePath, job.id, fileUrl);
    NamesakeOthers(da, db, n, savePath, job.id, fileUrl);
    WithoutFirstOfTwo(RemoteFiles(Namesakes(da, db, n), savePath, job.id, fileUrl));
  }

  /** Both namesakes publish under the name `n`, at different local paths. */
  lemma NamesakeRemotes(da: string, db: string, n: string, savePath: string,
                        jobId: string, fileUrl: (string, string) -> string)
    requires n != "" && Sep !in n && da != db
    ensures var files := Namesakes(da, db, n);
      var remotes := RemoteFiles(files, savePath, jobId, fileUrl);
      && Basename(files[1].name) == n
      && FindIndexByFilename(remotes, n) == 0
  {
    var files := Namesakes(da, db, n);
    var remotes := RemoteFiles(files, savePath, jobId, fileUrl);
    assert remotes[0].filename == n by { BasenameOfJoin(da, n); }
    assert Basename(files[1].name) == n by { BasenameOfJoin(db, n); }
  }

  lemma NamesakeOthers(da: string, db: string, n: string, savePath: string,
                       jobId: string, fileUrl: (string, string) -> string)
    requires n != "" && da != db
    ensures var remotes := RemoteFiles(Namesakes(da, db, n), savePath, jobId, fileUrl);
      remotes[0] != remotes[1]
  {
    NamesakePathsDiffer(da, db, n, savePath);
  }

  lemma WithoutFirstOfTwo<T>(s: seq<T>)
    requires |s| == 2
    ensures WithoutIndex(s, 0) == [s[1]]
  {
  }

  lemma NamesakePathsDiffer(da: string, db: string, n: string, savePath: string)
    requires n != "" && da != db
    ensures Join(savePath, Join(da, n)) != Join(savePath, Join(db, n))
  {
    JoinInjective(da, db, n);
    JoinRightInjective(savePath, Join(da, n), Join(db, n));
  }

  /** Different names in the same directory give different paths. */
  lemma JoinRightInjective(a: string, x: string, y: string)
    requires x != y
    ensures Join(a, x) != Join(a, y)
  {
  }

  /** Different directories give different paths for the same name. */
  lemma JoinInjective(da: string, db: string, n: string)
    requires n != "" && da != db
    ensures Join(da, n) != Join(db, n)
  {
  }

  /** `start`'s first filter: the event carries a non-empty job id. */
  predicate Admitted(id: Option<string>) {
    id.Some? && id.value != ""
  }

  /** The event at `k` passes the first filter and the store's `findOne`
      for it rejected. */
  predicate LookupFails(ids: seq<Option<string>>, lookup: nat -> Result<Option<DownloadJob>, Fault>, k: nat)
    requires k < |ids|
  {
    Admitted(ids[k]) && lookup(k).Err?
  }

  /** The event at `k` passes both filters: its job was found and is
      Complete. */
  predicate Triggers(ids: seq<Option<string>>, lookup: nat -> Result<Option<DownloadJob>, Fault>, k: nat)
    requires k < |ids|
  {
    && Admitted(ids[k])
    && lookup(k).Ok?
    && lookup(k).value.Some?
    && lookup(k).value.value.status == Complete
  }

  /** The job found for a triggering event. */
  function FoundJob(ids: seq<Option<string>>, lookup: nat -> Result<Option<DownloadJob>, Fault>, k: nat): DownloadJob
    requires k < |ids| && Triggers(ids, lookup, k)
  {
    lookup(k).value.value
  }

  /** The position of the first failing lookup at or after `k`, or `|ids|`
      when none fails. */
  function FirstFailure(ids: seq<Option<string>>, lookup: nat -> Result<Option<DownloadJob>, Fault>, k: nat): (f: nat)
    requires k <= |ids|
    ensures k <= f <= |ids|
    ensures f < |ids| ==> LookupFails(ids, lookup, f)
    ensures forall i :: k <= i < f ==> !LookupFails(ids, lookup, i)
    decreases |ids| - k
  {
    if k == |ids| then k
    else if LookupFails(ids, lookup, k) then k
    else FirstFailure(ids, lookup, k + 1)
  }

  /** The positions below `n` whose events trigger completion, in order. */
  function TriggerPositions(ids: seq<Option<string>>, lookup: nat -> Result<Option<DownloadJob>, Fault>, n: nat): (pos: seq<nat>)
    requires n <= |ids|
    ensures forall i :: 0 <= i < |pos| ==> pos[i] < n && Triggers(ids, lookup, pos[i])
    ensures forall i, j :: 0 <= i < j < |pos| ==> pos[i] < pos[j]
    ensures forall k :: 0 <= k < n && Triggers(ids, lookup, k) ==> k in pos
  {
    if n == 0 then []
    else
      var before := TriggerPositions(ids, lookup, n - 1);
      if Triggers(ids, lookup, n - 1) then before + [n - 1] else before
  }

  /** What the status-change subscription did: the jobs handed to
      `downloadComplete`, in order, and the lookup failure that ended it. */
  datatype TriggerRun = TriggerRun(completed: seq<DownloadJob>, ended: Option<Fault>)

  /** `start`'s pipeline over the daemon's status-change events: an event
      with a non-empty job id is looked up with the store's `findOne`
      (`lookup(k)` for the event at `k`), and a found job that is Complete
      triggers completion. The store is read afresh for every event: the
      reconciliation loop saves each new status before emitting it, so two
      events for one job may find different statuses. A
      rejected lookup errors the pipeline; the subscription has no error
      handler, so it ends there and later events trigger nothing. Lookups
      are taken to resolve in arrival order. */
  method CompletionTriggers(ids: seq<Option<string>>, lookup: nat -> Result<Option<DownloadJob>, Fault>)
    returns (r: TriggerRun)
    ensures var f := FirstFailure(ids, lookup, 0);
            var pos := TriggerPositions(ids, lookup, f);
            && |r.completed| == |pos|
            && forall i :: 0 <= i < |pos| ==> r.completed[i] == FoundJob(ids, lookup, pos[i])
    ensures r.ended.Some? <==> FirstFailure(ids, lookup, 0) < |ids|
    ensures r.ended.Some? ==> r.ended.value == lookup(FirstFailure(ids, lookup, 0)).error
  {
    var completed: seq<DownloadJob> := [];
    var k := 0;
    while k < |ids| && !LookupFails(ids, lookup, k)
      invariant 0 <= k <= |ids|
      invariant forall i :: 0 <= i < k ==> !LookupFails(ids, lookup, i)
      invariant |completed| == |TriggerPositions(ids, lookup, k)|
      invariant forall i :: 0 <= i < |completed| ==>
        completed[i] == FoundJob(ids, lookup, TriggerPositions(ids, lookup, k)[i])
    {
      if Triggers(ids, lookup, k) {
        completed := completed + [FoundJob(ids, lookup, k)];
      }
      k := k + 1;
    }
    FirstFailureIsStop(ids, lookup, k);
    if k < |ids| {
      r := TriggerRun(completed, Some(lookup(k).error));
    } else {
      r := TriggerRun(completed, None);
    }
  }

  /** The loop stops at the first failure. */
  /** The usual run for one job: its first event finds it Downloading, its
      second finds it Complete, and completion runs exactly once, for the
      second. */
  lemma OneJobCompletesOnce(a: string, downloading: DownloadJob, complete: DownloadJob,
                            lookup: nat -> Result<Option<DownloadJob>, Fault>)
    requires a != ""
    requires downloading.status == Downloading && complete.status == Complete
    requires lookup(0) == Ok(Some(downloading)) && lookup(1) == Ok(Some(complete))
    ensures var ids := [Some(a), Some(a)];
            && FirstFailure(ids, lookup, 0) == 2
            && TriggerPositions(ids, lookup, 2) == [1]
  {
    var ids := [Some(a), Some(a)];
    assert !LookupFails(ids, lookup, 0) && !LookupFails(ids, lookup, 1);
    assert !Triggers(ids, lookup, 0) && Triggers(ids, lookup, 1);
  }

  lemma FirstFailureIsStop(ids: seq<Option<string>>, lookup: nat -> Result<Option<DownloadJob>, Fault>, k: nat)
    requires k <= |ids|
    requires forall i :: 0 <= i < k ==> !LookupFails(ids, lookup, i)
    requires k < |ids| ==> LookupFails(ids, lookup, k)
    ensures FirstFailure(ids, lookup, 0) == k
  {
  }

  /** Why `download(job)` threw: the daemon refused the torrent, or the
      store did not take the job afterwards. */
  datatype SubmitError = DaemonFailed(failure: Failure) | SaveFailed(fault: Fault)

  /** What `download(job)` did: the daemon request made, the job handed to
      the store's `save`, and the outcome. */
  datatype SubmitRun = SubmitRun(request: (string, string), saved: Option<DownloadJob>, outcome: Outcome<SubmitError>)

  /** `download(job)`: record the configured daemon flavour on the job (an
      unrecognised setting leaves it unchanged), ask the daemon to fetch the
      torrent into `<default location>/<bangumiId>`, and save the job with
      the returned hash. A daemon failure reaches the caller and nothing is
      saved; a failed save reaches the caller too, after the daemon has
      taken the torrent. `save` is the store's answer. */
  function Submit(job: DownloadJob, configured: Option<DownloaderType>, defaultLocation: string,
                  added: Result<string, Failure>, save: Outcome<Fault>): (r: SubmitRun)
    ensures r.request == (job.torrentUrl, Join(defaultLocation, job.bangumiId))
    ensures added.Err? <==> r.saved.None?
    ensures added.Err? ==> r.outcome == Fail(DaemonFailed(added.error))
    ensures r.outcome.Pass? <==> added.Ok? && save.Pass?
    ensures added.Ok? && save.Fail? ==> r.outcome == Fail(SaveFailed(save.error))
    ensures r.saved.Some? ==>
      && r.saved.value.torrentId == Some(added.value)
      && r.saved.value.downloader == configured.GetOr(job.downloader)
      && r.saved.value.(torrentId := job.torrentId, downloader := job.downloader) == job
  {
    var request := (job.torrentUrl, Join(defaultLocation, job.bangumiId));
    var flavoured := match configured
      case Some(d) => job.(downloader := d)
      case None => job;
    match added
    case Err(f) => SubmitRun(request, None, Fail(DaemonFailed(f)))
    case Ok(hash) =>
      var saved := Some(flavoured.(torrentId := Some(hash)));
      match save
      case Pass => SubmitRun(request, saved, Pass)
      case Fail(e) => SubmitRun(request, saved, Fail(SaveFailed(e)))
  }
}

=== FILE: file_manage_service.dfy ===
/** The file manager: the name a downloaded file is stored under, and how a
    remote file is fetched (a local copy, or an HTTP fetch from a rewritten
    URL). The copy and the fetch themselves are parameters. */
module FileManageService {
  import opened Wrappers
  import opened Text
  import opened Paths
  import opened QBittorrentReconciliation
  import opened DownloadService
  import ConfigManager

  /** The characters a nanoid may contain: letters, digits, `_` and `-`. */
  predicate NanoidAlphabet(hash: string) {
    forall i :: 0 <= i < |hash| ==>
      'a' <= hash[i] <= 'z' || 'A' <= hash[i] <= 'Z' || '0' <= hash[i] <= '9' || hash[i] == '_' || hash[i] == '-'
  }

  /** `processFilename(filename)` with the random suffix `hash`: every `,`
      becomes `_`, then the suffix goes between the stem and the
      extension. */
  function ProcessFilename(filename: string, hash: string): (r: string)
    requires NanoidAlphabet(hash)
    ensures ',' !in r && Sep !in r
  {
    var f := ReplaceAllChar(filename, ',', '_');
    var e := Extname(f);
    var b := BasenameWithout(f, e);
    BasenameWithoutHasNoSep(f, e);
    BasenameWithoutKeepsOut(f, e, ',');
    ExtnameKeepsOut(f, ',');
    SuffixedKeepsOut(b, hash, e);
    b + "-" + hash + e
  }

  /** Joining parts free of `,` and `/` with a dash and a suffix drawn from
      the nanoid alphabet introduces neither. */
  lemma SuffixedKeepsOut(b: string, hash: string, e: string)
    requires NanoidAlphabet(hash)
    requires ',' !in b && Sep !in b && ',' !in e && Sep !in e
    ensures var r := b + "-" + hash + e; ',' !in r && Sep !in r
  {
    var r := b + "-" + hash + e;
    forall i | 0 <= i < |r| ensures r[i] != ',' && r[i] != Sep {
      if i < |b| {
        assert r[i] == b[i];
      } else if i == |b| {
        assert r[i] == '-';
      } else if i < |b| + 1 + |hash| {
        assert r[i] == hash[i - |b| - 1];
      } else {
        assert r[i] == e[i - |b| - 1 - |hash|];
      }
    }
  }

  lemma BasenameWithoutHasNoSep(p: string, ext: string)
    ensures Sep !in BasenameWithout(p, ext)
  {
    var b := Basename(p);
    if |ext| < |b| && b[|b| - |ext|..] == ext {
      assert forall i :: 0 <= i < |b| - |ext| ==> b[..|b| - |ext|][i] == b[i];
    }
  }

  /** A character absent from `p` is absent from every part of its name. */
  lemma BasenameKeepsOut(p: string, c: char)
    requires c !in p
    ensures c !in Basename(p)
  {
    var q := StripTrailingSeps(p);
    var k := LastIndexOfChar(q, Sep) + 1;
    assert forall i :: 0 <= i < |q| ==> q[i] == p[i];
    assert forall i :: k <= i < |q| ==> q[k..][i - k] == q[i];
  }

  lemma BasenameWithoutKeepsOut(p: string, ext: string, c: char)
    requires c !in p
    ensures c !in BasenameWithout(p, ext)
  {
    BasenameKeepsOut(p, c);
    var b := Basename(p);
    if |ext| < |b| && b[|b| - |ext|..] == ext {
      assert forall i :: 0 <= i < |b| - |ext| ==> b[..|b| - |ext|][i] == b[i];
    }
  }

  lemma ExtnameKeepsOut(p: string, c: char)
    requires c !in p
    ensures c !in Extname(p)
  {
    BasenameKeepsOut(p, c);
    var b := Basename(p);
    var i := LastIndexOfChar(b, '.');
    if 0 < i && b != ".." {
      assert forall j :: i <= j < |b| ==> b[i..][j - i] == b[j];
    }
  }

  /** The stored name is the original's base name, commas replaced, with
      `-hash` inserted before the extension; directories are dropped. */
  lemma ProcessFilenameShape(filename: string, hash: string)
    requires NanoidAlphabet(hash)
    ensures var f := ReplaceAllChar(filename, ',', '_');
      exists stem :: stem + Extname(f) == Basename(f) &&
        ProcessFilename(filename, hash) == stem + "-" + hash + Extname(f)
  {
    var f := ReplaceAllChar(filename, ',', '_');
    var stem := BasenameWithout(f, Extname(f));
    StemPlusExtension(f);
    assert ProcessFilename(filename, hash) == stem + "-" + hash + Extname(f);
  }

  /** A name's stem followed by its extension is its base name. */
  lemma StemPlusExtension(f: string)
    ensures BasenameWithout(f, Extname(f)) + Extname(f) == Basename(f)
    ensures Extname(f) != "" ==> |BasenameWithout(f, Extname(f))| > 0
  {
    var b := Basename(f);
    SegmentSplits(b);
    assert Extname(b) == Extname(f);
    assert BasenameWithout(b, Extname(f)) == BasenameWithout(f, Extname(f));
  }

  /** The extension of the comma-free name is still the extension of the
      stored name. */
  lemma ProcessFilenameKeepsExtension(filename: string, hash: string)
    requires NanoidAlphabet(hash)
    requires Extname(ReplaceAllChar(filename, ',', '_')) != ""
    ensures Extname(ProcessFilename(filename, hash)) == Extname(ReplaceAllChar(filename, ',', '_'))
  {
    var f := ReplaceAllChar(filename, ',', '_');
    assert forall i :: 0 <= i < |hash| ==> hash[i] != Sep && hash[i] != '.';
    SuffixKeepsExtension(f, hash);
  }

  lemma SuffixKeepsExtension(f: string, hash: string)
    requires Extname(f) != "" && Sep !in hash && '.' !in hash
    ensures Extname(BasenameWithout(f, Extname(f)) + "-" + hash + Extname(f)) == Extname(f)
  {
    var stem := BasenameWithout(f, Extname(f));
    StemOfExtension(f);
    DashJoinHasNoSep(stem, hash);
    ExtnameOfSuffixed(stem + "-" + hash, Extname(f));
  }

  /** A name with an extension has a non-empty stem without separators. */
  lemma StemOfExtension(f: string)
    requires Extname(f) != ""
    ensures |BasenameWithout(f, Extname(f))| > 0 && Sep !in BasenameWithout(f, Extname(f))
  {
    StemPlusExtension(f);
    BasenameWithoutHasNoSep(f, Extname(f));
  }

  lemma DashJoinHasNoSep(stem: string, hash: string)
    requires Sep !in stem && Sep !in hash
    ensures Sep !in stem + "-" + hash
  {
    var dash := "-";
    assert Sep !in dash;
  }

  /** Appending an extension to a longer segment makes it the extension. */
  lemma ExtnameOfSuffixed(head: string, e: string)
    requires |head| >= 2 && Sep !in head
    requires e != "" && e[0] == '.' && '.' !in e[1..] && Sep !in e
    ensures Extname(head + e) == e
  {
    var s := head + e;
    assert forall i :: 0 <= i < |s| ==> s[i] != Sep by {
      forall i | 0 <= i < |s| ensures s[i] != Sep {
        if i >= |head| { assert s[i] == e[i - |head|]; }
      }
    }
    assert Basename(s) == s;
    var k := |head|;
    assert forall j :: k < j < |s| ==> s[j] == e[1..][j - k - 1];
    LastIndexOfCharIsLast(s, '.', k);
    assert s[k..] == e;
  }

  /** `trimEndSlash`: drop one trailing `/`. */
  function TrimEndSlash(p: string): (r: string)
    ensures |p| > 0 && p[|p| - 1] == '/' ==> r + "/" == p
    ensures !(|p| > 0 && p[|p| - 1] == '/') ==> r == p
  {
    if |p| > 0 && p[|p| - 1] == '/' then p[..|p| - 1] else p
  }

  /** Only one slash goes: a path ending in `//` still ends in `/`, so the
      trim is not idempotent there. */
  lemma TrimEndSlashRemovesOne(p: string)
    ensures TrimEndSlash(p + "//") == p + "/"
    ensures TrimEndSlash(TrimEndSlash(p + "//")) == p
  {
    assert (p + "//")[..|p| + 1] == p + "/";
  }

  /** A parsed URL: protocol (with its colon), host name, port, path and
      query. */
  datatype Url = Url(protocol: string, hostname: string, port: string, pathname: string, search: string)

  /** The port a special scheme implies, which a URL never spells out. */
  function DefaultPort(protocol: string): string {
    if protocol == "http:" || protocol == "ws:" then "80"
    else if protocol == "https:" || protocol == "wss:" then "443"
    else if protocol == "ftp:" then "21"
    else ""
  }

  /** The three assignments of `download` on the file's URL, in order: the
      `host` setter takes the mapped host name, and its port only when it
      has one (else the file's port stays); the `protocol` setter takes the
      mapped protocol; the `pathname` setter puts the mapped path, less one
      trailing slash, in front of the file's path. Each setter drops a port
      that is the default of the scheme in force; the query stays. */
  function Rewrite(file: Url, host: Url): (r: Url)
    ensures r.protocol == host.protocol && r.hostname == host.hostname
    // a mapped host without a port keeps the file's port
    ensures host.port == "" && file.port != DefaultPort(host.protocol) ==> r.port == file.port
    ensures host.port != "" && host.port != DefaultPort(file.protocol) && host.port != DefaultPort(host.protocol) ==>
      r.port == host.port
    ensures r.port == "" || (r.port != DefaultPort(host.protocol) && (r.port == host.port || r.port == file.port))
    ensures r.search == file.search
    ensures |r.pathname| >= |file.pathname| && r.pathname[|r.pathname| - |file.pathname|..] == file.pathname
    ensures var prefix := r.pathname[..|r.pathname| - |file.pathname|];
      && (|host.pathname| > 0 && host.pathname[|host.pathname| - 1] == '/' ==> prefix + "/" == host.pathname)
      && (!(|host.pathname| > 0 && host.pathname[|host.pathname| - 1] == '/') ==> prefix == host.pathname)
  {
    var hostSet := if host.port == "" then file.port
                   else if host.port == DefaultPort(file.protocol) then ""
                   else host.port;
    var protocolSet := if hostSet == DefaultPort(host.protocol) then "" else hostSet;
    Url(host.protocol, host.hostname, protocolSet, TrimEndSlash(host.pathname) + file.pathname, file.search)
  }

  /** A file served on this server's explicit port and a mapped host given
      without one: the fetch goes to the mapped host on the file's port. */
  lemma RewriteKeepsFilePort()
    ensures Rewrite(Url("http:", "localhost", "8080", "/file/content/j", "?relativeFilePath=a"),
                    Url("https:", "cdn.example.com", "", "/base", "")) ==
            Url("https:", "cdn.example.com", "8080", "/base/file/content/j", "?relativeFilePath=a")
  {
    var file := Url("http:", "localhost", "8080", "/file/content/j", "?relativeFilePath=a");
    var host := Url("https:", "cdn.example.com", "", "/base", "");
    assert DefaultPort(host.protocol) == "443";
    assert file.port != "443" by {
      assert file.port[0] != "443"[0];
    }
    assert TrimEndSlash(host.pathname) == "/base";
    assert "/base" + "/file/content/j" == "/base/file/content/j";
  }

  /** Rewriting twice moves the file under the host path twice, so the
      path is stable exactly when the host path is empty or `/`; scheme,
      host name and query are stable always, and so is the port when the
      mapped host gives none. */
  lemma RewriteIdempotentIffRoot(file: Url, host: Url)
    ensures var once := Rewrite(file, host);
      var twice := Rewrite(once, host);
      && twice.protocol == once.protocol && twice.hostname == once.hostname && twice.search == once.search
      && (twice.pathname == once.pathname <==> TrimEndSlash(host.pathname) == "")
      && (host.port == "" ==> twice.port == once.port)
  {
    var t := TrimEndSlash(host.pathname);
    var once := Rewrite(file, host);
    assert once.pathname == t + file.pathname;
    assert Rewrite(once, host).pathname == t + (t + file.pathname);
    if Rewrite(once, host).pathname == once.pathname {
      assert |t + (t + file.pathname)| == |t + file.pathname|;
    }
  }

  /** What `download` asked for. */
  datatype Transfer =
    | CopyFile(source: string, dest: string)
    | FetchUrl(url: Url, dest: string)
    | FetchUri(uri: string, dest: string)

  datatype FileDownload = FileDownload(transfers: seq<Transfer>, captured: seq<Fault>, outcome: Outcome<Fault>)

  /** `download(remoteFile, destPath, appId)`. `hosts` is the configured
      map from application id to host URL, `parse` the URL parser, and
      `copy` and `fetch` the outcomes of the copy and of the HTTP fetch. */
  function Download(remote: RemoteFile, dest: string, appId: string, hosts: map<string, string>,
                    parse: string -> Url, copy: Outcome<Fault>, fetch: Outcome<Fault>): (r: FileDownload)
    // a local host: one copy, never a fetch, and the copy's error is swallowed
    ensures appId in hosts && hosts[appId] != "" && parse(hosts[appId]).hostname == "localhost" ==>
      && r.transfers == [CopyFile(remote.fileLocalPath, dest)]
      && r.outcome == Pass
      && (r.captured == [] <==> copy.Pass?)
    // another host: one fetch of the rewritten URL
    ensures appId in hosts && hosts[appId] != "" && parse(hosts[appId]).hostname != "localhost" ==>
      && r.transfers == [FetchUrl(Rewrite(parse(remote.fileUri), parse(hosts[appId])), dest)]
      && r.outcome == fetch && r.captured == []
    // no mapped host: the file's own URI, when it has one
    ensures !(appId in hosts && hosts[appId] != "") ==>
      && r.captured == []
      && (remote.fileUri != "" ==> r.transfers == [FetchUri(remote.fileUri, dest)] && r.outcome == fetch)
      && (remote.fileUri == "" ==> r.transfers == [] && r.outcome == Pass)
    ensures |r.transfers| <= 1
  {
    var host := if appId in hosts then hosts[appId] else "";
    if host != "" then
      var hostUrl := parse(host);
      if hostUrl.hostname == "localhost" then
        FileDownload([CopyFile(remote.fileLocalPath, dest)], if copy.Fail? then [copy.error] else [], Pass)
      else
        FileDownload([FetchUrl(Rewrite(parse(remote.fileUri), hostUrl), dest)], [], fetch)
    else if remote.fileUri != "" then
      FileDownload([FetchUri(remote.fileUri, dest)], [], fetch)
    else FileDownload([], [], Pass)
  }

  /** Each mapping takes exactly one route: a local host never looks at the
      fetch, and any other mapping never looks at the copy. */
  lemma DownloadUsesOneRoute(remote: RemoteFile, dest: string, appId: string, hosts: map<string, string>,
                             parse: string -> Url, copy: Outcome<Fault>, fetch: Outcome<Fault>,
                             copy2: Outcome<Fault>, fetch2: Outcome<Fault>)
    ensures appId in hosts && hosts[appId] != "" && parse(hosts[appId]).hostname == "localhost" ==>
      Download(remote, dest, appId, hosts, parse, copy, fetch) == Download(remote, dest, appId, hosts, parse, copy, fetch2)
    ensures !(appId in hosts && hosts[appId] != "" && parse(hosts[appId]).hostname == "localhost") ==>
      Download(remote, dest, appId, hosts, parse, copy, fetch) == Download(remote, dest, appId, hosts, parse, copy2, fetch)
  {
  }

  /** Mapping an application to a bare host (no port, path empty or `/`)
      moves the fetch to that host's scheme and name and keeps the file's
      path and query; the file's port stays unless it is the new scheme's
      default. */
  lemma BareHostKeepsFileRoute(remote: RemoteFile, dest: string, appId: string, hosts: map<string, string>,
                               parse: string -> Url, copy: Outcome<Fault>, fetch: Outcome<Fault>)
    requires appId in hosts && hosts[appId] != ""
    requires var h := parse(hosts[appId]);
      h.hostname != "localhost" && h.port == "" && (h.pathname == "" || h.pathname == "/")
    ensures var h := parse(hosts[appId]);
      var f := parse(remote.fileUri);
      var port := if f.port == DefaultPort(h.protocol) then "" else f.port;
      Download(remote, dest, appId, hosts, parse, copy, fetch).transfers ==
        [FetchUrl(Url(h.protocol, h.hostname, port, f.pathname, f.search), dest)]
  {
    var h := parse(hosts[appId]);
    var f := parse(remote.fileUri);
    assert TrimEndSlash(h.pathname) == "";
    assert "" + f.pathname == f.pathname;
  }

  /** Without a configured map every download fetches the file's own URI,
      whatever the application. */
  lemma NoHostMapFetchesOwnUri(c: ConfigManager.AppConfig, remote: RemoteFile, dest: string, appId: string,
                               parse: string -> Url, copy: Outcome<Fault>, fetch: Outcome<Fault>)
    requires c.appIdHostMap.None?
    ensures var r := Download(remote, dest, appId, ConfigManager.AppIdHostMap(c), parse, copy, fetch);
      && r.transfers == (if remote.fileUri != "" then [FetchUri(remote.fileUri, dest)] else [])
      && r.outcome == (if remote.fileUri != "" then fetch else Pass)
  {
  }
}

=== FILE: job_cleaner.dfy ===
/** The job cleaner: the periodic sweep of the clean-up queue, the periodic
    expiry check of finished jobs, and the timers that drive both. The
    outcomes of `rm`, of the store and of the delete call are parameters. */
module JobCleaner {
  import opened Wrappers
  import opened Jobs
  import opened CleanUpTasks
  import opened QBittorrentReconciliation

  /** Delay before each expiry check: one day. */
  const CheckIntervalMs: nat := 24 * 3600 * 1000
  /** Delay before each sweep of the clean-up queue: five minutes. */
  const CleanUpIntervalMs: nat := 5 * 60000
  /** Milliseconds per day, the unit of the retention setting. */
  const DayMs: nat := 24 * 3600 * 1000

  /** The error code `rm` reports for a directory that does not exist. */
  const NoSuchEntry: string := "ENOENT"

  /** A task stays queued when `rm` failed for any reason but a missing
      directory. `Fail(code)` is a failed `rm` with its error code. */
  predicate Stays(o: Outcome<string>) {
    o.Fail? && o.error != NoSuchEntry
  }

  /** The tasks left after one pass over `tasks`, where `outcomes[i]` is the
      result of removing the directory of `tasks[i]`. */
  function Sweep(tasks: seq<CleanUpTask>, outcomes: seq<Outcome<string>>): (r: seq<CleanUpTask>)
    requires |outcomes| == |tasks|
    ensures |r| <= |tasks|
    ensures multiset(r) <= multiset(tasks)
    ensures forall t :: t in r <==> exists i :: 0 <= i < |tasks| && tasks[i] == t && Stays(outcomes[i])
  {
    if |tasks| == 0 then []
    else
      var rest := Sweep(tasks[1..], outcomes[1..]);
      assert forall i :: 1 <= i < |tasks| ==> tasks[1..][i - 1] == tasks[i] && outcomes[1..][i - 1] == outcomes[i];
      assert tasks == [tasks[0]] + tasks[1..];
      if Stays(outcomes[0]) then [tasks[0]] + rest else rest
  }

  /** A failed removal does not end the pass: the tasks after it are
      processed just the same, so the sweep splits over any cut. */
  lemma {:induction false} SweepSplits(a: seq<CleanUpTask>, oa: seq<Outcome<string>>,
                                       b: seq<CleanUpTask>, ob: seq<Outcome<string>>)
    requires |oa| == |a| && |ob| == |b|
    ensures Sweep(a + b, oa + ob) == Sweep(a, oa) + Sweep(b, ob)
  {
    if |a| == 0 {
      assert a + b == b && oa + ob == ob;
    } else {
      assert (a + b)[1..] == a[1..] + b && (oa + ob)[1..] == oa[1..] + ob;
      SweepSplits(a[1..], oa[1..], b, ob);
    }
  }

  /** A pass in which every removal succeeds or finds nothing empties the
      queue. */
  lemma {:induction false} SweepClears(tasks: seq<CleanUpTask>, outcomes: seq<Outcome<string>>)
    requires |outcomes| == |tasks|
    requires forall i :: 0 <= i < |tasks| ==> !Stays(outcomes[i])
    ensures Sweep(tasks, outcomes) == []
  {
    if |tasks| > 0 {
      SweepClears(tasks[1..], outcomes[1..]);
    }
  }

  /** What one `doCleanUp` did: the queue afterwards, how many flushes it
      made, and whether it threw. */
  datatype CleanUpRun = CleanUpRun(queue: seq<CleanUpTask>, flushes: nat, outcome: Outcome<Fault>)

  /** `doCleanUp` over the stored queue `stored`: fetch it (`fetched` is
      whether `findAll` answered); when it is not empty, try every
      directory, mark the tasks to drop, and flush once. The removals take
      effect with the flush, so a failed fetch or a failed flush leaves the
      stored queue as it was. */
  function DoCleanUp(stored: seq<CleanUpTask>, fetched: Outcome<Fault>, outcomes: seq<Outcome<string>>,
                     flush: Outcome<Fault>): (r: CleanUpRun)
    requires fetched.Pass? ==> |outcomes| == |stored|
    ensures multiset(r.queue) <= multiset(stored)
    ensures r.flushes <= 1
    ensures fetched.Fail? ==> r == CleanUpRun(stored, 0, Fail(fetched.error))
    ensures fetched.Pass? ==> (r.flushes == 1 <==> |stored| > 0)
    ensures fetched.Pass? && |stored| == 0 ==> r.queue == [] && r.outcome == Pass
    ensures fetched.Pass? && |stored| > 0 ==>
      && r.outcome == flush
      && (flush.Pass? ==> r.queue == Sweep(stored, outcomes))
      && (flush.Fail? ==> r.queue == stored)
  {
    match fetched
    case Fail(e) => CleanUpRun(stored, 0, Fail(e))
    case Pass =>
      if |stored| == 0 then CleanUpRun([], 0, Pass)
      else match flush
        case Pass => CleanUpRun(Sweep(stored, outcomes), 1, Pass)
        case Fail(e) => CleanUpRun(stored, 1, Fail(e))
  }

  /** What one `doCheckJob` did: the retention cutoff handed to the store
      (none when it was never asked), the jobs passed to `delete` (always
      without deleting files), the single save, the errors reported, and
      the error the call itself rejected with. */
  datatype CheckRun = CheckRun(
    cutoffMs: Option<int>,
    deleted: seq<DownloadJob>,
    deleteFiles: bool,
    saves: seq<seq<DownloadJob>>,
    captured: seq<Fault>,
    outcome: Outcome<Fault>)

  /** The jobs as saved: a job whose delete call threw is marked Removed,
      the others are saved as they were fetched. */
  function AfterDeletes(jobs: seq<DownloadJob>, deletes: seq<Outcome<Fault>>): (r: seq<DownloadJob>)
    requires |deletes| == |jobs|
    ensures |r| == |jobs|
    ensures forall i :: 0 <= i < |jobs| ==>
      (deletes[i].Fail? ==> r[i] == jobs[i].(status := Removed)) && (deletes[i].Pass? ==> r[i] == jobs[i])
  {
    seq(|jobs|, i requires 0 <= i < |jobs| => if deletes[i].Fail? then jobs[i].(status := Removed) else jobs[i])
  }

  /** `doCheckJob`: read the retention setting and take the job repository,
      ask the store for the jobs past retention, delete each, and save them
      all in one call. `retention` is the setting's value, or what reading
      it (or taking the repository) threw; `fetch` is the store's answer for
      the cutoff. Only what happens from the fetch on is inside the `try`:
      those errors are reported and swallowed, while a throw before it
      rejects the call. */
  function DoCheckJob(retention: Result<int, Fault>, fetch: Result<seq<DownloadJob>, Fault>,
                      deletes: seq<Outcome<Fault>>, save: Outcome<Fault>): (r: CheckRun)
    requires fetch.Ok? ==> |deletes| == |fetch.value|
    ensures !r.deleteFiles
    ensures r.outcome.Fail? <==> retention.Err?
    ensures retention.Err? ==>
      r == CheckRun(None, [], false, [], [], Fail(retention.error))
    ensures retention.Ok? ==> r.cutoffMs == Some(retention.value * 86400000)
    ensures retention.Ok? && fetch.Err? ==> r.deleted == [] && r.saves == [] && r.captured == [fetch.error]
    ensures retention.Ok? && fetch.Ok? ==>
      && r.deleted == fetch.value
      && r.saves == [AfterDeletes(fetch.value, deletes)]
      && (r.captured == [] <==> save.Pass?)
  {
    match retention
    case Err(e) => CheckRun(None, [], false, [], [], Fail(e))
    case Ok(days) =>
      var cutoff := Some(days * DayMs);
      match fetch
      case Err(e) => CheckRun(cutoff, [], false, [], [e], Pass)
      case Ok(jobs) =>
        var saved := AfterDeletes(jobs, deletes);
        match save
        case Pass => CheckRun(cutoff, jobs, false, [saved], [], Pass)
        case Fail(e) => CheckRun(cutoff, jobs, false, [saved], [e], Pass)
  }

  /** A failed delete only ever moves a job to Removed, and nothing else
      about the job changes: the save differs from the fetched list only in
      the status of those jobs. */
  lemma ExpiryOnlyMarksRemoved(jobs: seq<DownloadJob>, deletes: seq<Outcome<Fault>>, i: nat)
    requires |deletes| == |jobs| && i < |jobs|
    ensures var s := AfterDeletes(jobs, deletes)[i];
      s.(status := jobs[i].status) == jobs[i] && (s.status == jobs[i].status || s.status == Removed)
  {
  }

  /** The state of one timer-driven loop: nothing scheduled, a tick
      scheduled after a delay, or a tick in progress. */
  datatype Timer = Idle | Armed(delayMs: nat) | Running

  /** The two loops of the cleaner. */
  datatype Cleaner = Cleaner(check: Timer, sweep: Timer)

  datatype Loop = CheckLoop | SweepLoop

  /** What can happen to the cleaner: `start`, `stop`, `stopCleanUp`, a
      scheduled tick starting, and a tick finishing (`ok` says whether the
      tick's `doCheckJob` or `doCleanUp` returned rather than rejected). */
  datatype Action = Start | Stop | StopCleanUp | Fire(loop: Loop) | Finish(loop: Loop, ok: bool)

  function Interval(l: Loop): nat {
    match l
    case CheckLoop => CheckIntervalMs
    case SweepLoop => CleanUpIntervalMs
  }

  function Get(c: Cleaner, l: Loop): Timer {
    match l
    case CheckLoop => c.check
    case SweepLoop => c.sweep
  }

  function Set(c: Cleaner, l: Loop, t: Timer): Cleaner {
    match l
    case CheckLoop => c.(check := t)
    case SweepLoop => c.(sweep := t)
  }

  /** Clearing a timer handle cancels a tick that has not started; a tick
      in progress is beyond its reach. */
  function Clear(t: Timer): (r: Timer)
    ensures t.Running? ==> r == Running
    ensures !t.Running? ==> r == Idle
  {
    if t.Armed? then Idle else t
  }

  /** Whether a finished tick schedules the next one. The sweep catches
      whatever `doCleanUp` threw and always re-arms; the check awaits
      `doCheckJob` outside any `try`, so a rejection skips the re-arm. */
  predicate Rearms(l: Loop, ok: bool) {
    l == SweepLoop || ok
  }

  /** One transition. */
  function Step(c: Cleaner, a: Action): (r: Cleaner)
    ensures a == Start ==> r == Cleaner(Armed(CheckIntervalMs), Armed(CleanUpIntervalMs))
    ensures a.Finish? && Get(c, a.loop).Running? && Rearms(a.loop, a.ok) ==> Get(r, a.loop) == Armed(Interval(a.loop))
    ensures a.Finish? && Get(c, a.loop).Running? && !Rearms(a.loop, a.ok) ==> Get(r, a.loop) == Idle
    ensures a.Fire? && Get(c, a.loop).Armed? ==> Get(r, a.loop) == Running
    ensures a == Stop ==> r.check == Clear(c.check) && r.sweep == Clear(c.sweep)
    ensures a == StopCleanUp ==> r.check == c.check && r.sweep == Clear(c.sweep)
  {
    match a
    case Start => Cleaner(Armed(CheckIntervalMs), Armed(CleanUpIntervalMs))
    case Stop => Cleaner(Clear(c.check), Clear(c.sweep))
    case StopCleanUp => c.(sweep := Clear(c.sweep))
    case Fire(l) => if Get(c, l).Armed? then Set(c, l, Running) else c
    case Finish(l, ok) =>
      if !Get(c, l).Running? then c
      else if Rearms(l, ok) then Set(c, l, Armed(Interval(l)))
      else Set(c, l, Idle)
  }

  function Run(c: Cleaner, actions: seq<Action>): Cleaner
    decreases |actions|
  {
    if |actions| == 0 then c else Run(Step(c, actions[0]), actions[1..])
  }

  /** `stop` while a tick is running does not end that loop: the tick
      finishes and schedules the next one, unless it was a check that
      rejected, which ends the check loop whether or not `stop` came. */
  lemma StopDuringTickRearms(c: Cleaner, l: Loop, ok: bool)
    requires Get(c, l).Running?
    ensures Get(Run(c, [Stop, Finish(l, ok)]), l) == Armed(Interval(l)) <==> Rearms(l, ok)
    ensures !Rearms(l, ok) ==> Get(Run(c, [Stop, Finish(l, ok)]), l) == Idle
  {
    var s := Step(c, Stop);
    assert Get(s, l) == Running;
    assert Run(c, [Stop, Finish(l, ok)]) == Run(s, [Finish(l, ok)]);
  }

  /** Once both loops are idle, no tick starts again until `start`. */
  lemma {:induction false} IdleStaysIdle(c: Cleaner, actions: seq<Action>)
    requires c.check == Idle && c.sweep == Idle
    requires forall k :: 0 <= k < |actions| ==> actions[k] != Start
    ensures Run(c, actions) == c
    decreases |actions|
  {
    if |actions| > 0 {
      assert Step(c, actions[0]) == c;
      IdleStaysIdle(c, actions[1..]);
    }
  }

  /** `stop` between ticks silences the cleaner for good, short of a new
      `start`. */
  lemma StopBetweenTicks(c: Cleaner, actions: seq<Action>)
    requires !c.check.Running? && !c.sweep.Running?
    requires forall k :: 0 <= k < |actions| ==> actions[k] != Start
    ensures Run(c, [Stop] + actions) == Cleaner(Idle, Idle)
  {
    var s := Step(c, Stop);
    assert s == Cleaner(Idle, Idle);
    assert ([Stop] + actions)[1..] == actions;
    IdleStaysIdle(s, actions);
  }

  /** A rejected `doCheckJob` ends the check loop for good, short of a new
      `start`, while the sweep goes on with its own timer. */
  lemma {:induction false} RejectedCheckStops(c: Cleaner, actions: seq<Action>)
    requires c.check.Running?
    requires forall k :: 0 <= k < |actions| ==> actions[k] != Start
    ensures Run(c, [Finish(CheckLoop, false)] + actions).check == Idle
  {
    var s := Step(c, Finish(CheckLoop, false));
    assert s.check == Idle;
    assert ([Finish(CheckLoop, false)] + actions)[1..] == actions;
    CheckIdleStays(s, actions);
  }

  /** Without `start`, an idle check loop stays idle whatever the sweep
      does. */
  lemma {:induction false} CheckIdleStays(c: Cleaner, actions: seq<Action>)
    requires c.check == Idle
    requires forall k :: 0 <= k < |actions| ==> actions[k] != Start
    ensures Run(c, actions).check == Idle
    decreases |actions|
  {
    if |actions| > 0 {
      assert Step(c, actions[0]).check == Idle;
      CheckIdleStays(Step(c, actions[0]), actions[1..]);
    }
  }
}

=== FILE: job_repository.dfy ===
/** The two job queries of the job repository, as filter/sort specifications
    over the stored jobs. The store is a value, so neither query can change it. */
module JobRepository {
  import opened Wrappers
  import opened Jobs

  /** `listUnsettledJobs(d)`: the stored jobs of daemon flavour `d` whose
      status is Pending, Downloading or Paused, in store order. */
  function ListUnsettledJobs(store: seq<DownloadJob>, d: DownloaderType): (r: seq<DownloadJob>)
    ensures forall j :: j in r <==> j in store && j.downloader == d && Unsettled(j.status)
    ensures multiset(r) <= multiset(store)
  {
    if |store| == 0 then []
    else
      var rest := ListUnsettledJobs(store[1..], d);
      assert store == [store[0]] + store[1..];
      if store[0].downloader == d && Unsettled(store[0].status) then [store[0]] + rest else rest
  }

  /** No Complete, Error or Removed job, and no job of another daemon, is
      ever listed as unsettled. */
  lemma UnsettledExcludesSettled(store: seq<DownloadJob>, d: DownloaderType, j: DownloadJob)
    requires j in ListUnsettledJobs(store, d)
    ensures j.status != Complete && j.status != Error && j.status != Removed
    ensures j.downloader == d
  {
  }

  /** The order `createTime DESC` uses: PostgreSQL sorts NULL first under
      DESC, so a missing time counts as later than every time. */
  predicate NotEarlier(a: Option<int>, b: Option<int>) {
    a.None? || (b.Some? && a.value >= b.value)
  }

  predicate SortedDesc(js: seq<DownloadJob>) {
    forall i, j :: 0 <= i < j < |js| ==> NotEarlier(js[i].createTime, js[j].createTime)
  }

  function WithStatus(store: seq<DownloadJob>, s: JobStatus): (r: seq<DownloadJob>)
    ensures forall j :: j in r <==> j in store && j.status == s
    ensures multiset(r) <= multiset(store)
  {
    if |store| == 0 then []
    else
      var rest := WithStatus(store[1..], s);
      assert store == [store[0]] + store[1..];
      if store[0].status == s then [store[0]] + rest else rest
  }

  function InsertDesc(j: DownloadJob, js: seq<DownloadJob>): (r: seq<DownloadJob>)
    requires SortedDesc(js)
    ensures SortedDesc(r)
    ensures multiset(r) == multiset(js) + multiset{j}
  {
    if |js| == 0 || NotEarlier(j.createTime, js[0].createTime) then
      ConsSorted(j, js);
      [j] + js
    else
      var rest := InsertDesc(j, js[1..]);
      assert js == [js[0]] + js[1..];
      HeadBoundsInsertion(js[0], js[1..], j, rest);
      ConsSorted(js[0], rest);
      [js[0]] + rest
  }

  /** A job no earlier than every job of a sorted list may head it. */
  lemma ConsSorted(x: DownloadJob, js: seq<DownloadJob>)
    requires SortedDesc(js)
    requires forall k :: 0 <= k < |js| ==> NotEarlier(x.createTime, js[k].createTime)
    ensures SortedDesc([x] + js)
  {
    var t := [x] + js;
    forall a, b | 0 <= a < b < |t| ensures NotEarlier(t[a].createTime, t[b].createTime) {
      assert t[b] == js[b - 1];
      if a > 0 {
        assert t[a] == js[a - 1];
      }
    }
  }

  /** The head of a sorted list is no earlier than anything the tail holds
      after a later job is inserted into it. */
  lemma HeadBoundsInsertion(x: DownloadJob, tail: seq<DownloadJob>, j: DownloadJob, rest: seq<DownloadJob>)
    requires SortedDesc([x] + tail)
    requires !NotEarlier(j.createTime, x.createTime)
    requires multiset(rest) == multiset(tail) + multiset{j}
    ensures forall k :: 0 <= k < |rest| ==> NotEarlier(x.createTime, rest[k].createTime)
  {
    forall k | 0 <= k < |rest|
      ensures NotEarlier(x.createTime, rest[k].createTime)
    {
      assert rest[k] in multiset(rest);
      if rest[k] != j {
        assert rest[k] in multiset(tail);
        var i :| 0 <= i < |tail| && tail[i] == rest[k];
        assert ([x] + tail)[0] == x && ([x] + tail)[i + 1] == tail[i];
      }
    }
  }

  function SortDesc(js: seq<DownloadJob>): (r: seq<DownloadJob>)
    ensures SortedDesc(r)
    ensures multiset(r) == multiset(js)
  {
    if |js| == 0 then []
    else
      assert js == [js[0]] + js[1..];
      InsertDesc(js[0], SortDesc(js[1..]))
  }

  /** `listJobByStatusWithDescOrder(s)`: exactly the stored jobs with status
      `s`, newest first. */
  function ListJobByStatusWithDescOrder(store: seq<DownloadJob>, s: JobStatus): (r: seq<DownloadJob>)
    ensures multiset(r) == multiset(WithStatus(store, s))
    ensures forall j :: j in r <==> j in store && j.status == s
    ensures SortedDesc(r)
  {
    var r := SortDesc(WithStatus(store, s));
    assert forall j :: j in r <==> j in multiset(r);
    r
  }
}

=== FILE: paths.dfy ===
/** Simplified POSIX path helpers with the semantics of Node's `path.join`,
    `path.basename` and `path.extname` on already-normal paths. */
module Paths {
  import opened Text

  const Sep: char := '/'

  /** `path.join(a, b)`: one separator between two non-empty parts. */
  function Join(a: string, b: string): (r: string)
    ensures a == "" ==> r == b
    ensures b == "" ==> r == a
    ensures a != "" && b != "" ==> |r| == |a| + 1 + |b| && r[..|a|] == a && r[|a|] == Sep && r[|a| + 1..] == b
  {
    if a == "" then b else if b == "" then a else a + [Sep] + b
  }

  /** `p` without its trailing separators. */
  function StripTrailingSeps(p: string): (r: string)
    ensures |r| <= |p| && r == p[..|r|]
    ensures |r| > 0 ==> r[|r| - 1] != Sep
    ensures forall i :: |r| <= i < |p| ==> p[i] == Sep
  {
    if |p| > 0 && p[|p| - 1] == Sep then StripTrailingSeps(p[..|p| - 1]) else p
  }

  /** `path.basename(p)`: the last segment, ignoring trailing separators. */
  function Basename(p: string): (r: string)
    ensures Sep !in r
    ensures Sep !in p ==> r == p
  {
    var q := StripTrailingSeps(p);
    q[LastIndexOfChar(q, Sep) + 1..]
  }

  /** The extension of a single segment `b`: from its last `.` on, unless that
      dot is the segment's first character or the segment is `..`. */
  function ExtOf(b: string): (r: string)
  {
    var i := LastIndexOfChar(b, '.');
    if i <= 0 || b == ".." then "" else b[i..]
  }

  /** `path.extname(p)`. */
  function Extname(p: string): (r: string)
    ensures r == "" || (r[0] == '.' && '.' !in r[1..] && Sep !in r)
  {
    ExtOf(Basename(p))
  }

  /** `path.basename(p, ext)`: the basename with `ext` removed when it is a
      proper suffix of it. */
  function BasenameWithout(p: string, ext: string): (r: string)
  {
    var b := Basename(p);
    if |ext| < |b| && b[|b| - |ext|..] == ext then b[..|b| - |ext|] else b
  }

  /** A segment is its own basename and splits into the stem that
      `BasenameWithout` keeps and the extension `Extname` returns. */
  lemma SegmentSplits(b: string)
    requires Sep !in b
    ensures Basename(b) == b
    ensures BasenameWithout(b, Extname(b)) + Extname(b) == b
    ensures Extname(b) != "" ==> |BasenameWithout(b, Extname(b))| > 0
  {
    assert Basename(b) == b;
    var e := ExtOf(b);
    assert Extname(b) == e;
    ExtOfIsSuffix(b);
    if e != "" {
      var k := |b| - |e|;
      assert b[..k] + b[k..] == b;
    }
  }

  /** A non-empty extension is a proper suffix of its segment. */
  lemma ExtOfIsSuffix(b: string)
    ensures var e := ExtOf(b);
      e != "" ==> |e| < |b| && b[|b| - |e|..] == e
  {
    var i := LastIndexOfChar(b, '.');
    if !(i <= 0 || b == "..") {
      assert ExtOf(b) == b[i..];
    }
  }
}

=== FILE: qbittorrent_reconciliation.dfy ===
/** The qBittorrent adapter's translation of daemon states and one cycle of
    its polling loop (`checkTorrentStatus` with `updateJobs`), as a pure
    function from the unsettled jobs and the daemon's live torrent list to
    the jobs saved, the events emitted and the rescheduling decision. */
module QBittorrentReconciliation {
  import opened Wrappers
  import opened Jobs
  import opened QBittorrentStates
  import JobRepository

  /** The delay before the next cycle. */
  const RefreshInfoIntervalMs: nat := 5000

  /** `convertStateToJobStatus`: the single translation point from daemon
      state strings to job status. Every string is mapped. */
  function ConvertStateToJobStatus(state: string): (r: JobStatus)
    ensures Parse(state).None? ==> r == Removed
  {
    if state == "error" || state == "missingFiles" then Error
    else if state == "queuedDL" || state == "allocating" || state == "checkingDL"
         || state == "checkingResumeData" || state == "unknown" then Pending
    else if state == "downloading" || state == "stalledDL" || state == "forcedDL"
         || state == "metaDL" then Downloading
    else if state == "uploading" || state == "checkingUP" || state == "pausedUP"
         || state == "forcedUP" || state == "stalledUP" || state == "queuedUP" then Complete
    else if state == "pausedDL" then Paused
    else Removed
  }

  /** The states the daemon documents as having finished downloading. */
  predicate FinishedDownloading(st: DaemonState) {
    st.uploading? || st.pausedUP? || st.queuedUP? || st.stalledUP? || st.checkingUP? || st.forcedUP?
  }

  /** The states that report a fault with the torrent's data. */
  predicate Faulted(st: DaemonState) {
    st.error? || st.missingFiles?
  }

  /** The states of a torrent actively fetching data or metadata. */
  predicate Fetching(st: DaemonState) {
    st.downloading? || st.stalledDL? || st.forcedDL? || st.metaDL?
  }

  /** The states of a torrent that has not started transferring yet. */
  predicate Preparing(st: DaemonState) {
    st.queuedDL? || st.allocating? || st.checkingDL? || st.checkingResumeData? || st.unknown?
  }

  /** The mapping classifies the whole vocabulary by what each state means:
      finished ones are Complete, faulted ones Error, fetching ones
      Downloading, preparing ones Pending, `pausedDL` Paused; `moving` is the
      only member that falls through to Removed, as does every string
      outside the vocabulary. */
  lemma ConvertClassifiesVocabulary()
    ensures forall st :: ConvertStateToJobStatus(Name(st)) == Complete <==> FinishedDownloading(st)
    ensures forall st :: ConvertStateToJobStatus(Name(st)) == Error <==> Faulted(st)
    ensures forall st :: ConvertStateToJobStatus(Name(st)) == Downloading <==> Fetching(st)
    ensures forall st :: ConvertStateToJobStatus(Name(st)) == Pending <==> Preparing(st)
    ensures forall st :: ConvertStateToJobStatus(Name(st)) == Paused <==> st == pausedDL
    ensures forall st :: ConvertStateToJobStatus(Name(st)) == Removed <==> st == moving
    ensures forall s :: Parse(s).None? ==> ConvertStateToJobStatus(s) == Removed
  {
    forall st ensures ConvertStateToJobStatus(Name(st)) == Expected(st) {
      ConvertMatchesExpected(st);
    }
    ExpectedClassifies();
  }

  /** `Expected` gives each meaning its own status. */
  lemma ExpectedClassifies()
    ensures forall st :: Expected(st) == Complete <==> FinishedDownloading(st)
    ensures forall st :: Expected(st) == Error <==> Faulted(st)
    ensures forall st :: Expected(st) == Downloading <==> Fetching(st)
    ensures forall st :: Expected(st) == Pending <==> Preparing(st)
    ensures forall st :: Expected(st) == Paused <==> st == pausedDL
    ensures forall st :: Expected(st) == Removed <==> st == moving
  {
    forall st ensures Expected(st) == Removed <==> st == moving {
      if Expected(st) == Removed {
        assert !FinishedDownloading(st) && !Faulted(st) && !Fetching(st) && !Preparing(st) && st != pausedDL;
      }
    }
  }

  /** Each state's name is mapped to the status its meaning calls for; the
      19 cases are split in groups, in declaration order, to keep each proof
      small. */
  lemma ConvertMatchesExpected(st: DaemonState)
    ensures ConvertStateToJobStatus(Name(st)) == Expected(st)
  {
    match st
    case error | missingFiles | uploading | pausedUP | queuedUP => ConvertStatesFrom0(st);
    case stalledUP | checkingUP | forcedUP | allocating | downloading => ConvertStatesFrom5(st);
    case metaDL | pausedDL | queuedDL | stalledDL => ConvertStatesFrom10(st);
    case checkingDL | forcedDL | checkingResumeData => ConvertStatesFrom14(st);
    case moving | unknown => ConvertStatesFrom17(st);
  }

  lemma ConvertStatesFrom0(st: DaemonState)
    requires Ordinal(st) < 5
    ensures ConvertStateToJobStatus(Name(st)) == Expected(st)
  {
    if st == error {
    } else if st == missingFiles {
    } else if st == uploading {
    } else if st == pausedUP {
    } else {
      assert st == queuedUP;
    }
  }

  lemma ConvertStatesFrom5(st: DaemonState)
    requires 5 <= Ordinal(st) < 10
    ensures ConvertStateToJobStatus(Name(st)) == Expected(st)
  {
    if st == stalledUP {
    } else if st == checkingUP {
    } else if st == forcedUP {
    } else if st == allocating {
    } else {
      assert st == downloading;
    }
  }

  lemma ConvertStatesFrom10(st: DaemonState)
    requires 10 <= Ordinal(st) < 14
    ensures ConvertStateToJobStatus(Name(st)) == Expected(st)
  {
    if st == metaDL {
    } else if st == pausedDL {
    } else if st == queuedDL {
    } else {
      assert st == stalledDL;
    }
  }

  lemma ConvertStatesFrom14(st: DaemonState)
    requires 14 <= Ordinal(st) < 17
    ensures ConvertStateToJobStatus(Name(st)) == Expected(st)
  {
    if st == checkingDL {
    } else if st == forcedDL {
    } else {
      assert st == checkingResumeData;
    }
  }

  lemma ConvertStatesFrom17(st: DaemonState)
    requires 17 <= Ordinal(st)
    ensures ConvertStateToJobStatus(Name(st)) == Expected(st)
  {
    if st == moving {
    } else {
      assert st == unknown;
    }
  }

  /** The status each state's meaning calls for. */
  function Expected(st: DaemonState): JobStatus {
    if FinishedDownloading(st) then Complete
    else if Faulted(st) then Error
    else if Fetching(st) then Downloading
    else if Preparing(st) then Pending
    else if st == pausedDL then Paused
    else Removed
  }

  /** One entry of the daemon's live torrent list, as far as the loop reads it. */
  datatype TorrentInfo = TorrentInfo(hash: string, state: string, progress: real, savePath: string)

  /** The property name `hasOwnProperty` looks up for a job: JavaScript
      turns a null torrent id into the string "null". */
  function PropertyKey(torrentId: Option<string>): string {
    match torrentId
    case Some(t) => t
    case None => "null"
  }

  /** Position `k` holds the last entry of `infos` with hash `h`. */
  predicate LastOccurrence(infos: seq<TorrentInfo>, h: string, k: int) {
    0 <= k < |infos| && infos[k].hash == h && forall j :: k < j < |infos| ==> infos[j].hash != h
  }

  lemma LastOccurrenceUnique(infos: seq<TorrentInfo>, h: string, a: int, b: int)
    requires LastOccurrence(infos, h, a) && LastOccurrence(infos, h, b)
    ensures a == b
  {
  }

  /** `m` maps exactly the hashes of `infos`, each to its last position. */
  ghost predicate IndexesLast(infos: seq<TorrentInfo>, m: map<string, nat>) {
    && (forall h :: h in m <==> exists i :: 0 <= i < |infos| && infos[i].hash == h)
    && (forall h :: h in m ==> LastOccurrence(infos, h, m[h]))
  }

  /** The hash-to-index object built by the forward loop: a later entry with
      the same hash overwrites an earlier one. */
  function HashIndex(infos: seq<TorrentInfo>): (m: map<string, nat>)
    ensures forall h :: h in m <==> exists i :: 0 <= i < |infos| && infos[i].hash == h
    ensures forall h :: h in m ==> LastOccurrence(infos, h, m[h])
  {
    if |infos| == 0 then map[]
    else
      var n := |infos| - 1;
      var m := HashIndex(infos[..n]);
      IndexOneMore(infos, m);
      m[infos[n].hash := n]
  }

  /** Recording the last entry over an index of the entries before it
      indexes the whole list. */
  lemma IndexOneMore(infos: seq<TorrentInfo>, m: map<string, nat>)
    requires |infos| > 0 && IndexesLast(infos[..|infos| - 1], m)
    ensures IndexesLast(infos, m[infos[|infos| - 1].hash := |infos| - 1])
  {
    var n := |infos| - 1;
    var prefix := infos[..n];
    var h0 := infos[n].hash;
    var m' := m[h0 := n];
    forall h ensures h in m' <==> exists i :: 0 <= i < |infos| && infos[i].hash == h {
      if h != h0 && (exists i :: 0 <= i < |infos| && infos[i].hash == h) {
        var i :| 0 <= i < |infos| && infos[i].hash == h;
        assert i < n && prefix[i] == infos[i];
      }
      if h in m && h != h0 {
        var i :| 0 <= i < n && prefix[i].hash == h;
        assert infos[i] == prefix[i];
      }
    }
    forall h | h in m' ensures LastOccurrence(infos, h, m'[h]) {
      if h != h0 {
        assert LastOccurrence(prefix, h, m[h]);
        assert infos[m[h]] == prefix[m[h]];
        forall j | m[h] < j < |infos| ensures infos[j].hash != h {
          if j < n {
            assert infos[j] == prefix[j];
          }
        }
      }
    }
  }

  /** What one cycle did to one job. */
  datatype Verdict = StatusChanged | ProgressUpdated | Untouched

  datatype Reconciled = Reconciled(job: DownloadJob, verdict: Verdict)

  /** The loop body for one job. */
  function ReconcileJob(job: DownloadJob, infos: seq<TorrentInfo>, index: map<string, nat>): (r: Reconciled)
    requires forall h :: h in index ==> index[h] < |infos|
    ensures r.job.id == job.id && r.job.torrentId == job.torrentId
    ensures r.verdict == Untouched ==> r.job == job
    // a job with a live entry leaves agreeing with it on status and progress
    ensures var key := PropertyKey(job.torrentId);
      key in index ==>
        r.job.status == ConvertStateToJobStatus(infos[index[key]].state) &&
        r.job.progress == infos[index[key]].progress
    // a job without one leaves Removed
    ensures PropertyKey(job.torrentId) !in index ==> r.job.status == Removed && r.verdict == StatusChanged
    // a job that already agrees is left alone
    ensures var key := PropertyKey(job.torrentId);
      (key in index && job.status == ConvertStateToJobStatus(infos[index[key]].state) &&
       job.progress == infos[index[key]].progress) ==> r.verdict == Untouched
  {
    var key := PropertyKey(job.torrentId);
    if key in index then
      var info := infos[index[key]];
      var status := ConvertStateToJobStatus(info.state);
      if status != job.status then Reconciled(job.(status := status, progress := info.progress), StatusChanged)
      else if job.progress != info.progress then Reconciled(job.(progress := info.progress), ProgressUpdated)
      else Reconciled(job, Untouched)
    else Reconciled(job.(status := Removed), StatusChanged)
  }

  /** The jobs of `steps` with verdict `v`, in order. */
  function JobsWith(steps: seq<Reconciled>, v: Verdict): (r: seq<DownloadJob>)
    ensures |r| <= |steps|
    ensures forall x :: x in r <==> exists i :: 0 <= i < |steps| && steps[i].verdict == v && steps[i].job == x
  {
    if |steps| == 0 then []
    else
      var rest := JobsWith(steps[1..], v);
      assert forall i :: 1 <= i < |steps| ==> steps[1..][i - 1] == steps[i];
      if steps[0].verdict == v then [steps[0].job] + rest else rest
  }

  /** The result of the pure part of one cycle. */
  datatype TickResult = TickResult(jobs: seq<DownloadJob>, changed: seq<DownloadJob>, progressUpdated: seq<DownloadJob>)

  function Steps(jobs: seq<DownloadJob>, infos: seq<TorrentInfo>): (r: seq<Reconciled>)
    ensures |r| == |jobs|
    ensures forall i :: 0 <= i < |jobs| ==> r[i] == ReconcileJob(jobs[i], infos, HashIndex(infos))
  {
    var index := HashIndex(infos);
    seq(|jobs|, i requires 0 <= i < |jobs| => ReconcileJob(jobs[i], infos, index))
  }

  /** The loop over the unsettled jobs against one snapshot of the live list. */
  function Tick(jobs: seq<DownloadJob>, infos: seq<TorrentInfo>): (r: TickResult)
    ensures |r.jobs| == |jobs|
    ensures forall i :: 0 <= i < |jobs| ==> r.jobs[i] == Steps(jobs, infos)[i].job
    ensures r.changed == JobsWith(Steps(jobs, infos), StatusChanged)
    ensures r.progressUpdated == JobsWith(Steps(jobs, infos), ProgressUpdated)
  {
    var steps := Steps(jobs, infos);
    TickResult(seq(|steps|, i requires 0 <= i < |steps| => steps[i].job),
               JobsWith(steps, StatusChanged), JobsWith(steps, ProgressUpdated))
  }

  /** After a cycle, every job's status is the mapped state of the last live
      entry carrying its torrent id, or Removed when no entry carries it. */
  lemma TickStatusFollowsDaemon(jobs: seq<DownloadJob>, infos: seq<TorrentInfo>, i: nat, k: int)
    requires i < |jobs|
    ensures LastOccurrence(infos, PropertyKey(jobs[i].torrentId), k) ==>
      Tick(jobs, infos).jobs[i].status == ConvertStateToJobStatus(infos[k].state)
    ensures (forall j :: 0 <= j < |infos| ==> infos[j].hash != PropertyKey(jobs[i].torrentId)) ==>
      Tick(jobs, infos).jobs[i].status == Removed
  {
    var key := PropertyKey(jobs[i].torrentId);
    var index := HashIndex(infos);
    if LastOccurrence(infos, key, k) {
      assert key in index;
      LastOccurrenceUnique(infos, key, index[key], k);
    }
  }

  /** The three outcomes per job: a status change overwrites status and
      progress and lists the job as changed; a progress-only change
      overwrites progress and lists it as progress-updated; otherwise the
      job is left alone and listed nowhere. A job without a live entry is
      changed to Removed with its progress kept. */
  lemma TickOutcomes(jobs: seq<DownloadJob>, infos: seq<TorrentInfo>, i: nat, k: int)
    requires i < |jobs|
    requires LastOccurrence(infos, PropertyKey(jobs[i].torrentId), k)
    ensures var job, info, r := jobs[i], infos[k], Tick(jobs, infos);
      var status := ConvertStateToJobStatus(info.state);
      && (status != job.status ==>
            r.jobs[i] == job.(status := status, progress := info.progress) && r.jobs[i] in r.changed)
      && (status == job.status && job.progress != info.progress ==>
            r.jobs[i] == job.(progress := info.progress) && r.jobs[i] in r.progressUpdated)
      && (status == job.status && job.progress == info.progress ==> r.jobs[i] == job)
  {
    TickStatusFollowsDaemon(jobs, infos, i, k);
    var index := HashIndex(infos);
    var key := PropertyKey(jobs[i].torrentId);
    assert key in index;
    LastOccurrenceUnique(infos, key, index[key], k);
    var steps := Steps(jobs, infos);
    assert steps[i] == ReconcileJob(jobs[i], infos, index);
  }

  /** Membership in the two lists is decided by the per-job verdict only:
      a listed job is one the cycle rewrote. */
  lemma TickListsAreRewrites(jobs: seq<DownloadJob>, infos: seq<TorrentInfo>, x: DownloadJob)
    ensures x in Tick(jobs, infos).changed ==>
      exists i :: 0 <= i < |jobs| && Tick(jobs, infos).jobs[i] == x &&
        (x.status != jobs[i].status || x.status == Removed)
    ensures x in Tick(jobs, infos).progressUpdated ==>
      exists i :: 0 <= i < |jobs| && Tick(jobs, infos).jobs[i] == x && x.status == jobs[i].status && x.progress != jobs[i].progress
  {
    var steps := Steps(jobs, infos);
    var r := Tick(jobs, infos);
    if x in r.changed {
      var i :| 0 <= i < |steps| && steps[i].verdict == StatusChanged && steps[i].job == x;
      assert r.jobs[i] == x;
    }
    if x in r.progressUpdated {
      var i :| 0 <= i < |steps| && steps[i].verdict == ProgressUpdated && steps[i].job == x;
      assert r.jobs[i] == x;
    }
  }

  /** The events of the loop's notification step. */
  datatype Event = StatusChangedEvent(jobId: string) | DeletedEvent(jobId: string)

  /** An error raised by the store or the daemon connection. */
  datatype Fault = Fault(message: string)

  /** One notification per changed job, in order: a delete event for a
      Removed job, a status event otherwise. */
  function EventsFor(changed: seq<DownloadJob>): (r: seq<Event>)
    ensures |r| == |changed|
    ensures forall k :: 0 <= k < |changed| ==>
      (r[k] == DeletedEvent(changed[k].id) <==> changed[k].status == Removed) &&
      (r[k] == StatusChangedEvent(changed[k].id) <==> changed[k].status != Removed)
  {
    seq(|changed|, k requires 0 <= k < |changed| =>
      if changed[k].status == Removed then DeletedEvent(changed[k].id) else StatusChangedEvent(changed[k].id))
  }

  /** A delete event is announced for a job exactly when a changed job
      with that id was Removed, and a status event exactly when one was
      not. */
  lemma EventsNameChangedJobs(changed: seq<DownloadJob>, id: string)
    ensures DeletedEvent(id) in EventsFor(changed) <==>
      exists k :: 0 <= k < |changed| && changed[k].id == id && changed[k].status == Removed
    ensures StatusChangedEvent(id) in EventsFor(changed) <==>
      exists k :: 0 <= k < |changed| && changed[k].id == id && changed[k].status != Removed
  {
    var r := EventsFor(changed);
    if DeletedEvent(id) in r {
      var k :| 0 <= k < |r| && r[k] == DeletedEvent(id);
      assert changed[k].id == id && changed[k].status == Removed;
    }
    if StatusChangedEvent(id) in r {
      var k :| 0 <= k < |r| && r[k] == StatusChangedEvent(id);
      assert changed[k].id == id && changed[k].status != Removed;
    }
  }

  /** The events of two batches are the events of each, one after the
      other: each job's event depends on that job alone. */
  lemma EventsForSplits(a: seq<DownloadJob>, b: seq<DownloadJob>)
    ensures EventsFor(a + b) == EventsFor(a) + EventsFor(b)
  {
    var l := EventsFor(a + b);
    var m := EventsFor(a) + EventsFor(b);
    forall k | 0 <= k < |l| ensures l[k] == m[k] {
      if k < |a| {
        assert (a + b)[k] == a[k];
      } else {
        assert (a + b)[k] == b[k - |a|];
      }
    }
  }

  /** `updateJobs`: one save call; a failed save is reported and swallowed. */
  datatype SaveRun = SaveRun(saved: seq<DownloadJob>, captured: seq<Fault>)

  function UpdateJobs(jobs: seq<DownloadJob>, save: Outcome<Fault>): (r: SaveRun)
    ensures r.saved == jobs
    ensures save.Pass? <==> r.captured == []
    ensures save.Fail? ==> r.captured == [save.error]
  {
    match save
    case Pass => SaveRun(jobs, [])
    case Fail(e) => SaveRun(jobs, [e])
  }

  /** Everything one cycle did that is visible outside it. */
  datatype CycleResult = CycleResult(
    saves: seq<seq<DownloadJob>>,     // the argument of each save call
    events: seq<Event>,               // emitted notifications, in order
    captured: seq<Fault>,             // errors sent to the error reporter
    reschedule: Option<nat>)          // delay of the next cycle, if one is scheduled

  /** One cycle of `checkTorrentStatus`, driven by the outcomes of the
      unsettled-job query, the live-list request and the save. */
  function CheckTorrentStatus(listed: Result<seq<DownloadJob>, Fault>,
                              live: Result<seq<TorrentInfo>, Fault>,
                              save: Outcome<Fault>): (r: CycleResult)
    // a failed query is reported every time (the last error is never
    // recorded) and the cycle is rescheduled
    ensures listed.Err? ==>
      r == CycleResult([], [], [listed.error], Some(RefreshInfoIntervalMs))
    // a failed live-list request is not returned to the outer promise: it
    // is neither reported nor rescheduled, so polling stops
    ensures listed.Ok? && live.Err? ==> r == CycleResult([], [], [], None)
    ensures listed.Ok? && live.Ok? ==>
      var t := Tick(listed.value, live.value);
      && r.reschedule == Some(RefreshInfoIntervalMs)
      && r.events == EventsFor(t.changed)
      && (|t.changed| > 0 ==> r.saves == [t.changed + t.progressUpdated])
      && (|t.changed| == 0 && |t.progressUpdated| > 0 ==> r.saves == [t.progressUpdated])
      && (|t.changed| == 0 && |t.progressUpdated| == 0 ==> r.saves == [] && r.captured == [])
      && (r.saves != [] ==> (r.captured == [] <==> save.Pass?))
  {
    match listed
    case Err(e) => CycleResult([], [], [e], Some(RefreshInfoIntervalMs))
    case Ok(jobs) =>
      match live
      case Err(_) => CycleResult([], [], [], None)
      case Ok(infos) =>
        var t := Tick(jobs, infos);
        if |t.changed| > 0 then
          var s := UpdateJobs(t.changed + t.progressUpdated, save);
          CycleResult([s.saved], EventsFor(t.changed), s.captured, Some(RefreshInfoIntervalMs))
        else if |t.progressUpdated| > 0 then
          var s := UpdateJobs(t.progressUpdated, save);
          CycleResult([s.saved], [], s.captured, Some(RefreshInfoIntervalMs))
        else CycleResult([], [], [], Some(RefreshInfoIntervalMs))
  }

  /** A job that left a cycle still unsettled agrees with the daemon. */
  lemma SettledAgainstDaemon(j: DownloadJob, infos: seq<TorrentInfo>)
    requires Unsettled(ReconcileJob(j, infos, HashIndex(infos)).job.status)
    ensures var index := HashIndex(infos);
      var x := ReconcileJob(j, infos, index).job;
      PropertyKey(x.torrentId) in index && ReconcileJob(x, infos, index).verdict == Untouched
  {
  }

  /** Reconciliation is quiet once it has caught up: reloading the unsettled
      jobs after a cycle and running a second cycle against the same live
      list changes nothing, so it saves nothing and emits no event. */
  lemma SecondCycleIsQuiet(jobs: seq<DownloadJob>, infos: seq<TorrentInfo>, d: DownloaderType, save: Outcome<Fault>)
    ensures var reloaded := JobRepository.ListUnsettledJobs(Tick(jobs, infos).jobs, d);
      var r := CheckTorrentStatus(Ok(reloaded), Ok(infos), save);
      r.saves == [] && r.events == [] && r.captured == []
  {
    var first := Tick(jobs, infos).jobs;
    var reloaded := JobRepository.ListUnsettledJobs(first, d);
    var steps := Steps(reloaded, infos);
    forall i | 0 <= i < |steps| ensures steps[i].verdict == Untouched {
      var x := reloaded[i];
      assert x in reloaded;
      assert x in first && Unsettled(x.status);
      var j :| 0 <= j < |first| && first[j] == x;
      assert first[j] == ReconcileJob(jobs[j], infos, HashIndex(infos)).job;
      SettledAgainstDaemon(jobs[j], infos);
    }
    JobsWithNone(steps, StatusChanged);
    JobsWithNone(steps, ProgressUpdated);
  }

  lemma {:induction false} JobsWithNone(steps: seq<Reconciled>, v: Verdict)
    requires forall i :: 0 <= i < |steps| ==> steps[i].verdict != v
    ensures JobsWith(steps, v) == []
  {
    if |steps| > 0 {
      JobsWithNone(steps[1..], v);
    }
  }
}

=== FILE: qbittorrent_session.dfy ===
/** The qBittorrent adapter's conversations with the daemon: the re-login
    rule of `sendRequest`, the add-torrent loop of `download` with its wait
    in `ensureExists`, `remove`, the completed-file filter of
    `getTorrentContent`, and the start-up retry of `connect`. Every reply of
    the daemon is a parameter; the functions describe the requests sent and
    what the caller sees. */
module QBittorrentSession {
  import opened Wrappers
  import opened Text
  import opened Paths
  import opened CleanUpTasks
  import QBittorrentReconciliation

  /** Length of the random directory name a download is saved under. */
  const TmpIdSize: nat := 8
  /** Delay between two login attempts of `connect`. */
  const RetryDelayMs: nat := 5000
  /** The retry cap `connect` declares. */
  const MaxRetryCount: nat := 10

  /** The reply to one HTTP request: a response, an error response with a
      status code, or no response at all. */
  datatype Reply = Success | HttpError(status: int) | NoResponse

  /** The daemon refused the session cookie. */
  predicate Forbidden(r: Reply) {
    r == HttpError(403)
  }

  /** The outcome of a login: the daemon's session cookie, or a thrown error. */
  datatype LoginReply = LoggedIn(cookie: string) | LoginFailed

  /** Why an adapter call failed. */
  datatype Failure = RequestFailed(reply: Reply) | LoginRejected | HashUnavailable

  /** A request to the daemon. */
  datatype Call =
    | Get(path: string, query: seq<(string, string)>, cookie: string)
    | Post(form: seq<(string, string)>, cookie: string)
    | Login

  /** The requests of one `sendRequest`, what it returned and the session
      cookie it left behind. */
  datatype Exchange = Exchange(calls: seq<Call>, outcome: Outcome<Failure>, cookie: string)

  /** `sendRequest(path, query, retried)`: `replies(0)` answers the first
      request and `replies(1)` the retried one. */
  function SendRequestFrom(path: string, query: seq<(string, string)>, cookie: string, retried: bool,
                           replies: nat -> Reply, login: LoginReply): (r: Exchange)
    decreases if retried then 0 else 1
    ensures |r.calls| > 0 && r.calls[0] == Get(path, query, cookie)
    ensures retried ==> |r.calls| == 1
  {
    var reply := replies(if retried then 1 else 0);
    var first := Get(path, query, cookie);
    if reply.Success? then Exchange([first], Pass, cookie)
    else if Forbidden(reply) && !retried then
      match login
      case LoginFailed => Exchange([first, Login], Fail(LoginRejected), cookie)
      case LoggedIn(c) =>
        var again := SendRequestFrom(path, query, c, true, replies, login);
        Exchange([first, Login] + again.calls, again.outcome, again.cookie)
    else Exchange([first], Fail(RequestFailed(reply)), cookie)
  }

  /** A daemon request re-logs in once, on a first 403 only, and retries
      with the new cookie; any other error, a failed login and a second 403
      reach the caller. */
  function SendRequest(path: string, query: seq<(string, string)>, cookie: string,
                       replies: nat -> Reply, login: LoginReply): (r: Exchange)
    ensures 1 <= |r.calls| <= 3 && r.calls[0] == Get(path, query, cookie)
    ensures Login in r.calls <==> Forbidden(replies(0))
    ensures r.outcome.Pass? <==>
      replies(0).Success? || (Forbidden(replies(0)) && login.LoggedIn? && replies(1).Success?)
    ensures Forbidden(replies(0)) && login.LoggedIn? ==>
      r.calls == [Get(path, query, cookie), Login, Get(path, query, login.cookie)] && r.cookie == login.cookie
    ensures Forbidden(replies(0)) && login.LoginFailed? ==> r.outcome == Fail(LoginRejected)
    ensures Forbidden(replies(0)) && login.LoggedIn? && !replies(1).Success? ==>
      r.outcome == Fail(RequestFailed(replies(1)))
    ensures !replies(0).Success? && !Forbidden(replies(0)) ==>
      r.calls == [Get(path, query, cookie)] && r.outcome == Fail(RequestFailed(replies(0)))
    ensures r.outcome == RequestOutcome(replies, login)
    ensures !(Forbidden(replies(0)) && login.LoggedIn?) ==> r.cookie == cookie
  {
    SendRequestFrom(path, query, cookie, false, replies, login)
  }

  /** What a request answered with `replies` and `login` resolves to,
      told from the answers alone: the session cookie plays no part. */
  function RequestOutcome(replies: nat -> Reply, login: LoginReply): Outcome<Failure> {
    if replies(0).Success? then Pass
    else if !Forbidden(replies(0)) then Fail(RequestFailed(replies(0)))
    else if login.LoginFailed? then Fail(LoginRejected)
    else if replies(1).Success? then Pass
    else Fail(RequestFailed(replies(1)))
  }

  /** The daemon's answers to one `sendRequest`: its replies in order, and
      the outcome of the login a first 403 triggers. */
  datatype Answers = Answers(replies: nat -> Reply, login: LoginReply)

  /** `sendRequest` with the answers bundled. */
  function Send(path: string, query: seq<(string, string)>, cookie: string, a: Answers): (r: Exchange)
    ensures r.outcome == RequestOutcome(a.replies, a.login)
    ensures 1 <= |r.calls| <= 3 && r.calls[0] == Get(path, query, cookie)
    ensures forall c :: c in r.calls ==> c == Login || (c.Get? && c.path == path && c.query == query)
    ensures Login !in r.calls ==> r.cookie == cookie
  {
    SendRequest(path, query, cookie, a.replies, a.login)
  }

  /** The endpoint `getTorrentInfo` asks. */
  const PropertiesPath: string := "/torrents/properties"

  /** `getTorrentInfo(hash)` asks with the hash lower-cased. */
  function PropertiesQuery(hash: string): seq<(string, string)> {
    [("hash", ToLowerAscii(hash))]
  }

  /** The form `download` posts to `/torrents/add`. */
  function AddForm(torrentUrl: string, savePath: string): seq<(string, string)> {
    [("urls", torrentUrl), ("savepath", savePath)]
  }

  /** The directory a torrent is saved in: the requested location (the
      default one when it is empty) joined with a fresh random name. */
  function SavePath(location: string, defaultLocation: string, tmpId: string): (r: string)
    requires |tmpId| == TmpIdSize && Sep !in tmpId
    ensures Basename(r) == tmpId
    ensures location != "" ==> r == Join(location, tmpId)
    ensures location == "" ==> r == Join(defaultLocation, tmpId)
  {
    var dir := if location == "" then defaultLocation else location;
    var r := Join(dir, tmpId);
    BasenameOfJoin(dir, tmpId);
    r
  }

  /** Joining a name without separators puts it last. */
  lemma BasenameOfJoin(dir: string, name: string)
    requires name != "" && Sep !in name
    ensures Basename(Join(dir, name)) == name
  {
    if dir == "" {
    } else {
      var r := Join(dir, name);
      BasenameAfterLastSep(r, |dir|);
    }
  }

  /** The part of a path after its last separator is its base name, when
      that part is not empty. */
  lemma BasenameAfterLastSep(p: string, k: nat)
    requires k < |p| - 1 && p[k] == Sep && Sep !in p[k + 1..]
    ensures Basename(p) == p[k + 1..]
  {
    assert StripTrailingSeps(p) == p;
    assert forall j :: k < j < |p| ==> p[j] == p[k + 1..][j - k - 1];
  }

  /** How the wait of `ensureExists` ended: the torrent became queryable at
      the given probe, a probe failed with another error, or every probe so
      far said 404. */
  datatype Probe = Found(attempts: nat) | ProbeFailed(failure: Failure) | StillWaiting

  /** The daemon does not list the torrent yet. */
  predicate NotYetListed(o: Outcome<Failure>) {
    o == Fail(RequestFailed(HttpError(404)))
  }

  /** What the `k`-th probe resolved to. */
  function ProbeOutcome(probes: seq<Answers>, k: nat): Outcome<Failure>
    requires k < |probes|
  {
    RequestOutcome(probes[k].replies, probes[k].login)
  }

  /** A request of the wait: a properties query for the hash, or a
      re-login. */
  predicate IsProbeCall(c: Call, hash: string) {
    c == Login || (c.Get? && c.path == PropertiesPath && c.query == PropertiesQuery(hash))
  }

  /** The requests of the wait, how it ended and the session cookie it
      left behind. */
  datatype ProbeRun = ProbeRun(calls: seq<Call>, result: Probe, cookie: string)

  /** `ensureExists(hash)`: call `getTorrentInfo` until the torrent is
      found, sleeping on 404 and rethrowing any other error. Every probe is
      a full `sendRequest`, so a 403 re-logs in and the next probe carries
      the new cookie. `probes[k]` answers the `k`-th probe. */
  function EnsureExists(hash: string, cookie: string, probes: seq<Answers>): (r: ProbeRun)
    ensures forall c :: c in r.calls ==> IsProbeCall(c, hash)
    ensures |r.calls| <= 3 * |probes|
    ensures |probes| > 0 ==> |r.calls| > 0 && r.calls[0] == Get(PropertiesPath, PropertiesQuery(hash), cookie)
    ensures Login !in r.calls ==> r.cookie == cookie
    ensures r.result.Found? ==>
      && 1 <= r.result.attempts <= |probes| && ProbeOutcome(probes, r.result.attempts - 1).Pass?
      && forall k :: 0 <= k < r.result.attempts - 1 ==> NotYetListed(ProbeOutcome(probes, k))
    ensures r.result.ProbeFailed? ==> exists k ::
      && 0 <= k < |probes| && ProbeOutcome(probes, k) == Fail(r.result.failure)
      && !NotYetListed(ProbeOutcome(probes, k))
      && forall j :: 0 <= j < k ==> NotYetListed(ProbeOutcome(probes, j))
    ensures r.result.StillWaiting? <==> forall k :: 0 <= k < |probes| ==> NotYetListed(ProbeOutcome(probes, k))
    decreases |probes|
  {
    if |probes| == 0 then ProbeRun([], StillWaiting, cookie)
    else
      var e := Send(PropertiesPath, PropertiesQuery(hash), cookie, probes[0]);
      assert ProbeOutcome(probes, 0) == e.outcome;
      if e.outcome.Pass? then ProbeRun(e.calls, Found(1), e.cookie)
      else if NotYetListed(e.outcome) then
        var rest := EnsureExists(hash, e.cookie, probes[1..]);
        LaterProbe(probes, rest.result);
        ProbeRun(e.calls + rest.calls, Later(rest.result), rest.cookie)
      else ProbeRun(e.calls, ProbeFailed(e.outcome.error), e.cookie)
  }

  /** The same end, seen from one probe earlier. */
  function Later(p: Probe): Probe {
    match p
    case Found(n) => Found(n + 1)
    case ProbeFailed(f) => ProbeFailed(f)
    case StillWaiting => StillWaiting
  }

  /** What the later probes say about how the wait ended holds of all the
      probes once the first said 404. */
  lemma LaterProbe(probes: seq<Answers>, p: Probe)
    requires |probes| > 0 && NotYetListed(ProbeOutcome(probes, 0))
    requires var tail := probes[1..];
      && (p.Found? ==>
            && 1 <= p.attempts <= |tail| && ProbeOutcome(tail, p.attempts - 1).Pass?
            && forall k :: 0 <= k < p.attempts - 1 ==> NotYetListed(ProbeOutcome(tail, k)))
      && (p.ProbeFailed? ==> exists k ::
            && 0 <= k < |tail| && ProbeOutcome(tail, k) == Fail(p.failure)
            && !NotYetListed(ProbeOutcome(tail, k))
            && forall j :: 0 <= j < k ==> NotYetListed(ProbeOutcome(tail, j)))
      && (p.StillWaiting? <==> forall k :: 0 <= k < |tail| ==> NotYetListed(ProbeOutcome(tail, k)))
    ensures var r := Later(p);
      && (r.Found? ==>
            && 1 <= r.attempts <= |probes| && ProbeOutcome(probes, r.attempts - 1).Pass?
            && forall k :: 0 <= k < r.attempts - 1 ==> NotYetListed(ProbeOutcome(probes, k)))
      && (r.ProbeFailed? ==> exists k ::
            && 0 <= k < |probes| && ProbeOutcome(probes, k) == Fail(r.failure)
            && !NotYetListed(ProbeOutcome(probes, k))
            && forall j :: 0 <= j < k ==> NotYetListed(ProbeOutcome(probes, j)))
      && (r.StillWaiting? <==> forall k :: 0 <= k < |probes| ==> NotYetListed(ProbeOutcome(probes, k)))
  {
    assert forall k :: 1 <= k < |probes| ==> ProbeOutcome(probes[1..], k - 1) == ProbeOutcome(probes, k);
    if p.ProbeFailed? {
      FailureShifts(probes, p.failure);
    }
  }

  /** A failure among the later probes, after a first 404, is a failure
      among all of them. */
  lemma FailureShifts(probes: seq<Answers>, f: Failure)
    requires |probes| > 0 && NotYetListed(ProbeOutcome(probes, 0))
    requires exists k ::
      && 0 <= k < |probes| - 1 && ProbeOutcome(probes[1..], k) == Fail(f)
      && !NotYetListed(ProbeOutcome(probes[1..], k))
      && forall j :: 0 <= j < k ==> NotYetListed(ProbeOutcome(probes[1..], j))
    ensures exists k ::
      && 0 <= k < |probes| && ProbeOutcome(probes, k) == Fail(f)
      && !NotYetListed(ProbeOutcome(probes, k))
      && forall j :: 0 <= j < k ==> NotYetListed(ProbeOutcome(probes, j))
  {
    var k :| && 0 <= k < |probes| - 1 && ProbeOutcome(probes[1..], k) == Fail(f)
             && !NotYetListed(ProbeOutcome(probes[1..], k))
             && forall j :: 0 <= j < k ==> NotYetListed(ProbeOutcome(probes[1..], j));
    assert ProbeOutcome(probes, k + 1) == ProbeOutcome(probes[1..], k);
    forall j | 0 <= j < k + 1 ensures NotYetListed(ProbeOutcome(probes, j)) {
      if j > 0 {
        assert ProbeOutcome(probes, j) == ProbeOutcome(probes[1..], j - 1);
      }
    }
  }

  /** A probe that re-logs in hands its new cookie to the next probe: after
      a 403, a good login and a 404, the second probe's query carries the
      cookie of that login. */
  lemma ProbesThreadCookie(hash: string, cookie: string, probes: seq<Answers>)
    requires |probes| >= 2
    requires Forbidden(probes[0].replies(0)) && probes[0].login.LoggedIn?
    requires NotYetListed(ProbeOutcome(probes, 0))
    ensures var r := EnsureExists(hash, cookie, probes);
      |r.calls| >= 4 &&
      r.calls[..4] == [Get(PropertiesPath, PropertiesQuery(hash), cookie), Login,
                       Get(PropertiesPath, PropertiesQuery(hash), probes[0].login.cookie),
                       Get(PropertiesPath, PropertiesQuery(hash), probes[0].login.cookie)]
  {
    var e := Send(PropertiesPath, PropertiesQuery(hash), cookie, probes[0]);
    var rest := EnsureExists(hash, e.cookie, probes[1..]);
    assert |e.calls| == 3 && e.cookie == probes[0].login.cookie;
    assert EnsureExists(hash, cookie, probes).calls == e.calls + rest.calls;
  }

  /** What `download` returns: the torrent's hash, a thrown error, or
      nothing yet because the daemon has not listed the torrent. */
  datatype DownloadOutcome = Added(hash: string) | Threw(failure: Failure) | Waiting

  /** The requests of one `download`: the add phase, then the wait, and the
      session cookie afterwards. */
  datatype DownloadRun = DownloadRun(calls: seq<Call>, probeCalls: seq<Call>, outcome: DownloadOutcome, cookie: string)

  /** The add phase posted the torrent: the hash was computed and the first
      post succeeded, or a 403 was followed by a good login and a good
      second post. */
  predicate Posted(hash: Option<string>, posts: nat -> Reply, login: LoginReply) {
    hash.Some? && (posts(0).Success? || (Forbidden(posts(0)) && login.LoggedIn? && posts(1).Success?))
  }

  /** The session cookie after the add phase. */
  function PostedCookie(cookie: string, hash: Option<string>, posts: nat -> Reply, login: LoginReply): string {
    if hash.Some? && Forbidden(posts(0)) && login.LoggedIn? then login.cookie else cookie
  }

  /** `download(torrentUrl, location)`: compute the info hash, post the
      torrent (once more after a re-login on a first 403), then wait for the
      daemon to list it. The request headers are built before the loop, so
      the retried post still carries the cookie of the session that was
      refused; the wait's probes use the session's current cookie. */
  method Download(torrentUrl: string, location: string, defaultLocation: string, tmpId: string,
                  cookie: string, hash: Option<string>, posts: nat -> Reply, login: LoginReply,
                  probes: seq<Answers>) returns (r: DownloadRun)
    requires |tmpId| == TmpIdSize && Sep !in tmpId
    ensures var post := Post(AddForm(torrentUrl, SavePath(location, defaultLocation, tmpId)), cookie);
      forall c :: c in r.calls ==> c == post || c == Login
    ensures |r.calls| <= 3
    ensures hash.None? ==> r.calls == [] && r.outcome == Threw(HashUnavailable)
    ensures hash.Some? ==> (Login in r.calls <==> Forbidden(posts(0)))
    ensures hash.Some? && Forbidden(posts(0)) && login.LoginFailed? ==> r.outcome == Threw(LoginRejected)
    ensures hash.Some? && Forbidden(posts(0)) && login.LoggedIn? && !posts(1).Success? ==>
      r.outcome == Threw(RequestFailed(posts(1)))
    ensures hash.Some? && !posts(0).Success? && !Forbidden(posts(0)) ==>
      r.outcome == Threw(RequestFailed(posts(0))) && |r.calls| == 1
    ensures !Posted(hash, posts, login) ==>
      r.probeCalls == [] && r.cookie == PostedCookie(cookie, hash, posts, login) && !r.outcome.Added?
    ensures Posted(hash, posts, login) ==>
      var w := EnsureExists(hash.value, PostedCookie(cookie, hash, posts, login), probes);
      && r.probeCalls == w.calls && r.cookie == w.cookie
      && (w.result.Found? ==> r.outcome == Added(hash.value))
      && (w.result.ProbeFailed? ==> r.outcome == Threw(w.result.failure))
      && (w.result.StillWaiting? ==> r.outcome == Waiting)
  {
    var savePath := SavePath(location, defaultLocation, tmpId);
    var post := Post(AddForm(torrentUrl, savePath), cookie);
    if hash.None? {
      return DownloadRun([], [], Threw(HashUnavailable), cookie);
    }
    var added := false;
    var retried := false;
    var attempt := 0;
    var calls: seq<Call> := [];
    var current := cookie;
    while !added
      invariant || (attempt == 0 && !added && !retried && calls == [] && current == cookie)
                || (attempt == 1 && added && !retried && calls == [post] && current == cookie &&
                    posts(0).Success?)
                || (attempt == 1 && !added && retried && calls == [post, Login] &&
                    Forbidden(posts(0)) && login.LoggedIn? && current == login.cookie)
                || (attempt == 2 && added && retried && calls == [post, Login, post] &&
                    Forbidden(posts(0)) && login.LoggedIn? && current == login.cookie && posts(1).Success?)
      decreases (if added then 0 else 1) + (if retried then 0 else 1)
    {
      var reply := posts(attempt);
      calls := calls + [post];
      attempt := attempt + 1;
      if reply.Success? {
        added := true;
      } else if Forbidden(reply) && !retried {
        calls := calls + [Login];
        match login {
          case LoginFailed =>
            return DownloadRun(calls, [], Threw(LoginRejected), current);
          case LoggedIn(c) =>
            current := c;
        }
        retried := true;
      } else {
        return DownloadRun(calls, [], Threw(RequestFailed(reply)), current);
      }
    }
    var w := EnsureExists(hash.value, current, probes);
    match w.result {
      case Found(_) => r := DownloadRun(calls, w.calls, Added(hash.value), w.cookie);
      case ProbeFailed(f) => r := DownloadRun(calls, w.calls, Threw(f), w.cookie);
      case StillWaiting => r := DownloadRun(calls, w.calls, Waiting, w.cookie);
    }
  }

  /** The command trace of `remove`. */
  datatype RemoveRun = RemoveRun(
    calls: seq<Call>,
    outcome: Outcome<Failure>,
    queue: seq<CleanUpTask>,
    captured: seq<QBittorrentReconciliation.Fault>)

  /** The flag `remove` sends for `deleteFiles`. */
  function FlagText(b: bool): string {
    if b then "true" else "false"
  }

  /** The endpoint `remove` deletes through. */
  const DeletePath: string := "/torrents/delete"

  function DeleteQuery(torrentId: string, deleteFiles: bool): seq<(string, string)> {
    [("hashes", torrentId), ("deleteFiles", FlagText(deleteFiles))]
  }

  /** `remove(torrentId, deleteFiles)`: read the torrent's save path through
      `getTorrentInfo`, delete the torrent, then queue the save path for
      clean-up. Both requests are full `sendRequest`s: `info` and `delete`
      answer them, `savePath` is what the properties reply holds, and
      `enqueue` is the outcome of the queue insert. */
  function Remove(torrentId: string, deleteFiles: bool, cookie: string,
                  info: Answers, savePath: string, delete: Answers,
                  enqueue: Outcome<QBittorrentReconciliation.Fault>, queue: seq<CleanUpTask>): (r: RemoveRun)
    ensures |r.calls| >= 1 && r.calls[0] == Get(PropertiesPath, PropertiesQuery(torrentId), cookie)
    // no delete and no clean-up task unless the save path was read
    ensures RequestOutcome(info.replies, info.login).Fail? ==>
      && r.queue == queue && r.outcome == RequestOutcome(info.replies, info.login)
      && forall c :: c in r.calls ==> IsProbeCall(c, torrentId)
    // the delete carries the cookie the properties request left behind
    ensures RequestOutcome(info.replies, info.login).Pass? ==>
      Get(DeletePath, DeleteQuery(torrentId, deleteFiles),
          Send(PropertiesPath, PropertiesQuery(torrentId), cookie, info).cookie) in r.calls
    ensures RequestOutcome(info.replies, info.login).Pass? && RequestOutcome(delete.replies, delete.login).Fail? ==>
      r.queue == queue && r.outcome == RequestOutcome(delete.replies, delete.login)
    // a failed insert is reported and swallowed
    ensures RequestOutcome(info.replies, info.login).Pass? && RequestOutcome(delete.replies, delete.login).Pass? ==>
      && r.outcome == Pass
      && (enqueue.Pass? ==> r.queue == AddTempFolderPath(queue, savePath) && r.captured == [])
      && (enqueue.Fail? ==> r.queue == queue && r.captured == [enqueue.error])
  {
    var i := Send(PropertiesPath, PropertiesQuery(torrentId), cookie, info);
    match i.outcome
    case Fail(f) => RemoveRun(i.calls, Fail(f), queue, [])
    case Pass =>
      var d := Send(DeletePath, DeleteQuery(torrentId, deleteFiles), i.cookie, delete);
      var calls := i.calls + d.calls;
      assert calls[|i.calls|] == d.calls[0];
      match d.outcome
      case Fail(f) => RemoveRun(calls, Fail(f), queue, [])
      case Pass =>
        match enqueue
        case Pass => RemoveRun(calls, Pass, AddTempFolderPath(queue, savePath), [])
        case Fail(e) => RemoveRun(calls, Pass, queue, [e])
  }

  /** The clean-up queue changes only when both requests went through and
      the insert succeeded, and then by exactly one task for the torrent's
      save path, put last. */
  lemma RemoveQueuesIff(torrentId: string, deleteFiles: bool, cookie: string,
                        info: Answers, savePath: string, delete: Answers,
                        enqueue: Outcome<QBittorrentReconciliation.Fault>, queue: seq<CleanUpTask>)
    ensures var r := Remove(torrentId, deleteFiles, cookie, info, savePath, delete, enqueue, queue);
      && (r.queue != queue <==>
            RequestOutcome(info.replies, info.login).Pass? && RequestOutcome(delete.replies, delete.login).Pass? &&
            enqueue.Pass?)
      && (r.queue != queue ==> r.queue == queue + [CleanUpTask(savePath)])
  {
    var r := Remove(torrentId, deleteFiles, cookie, info, savePath, delete, enqueue, queue);
    if RequestOutcome(info.replies, info.login).Pass? && RequestOutcome(delete.replies, delete.login).Pass? &&
       enqueue.Pass? {
      assert |r.queue| == |queue| + 1;
    }
  }

  /** One file of a torrent as the daemon lists it: its path inside the
      torrent, its size in bytes and its downloaded fraction. */
  datatype TorrentFile = TorrentFile(name: string, size: int, progress: real)

  /** The files that are fully downloaded, in the daemon's order. */
  function CompletedFiles(files: seq<TorrentFile>): (r: seq<TorrentFile>)
    ensures |r| <= |files|
    ensures forall f :: f in r <==> f in files && f.progress == 1.0
  {
    if |files| == 0 then []
    else
      var rest := CompletedFiles(files[1..]);
      assert files == [files[0]] + files[1..];
      if files[0].progress == 1.0 then [files[0]] + rest else rest
  }

  /** The filter keeps the daemon's order: filtering a concatenation is the
      concatenation of the filtered parts. */
  lemma {:induction false} CompletedFilesKeepsOrder(a: seq<TorrentFile>, b: seq<TorrentFile>)
    ensures CompletedFiles(a + b) == CompletedFiles(a) + CompletedFiles(b)
  {
    if |a| == 0 {
      assert a + b == b;
    } else {
      assert (a + b)[1..] == a[1..] + b;
      CompletedFilesKeepsOrder(a[1..], b);
    }
  }

  /** Filtering twice changes nothing. */
  lemma {:induction false} CompletedFilesIdempotent(files: seq<TorrentFile>)
    ensures CompletedFiles(CompletedFiles(files)) == CompletedFiles(files)
  {
    if |files| > 0 {
      CompletedFilesIdempotent(files[1..]);
      var rest := CompletedFiles(files[1..]);
      if files[0].progress == 1.0 {
        assert ([files[0]] + rest)[1..] == rest;
      }
    }
  }

  /** `getTorrentContent(hash)`: the completed files of the torrent, asked
      for with the lower-cased hash. */
  function GetTorrentContent(torrentId: string, cookie: string,
                             reply: Result<seq<TorrentFile>, Failure>): (r: (Call, Result<seq<TorrentFile>, Failure>))
    ensures r.0 == Get("/torrents/files", [("hash", ToLowerAscii(torrentId))], cookie)
    ensures reply.Err? ==> r.1 == reply
    ensures reply.Ok? ==> r.1.Ok? && forall f :: f in r.1.value <==> f in reply.value && f.progress == 1.0
  {
    var call := Get("/torrents/files", [("hash", ToLowerAscii(torrentId))], cookie);
    match reply
    case Err(f) => (call, Err(f))
    case Ok(files) => (call, Ok(CompletedFiles(files)))
  }

  /** How a `connect` call ended: logged in, gave up by rethrowing, or
      still retrying when the supplied login outcomes ran out. */
  datatype ConnectOutcome = Connected | GaveUp | StillRetrying

  /** Login attempts made and status-polling loops started. */
  datatype ConnectRun = ConnectRun(attempts: int, loops: int, outcome: ConnectOutcome)

  /** `connect(enableEvent)` as written, from login attempt `i` on;
      `logins[k]` says whether attempt `k` succeeds. Each call, including
      the recursive one made from the catch block, sets the retry counter
      back to 0 before logging in, so the cap test always sees 0. A call
      that returns normally starts a polling loop when `enableEvent`, and
      so does every frame whose nested retry returned normally. */
  function ConnectAsWritten(logins: seq<bool>, i: nat, enableEvent: bool): (r: ConnectRun)
    decreases |logins| - i
  {
    var retryCount := 0;
    var loop := if enableEvent then 1 else 0;
    if i >= |logins| then ConnectRun(i, 0, StillRetrying)
    else if logins[i] then ConnectRun(i + 1, loop, Connected)
    else if retryCount < MaxRetryCount then
      var nested := ConnectAsWritten(logins, i + 1, enableEvent);
      if nested.outcome == Connected then nested.(loops := nested.loops + loop) else nested
    else ConnectRun(i + 1, 0, GaveUp)
  }

  /** The login outcomes `k` failures followed by a success. */
  function FailThenSucceed(k: nat): (r: seq<bool>)
    ensures |r| == k + 1 && r[k]
    ensures forall j :: 0 <= j < k ==> !r[j]
  {
    seq(k + 1, j => j == k)
  }

  /** As written, `connect` never gives up, and `k` failed logins followed
      by a success start `k + 1` polling loops. */
  lemma {:induction false} ConnectAsWrittenNeverGivesUp(logins: seq<bool>, i: nat, enableEvent: bool)
    ensures ConnectAsWritten(logins, i, enableEvent).outcome != GaveUp
    decreases |logins| - i
  {
    if i < |logins| && !logins[i] {
      ConnectAsWrittenNeverGivesUp(logins, i + 1, enableEvent);
    }
  }

  lemma {:induction false} ConnectAsWrittenLoops(k: nat, i: nat)
    requires i <= k
    ensures ConnectAsWritten(FailThenSucceed(k), i, true) == ConnectRun(k + 1, k + 1 - i, Connected)
    decreases k - i
  {
    if i < k {
      ConnectAsWrittenLoops(k, i + 1);
    }
  }

  /** Eleven failures then a success: past the cap of ten retries, yet the
      call still connects, and it starts twelve polling loops. */
  lemma ConnectAsWrittenCounterexample()
    ensures ConnectAsWritten(FailThenSucceed(MaxRetryCount + 1), 0, true) == ConnectRun(12, 12, Connected)
  {
    ConnectAsWrittenLoops(MaxRetryCount + 1, 0);
  }

  /** `connect` as evidently intended: the counter is reset once by the
      outer call, a retry counts against the cap, and a single polling loop
      is started once a login succeeds. `retries` is the number of failed
      attempts so far. */
  function ConnectCapped(logins: seq<bool>, i: nat, retries: nat, enableEvent: bool): (r: ConnectRun)
    decreases |logins| - i
  {
    if i >= |logins| then ConnectRun(i, 0, StillRetrying)
    else if logins[i] then ConnectRun(i + 1, if enableEvent then 1 else 0, Connected)
    else if retries < MaxRetryCount then ConnectCapped(logins, i + 1, retries + 1, enableEvent)
    else ConnectRun(i + 1, 0, GaveUp)
  }

  function Connect(logins: seq<bool>, enableEvent: bool): ConnectRun {
    ConnectCapped(logins, 0, 0, enableEvent)
  }

  /** The capped `connect` makes at most eleven login attempts, gives up
      exactly when all of them fail, and starts at most one polling loop,
      and that only after a successful login with events enabled. */
  lemma ConnectIsCapped(logins: seq<bool>, enableEvent: bool)
    ensures var r := Connect(logins, enableEvent);
      && r.attempts <= MaxRetryCount + 1
      && (r.outcome == GaveUp <==>
            |logins| > MaxRetryCount && forall k :: 0 <= k <= MaxRetryCount ==> !logins[k])
      && (r.outcome == Connected <==> exists k :: 0 <= k < |logins| && k <= MaxRetryCount && logins[k])
      && r.loops == (if r.outcome == Connected && enableEvent then 1 else 0)
  {
    ConnectCappedFrom(logins, 0, 0, enableEvent);
  }

  lemma {:induction false} ConnectCappedFrom(logins: seq<bool>, i: nat, retries: nat, enableEvent: bool)
    requires retries <= MaxRetryCount && i == retries
    ensures var r := ConnectCapped(logins, i, retries, enableEvent);
      && r.attempts <= MaxRetryCount + 1
      && (r.outcome == GaveUp <==>
            |logins| > MaxRetryCount && forall k :: i <= k <= MaxRetryCount ==> !logins[k])
      && (r.outcome == Connected <==> exists k :: i <= k < |logins| && k <= MaxRetryCount && logins[k])
      && r.loops == (if r.outcome == Connected && enableEvent then 1 else 0)
    decreases |logins| - i
  {
    if i < |logins| && !logins[i] && retries < MaxRetryCount {
      ConnectCappedFrom(logins, i + 1, retries + 1, enableEvent);
    }
  }
}

=== FILE: qbittorrent_state.dfy ===
/** The torrent states the qBittorrent daemon reports (the `state` field of
    its torrent-list entries). */
module QBittorrentStates {
  import opened Wrappers

  /** The daemon's vocabulary, one constructor per state it reports. */
  datatype DaemonState =
    | error              // some error occurred, applies to paused torrents
    | missingFiles       // torrent data files are missing
    | uploading          // seeding and transferring data
    | pausedUP           // paused and has finished downloading
    | queuedUP           // queued for upload
    | stalledUP          // seeding, but no connection was made
    | checkingUP         // finished downloading and being checked
    | forcedUP           // forced to upload, ignoring the queue limit
    | allocating         // allocating disk space for the download
    | downloading        // downloading and transferring data
    | metaDL             // just started, fetching metadata
    | pausedDL           // paused and has NOT finished downloading
    | queuedDL           // queued for download
    | stalledDL          // downloading, but no connection was made
    | checkingDL         // being checked, has NOT finished downloading
    | forcedDL           // forced to download, ignoring the queue limit
    | checkingResumeData // checking resume data on daemon start-up
    | moving             // moving to another location
    | unknown            // unknown status

  /** Every state, in declaration order. */
  const AllStates: seq<DaemonState> := [
    error, missingFiles, uploading, pausedUP, queuedUP, stalledUP, checkingUP,
    forcedUP, allocating, downloading, metaDL, pausedDL, queuedDL, stalledDL,
    checkingDL, forcedDL, checkingResumeData, moving, unknown]

  /** The string the daemon sends for each state: its own name. */
  function Name(st: DaemonState): string {
    match st
    case error => "error"
    case missingFiles => "missingFiles"
    case uploading => "uploading"
    case pausedUP => "pausedUP"
    case queuedUP => "queuedUP"
    case stalledUP => "stalledUP"
    case checkingUP => "checkingUP"
    case forcedUP => "forcedUP"
    case allocating => "allocating"
    case downloading => "downloading"
    case metaDL => "metaDL"
    case pausedDL => "pausedDL"
    case queuedDL => "queuedDL"
    case stalledDL => "stalledDL"
    case checkingDL => "checkingDL"
    case forcedDL => "forcedDL"
    case checkingResumeData => "checkingResumeData"
    case moving => "moving"
    case unknown => "unknown"
  }

  /** The vocabulary member a string names, if any. */
  function Parse(s: string): (r: Option<DaemonState>)
    ensures r.Some? ==> Name(r.value) == s
    ensures r.None? ==> forall st :: Name(st) != s
  {
    if s == "error" then Some(error)
    else if s == "missingFiles" then Some(missingFiles)
    else if s == "uploading" then Some(uploading)
    else if s == "pausedUP" then Some(pausedUP)
    else if s == "queuedUP" then Some(queuedUP)
    else if s == "stalledUP" then Some(stalledUP)
    else if s == "checkingUP" then Some(checkingUP)
    else if s == "forcedUP" then Some(forcedUP)
    else if s == "allocating" then Some(allocating)
    else if s == "downloading" then Some(downloading)
    else if s == "metaDL" then Some(metaDL)
    else if s == "pausedDL" then Some(pausedDL)
    else if s == "queuedDL" then Some(queuedDL)
    else if s == "stalledDL" then Some(stalledDL)
    else if s == "checkingDL" then Some(checkingDL)
    else if s == "forcedDL" then Some(forcedDL)
    else if s == "checkingResumeData" then Some(checkingResumeData)
    else if s == "moving" then Some(moving)
    else if s == "unknown" then Some(unknown)
    else None
  }

  /** Every state is listed and its name parses back to it, so distinct
      states have distinct names. */
  lemma Vocabulary()
    ensures forall st :: st in AllStates
    ensures forall st :: Parse(Name(st)) == Some(st)
    ensures forall a, b :: Name(a) == Name(b) ==> a == b
  {
    forall st ensures st in AllStates && Parse(Name(st)) == Some(st) {
      Listed(st);
      ParseName(st);
    }
  }

  lemma Listed(st: DaemonState)
    ensures st in AllStates
  {
    assert AllStates[Ordinal(st)] == st;
  }

  /** Each name parses back to its state; the 19 cases are split in
      groups, in declaration order, to keep each proof small. */
  lemma ParseName(st: DaemonState)
    ensures Parse(Name(st)) == Some(st)
  {
    match st
    case error | missingFiles | uploading | pausedUP | queuedUP => ParseStatesFrom0(st);
    case stalledUP | checkingUP | forcedUP | allocating | downloading => ParseStatesFrom5(st);
    case metaDL | pausedDL | queuedDL | stalledDL => ParseStatesFrom10(st);
    case checkingDL | forcedDL | checkingResumeData => ParseStatesFrom14(st);
    case moving | unknown => ParseStatesFrom17(st);
  }

  lemma ParseStatesFrom0(st: DaemonState)
    requires Ordinal(st) < 5
    ensures Parse(Name(st)) == Some(st)
  {
    if st == error {
    } else if st == missingFiles {
    } else if st == uploading {
    } else if st == pausedUP {
    } else {
      assert st == queuedUP;
    }
  }

  lemma ParseStatesFrom5(st: DaemonState)
    requires 5 <= Ordinal(st) < 10
    ensures Parse(Name(st)) == Some(st)
  {
    if st == stalledUP {
    } else if st == checkingUP {
    } else if st == forcedUP {
    } else if st == allocating {
    } else {
      assert st == downloading;
    }
  }

  lemma ParseStatesFrom10(st: DaemonState)
    requires 10 <= Ordinal(st) < 14
    ensures Parse(Name(st)) == Some(st)
  {
    if st == metaDL {
    } else if st == pausedDL {
    } else if st == queuedDL {
    } else {
      assert st == stalledDL;
    }
  }

  lemma ParseStatesFrom14(st: DaemonState)
    requires 14 <= Ordinal(st) < 17
    ensures Parse(Name(st)) == Some(st)
  {
    if st == checkingDL {
    } else if st == forcedDL {
    } else {
      assert st == checkingResumeData;
    }
  }

  lemma ParseStatesFrom17(st: DaemonState)
    requires 17 <= Ordinal(st)
    ensures Parse(Name(st)) == Some(st)
  {
    if st == moving {
    } else {
      assert st == unknown;
    }
  }

  /** The position of each state in the declaration order. */
  function Ordinal(st: DaemonState): (k: nat)
    ensures k < |AllStates| && AllStates[k] == st
  {
    match st
    case error => 0
    case missingFiles => 1
    case uploading => 2
    case pausedUP => 3
    case queuedUP => 4
    case stalledUP => 5
    case checkingUP => 6
    case forcedUP => 7
    case allocating => 8
    case downloading => 9
    case metaDL => 10
    case pausedDL => 11
    case queuedDL => 12
    case stalledDL => 13
    case checkingDL => 14
    case forcedDL => 15
    case checkingResumeData => 16
    case moving => 17
    case unknown => 18
  }

  /** The list holds 19 pairwise distinct states, so the vocabulary has
      exactly 19 members. */
  lemma NineteenStates()
    ensures |AllStates| == 19
    ensures forall i, j :: 0 <= i < j < |AllStates| ==> AllStates[i] != AllStates[j]
  {
    forall i | 0 <= i < |AllStates|
      ensures Ordinal(AllStates[i]) == i
    {
      OrdinalOfListed(i);
    }
  }

  lemma OrdinalOfListed(i: nat)
    requires i < |AllStates|
    ensures Ordinal(AllStates[i]) == i
  {
    if i < 10 {
      if i < 5 {
        assert i == 0 || i == 1 || i == 2 || i == 3 || i == 4;
      } else {
        assert i == 5 || i == 6 || i == 7 || i == 8 || i == 9;
      }
    } else {
      if i < 15 {
        assert i == 10 || i == 11 || i == 12 || i == 13 || i == 14;
      } else {
        assert i == 15 || i == 16 || i == 17 || i == 18;
      }
    }
  }
}

=== FILE: s3_service.dfy ===
/** The object-storage service: the decisions of `ensureBucket` and
    `upload`, as the sequence of storage commands they send. The storage
    replies, the file size and the configuration are parameters. */
module S3Service {
  import opened Wrappers
  import opened Paths

  /** Largest file sent as a single object: 5 GiB. */
  const FiveGigabytes: nat := 5 * 1024 * 1024 * 1024
  /** Size of one part of a multipart upload: 5 MiB. */
  const MultipartChunkSize: nat := 5 * 1024 * 1024
  /** The id of the expiry rule this service manages. */
  const RuleId: string := "DownloadedFileExpireRule"

  /** An error from the storage service (with its HTTP status), or another
      failure raised while talking to it. */
  datatype S3Error = ServiceError(httpStatus: int) | ClientError

  /** What an operation threw. */
  datatype Thrown =
    | S3(error: S3Error)
    | TypeError              // a property read on `undefined`
    | MissingUploadId
    | MissingETag(partNumber: nat)
    | StatFailed

  /** One part reported back to complete a multipart upload. */
  datatype CompletedPart = CompletedPart(partNumber: nat, etag: string)

  /** A command sent to the storage service. */
  datatype Command =
    | ListBuckets
    | CreateBucket(bucket: string)
    | GetLifecycle(bucket: string)
    | PutLifecycle(bucket: string, days: int)
    | PutObject(bucket: string, key: string, contentLength: nat)
    | CreateMultipartUpload(bucket: string, key: string)
    | UploadPart(bucket: string, key: string, uploadId: string, partNumber: nat, contentLength: nat)
    | CompleteMultipartUpload(bucket: string, key: string, uploadId: string, parts: seq<CompletedPart>)
    | AbortMultipartUpload(bucket: string, key: string, uploadId: string)

  /** An expiry rule as the service reports it; the expiration and its day
      count may each be absent. */
  datatype Expiration = Expiration(days: Option<int>)
  datatype Rule = Rule(id: string, expiration: Option<Expiration>)

  /** The commands sent and the outcome of one call. */
  datatype Run<T> = Run(commands: seq<Command>, outcome: Result<T, Thrown>)

  /** `rules.find(rule => rule.ID === RuleId)`. */
  function FindRule(rules: seq<Rule>): (r: Option<Rule>)
    ensures r.Some? ==> r.value in rules && r.value.id == RuleId
    ensures r.None? ==> forall k :: 0 <= k < |rules| ==> rules[k].id != RuleId
  {
    if |rules| == 0 then None
    else if rules[0].id == RuleId then Some(rules[0])
    else FindRule(rules[1..])
  }

  /** The existing rule already expires objects after `days`. */
  predicate Conforms(rule: Option<Rule>, days: int) {
    rule.Some? && rule.value.expiration.Some? && rule.value.expiration.value.days == Some(days)
  }

  /** The handler of the lifecycle check: a 404 from the service is
      answered with a put, and every other error is rethrown. `put` is the
      reply to that put. */
  function OnLifecycleError(bucket: string, days: int, error: Thrown, put: Outcome<S3Error>,
                            sent: seq<Command>): Run<()>
  {
    if error == S3(ServiceError(404)) then
      var commands := sent + [PutLifecycle(bucket, days)];
      match put
      case Pass => Run(commands, Ok(()))
      case Fail(e) => Run(commands, Err(S3(e)))
    else Run(sent, Err(error))
  }

  /** `ensureBucket` as written. When the bucket exists but holds no rule
      with the managed id, the mismatch branch reads `rule.Expiration` on
      `undefined`; the resulting TypeError is not a service error, so the
      handler rethrows it and no put is sent. `puts(k)` is the reply to the
      k-th lifecycle put. */
  function EnsureBucketAsWritten(isS3: bool, bucket: string, days: int,
                                 list: Result<seq<string>, S3Error>, create: Outcome<S3Error>,
                                 get: Result<seq<Rule>, S3Error>, puts: nat -> Outcome<S3Error>): (r: Run<()>)
  {
    if !isS3 then Run([], Ok(()))
    else match list
      case Err(e) => Run([ListBuckets], Err(S3(e)))
      case Ok(names) =>
        if bucket !in names then
          match create
          case Fail(e) => Run([ListBuckets, CreateBucket(bucket)], Err(S3(e)))
          case Pass =>
            var commands := [ListBuckets, CreateBucket(bucket), PutLifecycle(bucket, days)];
            match puts(0)
            case Pass => Run(commands, Ok(()))
            case Fail(e) => Run(commands, Err(S3(e)))
        else
          var sent := [ListBuckets, GetLifecycle(bucket)];
          match get
          case Err(e) => OnLifecycleError(bucket, days, S3(e), puts(0), sent)
          case Ok(rules) =>
            var rule := FindRule(rules);
            if Conforms(rule, days) then Run(sent, Ok(()))
            else if rule.None? then OnLifecycleError(bucket, days, TypeError, puts(0), sent)
            else
              var withPut := sent + [PutLifecycle(bucket, days)];
              match puts(0)
              case Pass => Run(withPut, Ok(()))
              case Fail(e) => OnLifecycleError(bucket, days, S3(e), puts(1), withPut)
  }

  /** A bucket that exists with a lifecycle holding no rule of the managed
      id (every rule carries another id, or there are none): the call
      throws and the rule is never written. */
  lemma EnsureBucketMissingRule(bucket: string, days: int, rules: seq<Rule>, puts: nat -> Outcome<S3Error>)
    requires forall k :: 0 <= k < |rules| ==> rules[k].id != RuleId
    ensures EnsureBucketAsWritten(true, bucket, days, Ok([bucket]), Pass, Ok(rules), puts) ==
      Run([ListBuckets, GetLifecycle(bucket)], Err(TypeError))
  {
  }

  /** `ensureBucket` as evidently intended: a missing rule is a mismatch
      like a wrong one, and is replaced by a put. */
  function EnsureBucket(isS3: bool, bucket: string, days: int,
                        list: Result<seq<string>, S3Error>, create: Outcome<S3Error>,
                        get: Result<seq<Rule>, S3Error>, puts: nat -> Outcome<S3Error>): (r: Run<()>)
    ensures !isS3 ==> r == Run([], Ok(()))
    ensures isS3 ==> |r.commands| >= 1 && r.commands[0] == ListBuckets
    ensures isS3 && list.Err? ==> r == Run([ListBuckets], Err(S3(list.error)))
    // an absent bucket is created, then given the rule
    ensures isS3 && list.Ok? && bucket !in list.value ==>
      && |r.commands| >= 2 && r.commands[..2] == [ListBuckets, CreateBucket(bucket)]
      && (create.Pass? ==> r.commands == [ListBuckets, CreateBucket(bucket), PutLifecycle(bucket, days)])
      && (create.Fail? ==> r == Run([ListBuckets, CreateBucket(bucket)], Err(S3(create.error))))
    // an existing bucket gets a put exactly when its rule does not conform
    // or the service has no lifecycle configuration for it
    ensures isS3 && list.Ok? && bucket in list.value ==>
      |r.commands| >= 2 && r.commands[1] == GetLifecycle(bucket) &&
      (PutLifecycle(bucket, days) in r.commands <==>
         (get.Ok? && !Conforms(FindRule(get.value), days)) || get == Err(ServiceError(404)))
    // success leaves a conforming rule in place or has just written one
    ensures isS3 && r.outcome.Ok? ==>
      PutLifecycle(bucket, days) in r.commands || (get.Ok? && Conforms(FindRule(get.value), days))
  {
    if !isS3 then Run([], Ok(()))
    else match list
      case Err(e) => Run([ListBuckets], Err(S3(e)))
      case Ok(names) =>
        if bucket !in names then
          match create
          case Fail(e) => Run([ListBuckets, CreateBucket(bucket)], Err(S3(e)))
          case Pass =>
            var commands := [ListBuckets, CreateBucket(bucket), PutLifecycle(bucket, days)];
            match puts(0)
            case Pass => Run(commands, Ok(()))
            case Fail(e) => Run(commands, Err(S3(e)))
        else
          var sent := [ListBuckets, GetLifecycle(bucket)];
          match get
          case Err(e) => OnLifecycleError(bucket, days, S3(e), puts(0), sent)
          case Ok(rules) =>
            if Conforms(FindRule(rules), days) then Run(sent, Ok(()))
            else
              var withPut := sent + [PutLifecycle(bucket, days)];
              match puts(0)
              case Pass => Run(withPut, Ok(()))
              case Fail(e) => OnLifecycleError(bucket, days, S3(e), puts(1), withPut)
  }

  /** The two versions differ only when the rule is missing. */
  lemma EnsureBucketFixIsLocal(isS3: bool, bucket: string, days: int,
                               list: Result<seq<string>, S3Error>, create: Outcome<S3Error>,
                               get: Result<seq<Rule>, S3Error>, puts: nat -> Outcome<S3Error>)
    requires get.Err? || FindRule(get.value).Some?
    ensures EnsureBucket(isS3, bucket, days, list, create, get, puts) ==
            EnsureBucketAsWritten(isS3, bucket, days, list, create, get, puts)
  {
  }

  function Sum(s: seq<nat>): nat {
    if |s| == 0 then 0 else s[0] + Sum(s[1..])
  }

  /** The chunks the file stream yields: full chunks, then the remainder. */
  function Chunks(size: nat): (r: seq<nat>)
    decreases size
    ensures Sum(r) == size
    ensures forall k :: 0 <= k < |r| ==> 0 < r[k] <= MultipartChunkSize
    ensures |r| * MultipartChunkSize >= size
  {
    if size == 0 then []
    else if size <= MultipartChunkSize then [size]
    else [MultipartChunkSize] + Chunks(size - MultipartChunkSize)
  }

  /** The upload-part commands of the first `|chunks|` parts. */
  function PartCommands(bucket: string, key: string, uploadId: string, chunks: seq<nat>): (r: seq<Command>)
    ensures |r| == |chunks|
    ensures forall k :: 0 <= k < |chunks| ==> r[k] == UploadPart(bucket, key, uploadId, k + 1, chunks[k])
  {
    seq(|chunks|, k requires 0 <= k < |chunks| => UploadPart(bucket, key, uploadId, k + 1, chunks[k]))
  }

  /** A part reply carrying a usable ETag. */
  predicate PartOk(reply: Result<Option<string>, S3Error>) {
    reply.Ok? && reply.value.Some? && reply.value.value != ""
  }

  /** The parts reported to complete the upload: part `k + 1` with the ETag
      of the k-th reply. */
  function CompletedParts(parts: nat -> Result<Option<string>, S3Error>, n: nat): (r: seq<CompletedPart>)
    requires forall j :: 0 <= j < n ==> PartOk(parts(j))
    ensures |r| == n
    ensures forall j :: 0 <= j < n ==> r[j].partNumber == j + 1
  {
    seq(n, j requires 0 <= j < n && PartOk(parts(j)) => CompletedPart(j + 1, parts(j).value.value))
  }

  /** The location an uploaded object is reported under. */
  function ObjectUrl(bucket: string, key: string): string {
    "s3://" + bucket + "/" + key
  }

  /** The error a failed part turns into. */
  function PartError(reply: Result<Option<string>, S3Error>, partNumber: nat): Thrown {
    if reply.Err? then S3(reply.error) else MissingETag(partNumber)
  }

  /** Every one of the first `n` part replies carries a usable ETag. */
  predicate PartsOk(parts: nat -> Result<Option<string>, S3Error>, n: nat) {
    forall j :: 0 <= j < n ==> PartOk(parts(j))
  }

  /** No command of `commands` aborts an upload. */
  predicate NoAbort(commands: seq<Command>) {
    forall j :: 0 <= j < |commands| ==> !commands[j].AbortMultipartUpload?
  }

  lemma NoAbortAppend(commands: seq<Command>, c: Command)
    requires NoAbort(commands) && !c.AbortMultipartUpload?
    ensures NoAbort(commands + [c])
  {
    var t := commands + [c];
    forall j | 0 <= j < |t| ensures !t[j].AbortMultipartUpload? {
      if j < |commands| {
        assert t[j] == commands[j];
      }
    }
  }

  /** The commands of a failed multipart upload: the creation first, one
      abort last, and no abort before it. */
  predicate AbortedOnce(commands: seq<Command>, bucket: string, key: string, id: string) {
    && |commands| >= 2
    && commands[0] == CreateMultipartUpload(bucket, key)
    && commands[|commands| - 1] == AbortMultipartUpload(bucket, key, id)
    && NoAbort(commands[..|commands| - 1])
  }

  /** Appending the abort to commands that start with the creation and
      hold no abort gives an aborted-once run. */
  lemma AbortAppended(commands: seq<Command>, bucket: string, key: string, id: string)
    requires |commands| >= 1 && commands[0] == CreateMultipartUpload(bucket, key) && NoAbort(commands)
    ensures AbortedOnce(commands + [AbortMultipartUpload(bucket, key, id)], bucket, key, id)
  {
    var t := commands + [AbortMultipartUpload(bucket, key, id)];
    assert t[..|t| - 1] == commands;
  }

  /** The position of the first of parts `k..n-1` without a usable ETag,
      or `n` when they all carry one. */
  function FirstBadPart(parts: nat -> Result<Option<string>, S3Error>, n: nat, k: nat): (m: nat)
    requires k <= n
    ensures k <= m <= n
    ensures m < n ==> !PartOk(parts(m))
    ensures forall j :: k <= j < m ==> PartOk(parts(j))
    decreases n - k
  {
    if k == n || !PartOk(parts(k)) then k else FirstBadPart(parts, n, k + 1)
  }

  /** The first bad part is where the good ones stop. */
  lemma FirstBadPartIs(parts: nat -> Result<Option<string>, S3Error>, n: nat, m: nat)
    requires m <= n && PartsOk(parts, m) && (m < n ==> !PartOk(parts(m)))
    ensures FirstBadPart(parts, n, 0) == m
  {
  }

  /** What a failed multipart upload throws: the abort's own error when the
      abort fails, and otherwise the error that triggered it. */
  function AbortOr(abort: Outcome<S3Error>, cause: Thrown): Thrown {
    if abort.Fail? then S3(abort.error) else cause
  }

  /** The result of the multipart branch for `chunks`: parts numbered from
      1 in chunk order. With every part and the completion accepted, the
      parts are listed in that order on completion and the object's URL is
      returned. Part `m + 1` failing stops the upload right after that
      part's command; a failed completion comes after all parts. Either way
      exactly one abort with the same id ends the commands. */
  predicate MultipartDone(r: Run<Option<string>>, bucket: string, key: string, id: string, chunks: seq<nat>,
                          parts: nat -> Result<Option<string>, S3Error>, complete: Outcome<S3Error>,
                          abort: Outcome<S3Error>)
  {
    var m := FirstBadPart(parts, |chunks|, 0);
    var create := [CreateMultipartUpload(bucket, key)];
    var stop := [AbortMultipartUpload(bucket, key, id)];
    && (r.outcome.Ok? <==> m == |chunks| && complete.Pass?)
    && (r.outcome.Ok? ==>
          && r.outcome.value == Some(ObjectUrl(bucket, key))
          && r.commands == create + PartCommands(bucket, key, id, chunks) +
                           [CompleteMultipartUpload(bucket, key, id, CompletedParts(parts, |chunks|))])
    && (m < |chunks| ==>
          && r.commands == create + PartCommands(bucket, key, id, chunks[..m + 1]) + stop
          && r.outcome == Err(AbortOr(abort, PartError(parts(m), m + 1))))
    && (m == |chunks| && complete.Fail? ==>
          && r.commands == create + PartCommands(bucket, key, id, chunks) +
                           [CompleteMultipartUpload(bucket, key, id, CompletedParts(parts, |chunks|))] + stop
          && r.outcome == Err(AbortOr(abort, S3(complete.error))))
    && (r.outcome.Err? ==> AbortedOnce(r.commands, bucket, key, id))
  }

  /** The multipart branch of `upload`, once the service has issued the
      upload id `id`. */
  method Multipart(bucket: string, key: string, id: string, size: nat,
                   parts: nat -> Result<Option<string>, S3Error>, complete: Outcome<S3Error>,
                   abort: Outcome<S3Error>) returns (r: Run<Option<string>>)
    ensures r.outcome.Ok? <==> PartsOk(parts, |Chunks(size)|) && complete.Pass?
    ensures MultipartDone(r, bucket, key, id, Chunks(size), parts, complete, abort)
  {
    var chunks := Chunks(size);
    var commands := [CreateMultipartUpload(bucket, key)];
    var k := 0;
    while k < |chunks|
      invariant 0 <= k <= |chunks|
      invariant commands == [CreateMultipartUpload(bucket, key)] + PartCommands(bucket, key, id, chunks[..k])
      invariant PartsOk(parts, k)
    {
      PartCommandsGrow(bucket, key, id, chunks, k);
      commands := commands + [UploadPart(bucket, key, id, k + 1, chunks[k])];
      var reply := parts(k);
      if !PartOk(reply) {
        r := Run(commands + [AbortMultipartUpload(bucket, key, id)], Err(AbortOr(abort, PartError(reply, k + 1))));
        PartFailureDone(r, bucket, key, id, chunks, parts, complete, abort, k);
        return;
      }
      k := k + 1;
    }
    assert chunks[..k] == chunks;
    var completion := CompleteMultipartUpload(bucket, key, id, CompletedParts(parts, |chunks|));
    if complete.Fail? {
      r := Run(commands + [completion, AbortMultipartUpload(bucket, key, id)], Err(AbortOr(abort, S3(complete.error))));
    } else {
      r := Run(commands + [completion], Ok(Some(ObjectUrl(bucket, key))));
    }
    CompletionDone(r, bucket, key, id, chunks, parts, complete, abort);
  }

  /** One more chunk adds its part's command at the end. */
  lemma PartCommandsGrow(bucket: string, key: string, id: string, chunks: seq<nat>, k: nat)
    requires k < |chunks|
    ensures [CreateMultipartUpload(bucket, key)] + PartCommands(bucket, key, id, chunks[..k + 1]) ==
            [CreateMultipartUpload(bucket, key)] + PartCommands(bucket, key, id, chunks[..k]) +
            [UploadPart(bucket, key, id, k + 1, chunks[k])]
  {
    assert chunks[..k + 1] == chunks[..k] + [chunks[k]];
  }

  /** The commands before an abort hold none. */
  lemma CreateAndPartsNoAbort(bucket: string, key: string, id: string, chunks: seq<nat>)
    ensures NoAbort([CreateMultipartUpload(bucket, key)] + PartCommands(bucket, key, id, chunks))
  {
    var t := [CreateMultipartUpload(bucket, key)] + PartCommands(bucket, key, id, chunks);
    forall j | 0 <= j < |t| ensures !t[j].AbortMultipartUpload? {
      if j > 0 {
        assert t[j] == PartCommands(bucket, key, id, chunks)[j - 1];
      }
    }
  }

  /** The run a failing part `k + 1` produces is the one described. */
  lemma PartFailureDone(r: Run<Option<string>>, bucket: string, key: string, id: string, chunks: seq<nat>,
                        parts: nat -> Result<Option<string>, S3Error>, complete: Outcome<S3Error>,
                        abort: Outcome<S3Error>, k: nat)
    requires k < |chunks| && PartsOk(parts, k) && !PartOk(parts(k))
    requires r == Run([CreateMultipartUpload(bucket, key)] + PartCommands(bucket, key, id, chunks[..k + 1]) +
                      [AbortMultipartUpload(bucket, key, id)],
                      Err(AbortOr(abort, PartError(parts(k), k + 1))))
    ensures !PartsOk(parts, |chunks|)
    ensures MultipartDone(r, bucket, key, id, chunks, parts, complete, abort)
  {
    FirstBadPartIs(parts, |chunks|, k);
    CreateAndPartsNoAbort(bucket, key, id, chunks[..k + 1]);
    AbortAppended([CreateMultipartUpload(bucket, key)] + PartCommands(bucket, key, id, chunks[..k + 1]), bucket, key, id);
  }

  /** The run after every part was accepted is the one described. */
  lemma CompletionDone(r: Run<Option<string>>, bucket: string, key: string, id: string, chunks: seq<nat>,
                       parts: nat -> Result<Option<string>, S3Error>, complete: Outcome<S3Error>,
                       abort: Outcome<S3Error>)
    requires PartsOk(parts, |chunks|)
    requires var sent := [CreateMultipartUpload(bucket, key)] + PartCommands(bucket, key, id, chunks) +
                         [CompleteMultipartUpload(bucket, key, id, CompletedParts(parts, |chunks|))];
      r == if complete.Fail?
           then Run(sent + [AbortMultipartUpload(bucket, key, id)], Err(AbortOr(abort, S3(complete.error))))
           else Run(sent, Ok(Some(ObjectUrl(bucket, key))))
    ensures r.outcome.Ok? <==> complete.Pass?
    ensures MultipartDone(r, bucket, key, id, chunks, parts, complete, abort)
  {
    FirstBadPartIs(parts, |chunks|, |chunks|);
    var front := [CreateMultipartUpload(bucket, key)] + PartCommands(bucket, key, id, chunks);
    var completion := CompleteMultipartUpload(bucket, key, id, CompletedParts(parts, |chunks|));
    CreateAndPartsNoAbort(bucket, key, id, chunks);
    NoAbortAppend(front, completion);
    if complete.Fail? {
      AbortAppended(front + [completion], bucket, key, id);
    }
  }

  /** `upload(path)`: nothing without object storage; a single put up to
      5 GiB; above that a multipart upload. The object key is the file's
      base name. A null result is `Ok(None)`. */
  method Upload(isS3: bool, bucket: string, path: string, stat: Result<nat, Thrown>,
                put: Outcome<S3Error>, create: Result<Option<string>, S3Error>,
                parts: nat -> Result<Option<string>, S3Error>, complete: Outcome<S3Error>,
                abort: Outcome<S3Error>) returns (r: Run<Option<string>>)
    ensures !isS3 ==> r == Run([], Ok(None))
    ensures isS3 && stat.Err? ==> r == Run([], Err(stat.error))
    ensures isS3 && stat.Ok? && stat.value <= FiveGigabytes ==>
      && r.commands == [PutObject(bucket, Basename(path), stat.value)]
      && (put.Pass? ==> r.outcome == Ok(Some(ObjectUrl(bucket, Basename(path)))))
      && (put.Fail? ==> r.outcome == Err(S3(put.error)))
    // a missing upload id throws before any part, and nothing is aborted
    ensures isS3 && stat.Ok? && stat.value > FiveGigabytes && !HasUploadId(create) ==>
      r.commands == [CreateMultipartUpload(bucket, Basename(path))] && r.outcome.Err?
    ensures isS3 && stat.Ok? && stat.value > FiveGigabytes && HasUploadId(create) ==>
      && (r.outcome.Ok? <==> PartsOk(parts, |Chunks(stat.value)|) && complete.Pass?)
      && MultipartDone(r, bucket, Basename(path), create.value.value, Chunks(stat.value), parts, complete, abort)
  {
    if !isS3 {
      return Run([], Ok(None));
    }
    var key := Basename(path);
    if stat.Err? {
      return Run([], Err(stat.error));
    }
    var size := stat.value;
    if size <= FiveGigabytes {
      match put {
        case Pass => return Run([PutObject(bucket, key, size)], Ok(Some(ObjectUrl(bucket, key))));
        case Fail(e) => return Run([PutObject(bucket, key, size)], Err(S3(e)));
      }
    }
    if create.Err? {
      return Run([CreateMultipartUpload(bucket, key)], Err(S3(create.error)));
    }
    if !HasUploadId(create) {
      return Run([CreateMultipartUpload(bucket, key)], Err(MissingUploadId));
    }
    r := Multipart(bucket, key, create.value.value, size, parts, complete, abort);
  }

  /** The service answered the multipart request with a non-empty upload id. */
  predicate HasUploadId(create: Result<Option<string>, S3Error>) {
    create.Ok? && create.value.Some? && create.value.value != ""
  }

  /** Two different files with the same name in different directories are
      stored under the same key. */
  lemma NamesakesShareKey(da: string, db: string, n: string)
    requires n != "" && Sep !in n && da != db
    ensures Join(da, n) != Join(db, n)
    ensures Basename(Join(da, n)) == Basename(Join(db, n)) == n
  {
    BasenameOfJoinName(da, n);
    BasenameOfJoinName(db, n);
  }

  lemma BasenameOfJoinName(dir: string, name: string)
    requires name != "" && Sep !in name
    ensures Basename(Join(dir, name)) == name
  {
    if dir != "" {
      var p := Join(dir, name);
      assert StripTrailingSeps(p) == p;
      assert forall j :: |dir| < j < |p| ==> p[j] == name[j - |dir| - 1];
    }
  }
}

=== FILE: text.dfy ===
/** String operations with the semantics of the JavaScript built-ins the
    service code relies on (`indexOf`, `substring`, `replace`, `endsWith`). */
module Text {

  /** `p` occurs in `s` starting at position `i`. */
  predicate OccursAt(s: string, p: string, i: int) {
    0 <= i && i + |p| <= |s| && s[i..i + |p|] == p
  }

  /** `p` occurs somewhere in `s`. */
  ghost predicate Contains(s: string, p: string) {
    exists i :: OccursAt(s, p, i)
  }

  /** The first occurrence of `p` in `s` at or after `k`, or -1. */
  function IndexFrom(s: string, p: string, k: nat): (r: int)
    ensures r == -1 || (k <= r && OccursAt(s, p, r))
    ensures forall i :: k <= i && (r == -1 || i < r) ==> !OccursAt(s, p, i)
    decreases |s| + 1 - k
  {
    if k + |p| > |s| then -1
    else if s[k..k + |p|] == p then k
    else IndexFrom(s, p, k + 1)
  }

  /** `String.prototype.indexOf`: the first position of `p` in `s`, or -1. */
  function IndexOf(s: string, p: string): (r: int)
    ensures r == -1 <==> forall i :: !OccursAt(s, p, i)
    ensures r != -1 ==> OccursAt(s, p, r) && forall i :: 0 <= i < r ==> !OccursAt(s, p, i)
  {
    IndexFrom(s, p, 0)
  }

  /** `String.prototype.replace` with a non-global pattern matching the literal
      `p`: only the first occurrence is replaced. */
  function ReplaceFirst(s: string, p: string, rep: string): (r: string)
    ensures IndexOf(s, p) == -1 ==> r == s
    ensures IndexOf(s, p) != -1 ==>
      var i := IndexOf(s, p);
      r == s[..i] + rep + s[i + |p|..]
  {
    var i := IndexOf(s, p);
    if i == -1 then s else s[..i] + rep + s[i + |p|..]
  }

  /** `s.replace(/c/g, d)` for a single character `c`. */
  function ReplaceAllChar(s: string, c: char, d: char): (r: string)
    ensures |r| == |s|
    ensures forall i :: 0 <= i < |s| ==> r[i] == (if s[i] == c then d else s[i])
    ensures c != d ==> c !in r
  {
    seq(|s|, i requires 0 <= i < |s| => if s[i] == c then d else s[i])
  }

  /** The last position of `c` in `s`, or -1. */
  function LastIndexOfChar(s: string, c: char): (r: int)
    ensures -1 <= r < |s|
    ensures r == -1 <==> c !in s
    ensures r != -1 ==> s[r] == c
    ensures forall j :: r < j < |s| ==> s[j] != c
  {
    if |s| == 0 then -1
    else if s[|s| - 1] == c then |s| - 1
    else LastIndexOfChar(s[..|s| - 1], c)
  }

  /** `String.prototype.substring`: both bounds are clamped to `[0, |s|]` and
      swapped when the start exceeds the end. */
  function JsSubstring(s: string, start: int, end: int): (r: string)
    ensures |r| <= |s|
  {
    var a := if start < 0 then 0 else if start > |s| then |s| else start;
    var b := if end < 0 then 0 else if end > |s| then |s| else end;
    if a <= b then s[a..b] else s[b..a]
  }

  /** Lower-cases ASCII letters and leaves every other character as it is. */
  function ToLowerAscii(s: string): (r: string)
    ensures |r| == |s|
    ensures forall i :: 0 <= i < |s| ==> !('A' <= r[i] <= 'Z')
    ensures forall i :: 0 <= i < |s| && !('A' <= s[i] <= 'Z') ==> r[i] == s[i]
  {
    seq(|s|, i requires 0 <= i < |s| =>
      if 'A' <= s[i] <= 'Z' then (s[i] as int - 'A' as int + 'a' as int) as char else s[i])
  }

  /** The last occurrence is the position after which the character no
      longer appears. */
  lemma LastIndexOfCharIsLast(s: string, c: char, k: nat)
    requires k < |s| && s[k] == c
    requires forall j :: k < j < |s| ==> s[j] != c
    ensures LastIndexOfChar(s, c) == k
  {
  }

  /** A pattern at the very start is the first occurrence. */
  lemma IndexOfAtStart(s: string, p: string)
    requires OccursAt(s, p, 0)
    ensures IndexOf(s, p) == 0
  {
  }

  /** A non-global replace leaves the second of two adjacent occurrences in
      place. */
  lemma ReplaceFirstKeepsSecond(t: string, v: string)
    ensures ReplaceFirst(t + t, t, v) == v + t
  {
    var s := t + t;
    assert s[0..|t|] == t;
    IndexOfAtStart(s, t);
    assert s[|t|..] == t;
  }

  /** The last `c` of `prefix + [c] + tail` is the one before `tail` when
      `tail` has none. */
  lemma LastOccurrenceSplits(prefix: string, c: char, tail: string)
    requires c !in tail
    ensures LastIndexOfChar(prefix + [c] + tail, c) == |prefix|
    ensures (prefix + [c] + tail)[|prefix| + 1..] == tail
  {
    var m := prefix + [c];
    var r := m + tail;
    var k := |prefix|;
    assert r[k] == c;
    forall j | k < j < |r|
      ensures r[j] != c
    {
      assert r[j] == tail[j - |m|];
    }
    LastIndexOfCharIsLast(r, c, k);
    assert r[|m|..] == tail;
  }

  /** A pattern whose first character appears nowhere in `s` except at `k`,
      and which does not occur at `k`, does not occur in `s`. */
  lemma AbsentBesidesLead(s: string, p: string, k: int)
    requires |p| > 0
    requires forall i :: 0 <= i < |s| && i != k ==> s[i] != p[0]
    requires !OccursAt(s, p, k)
    ensures IndexOf(s, p) == -1
  {
    forall i ensures !OccursAt(s, p, i) {
      if 0 <= i && i + |p| <= |s| && i != k {
        assert s[i..i + |p|][0] == s[i];
      }
    }
  }

  /** A pattern placed after text free of its first character is found
      right there. */
  lemma FirstAfterLeadFree(a: string, p: string, b: string)
    requires |p| > 0 && p[0] !in a
    ensures IndexOf(a + p + b, p) == |a|
  {
    var s := a + p + b;
    assert s[|a|..|a| + |p|] == p;
    assert OccursAt(s, p, |a|);
    forall i | 0 <= i < |a| ensures !OccursAt(s, p, i) {
      assert s[i] == a[i];
      if i + |p| <= |s| {
        assert s[i..i + |p|][0] == s[i];
      }
    }
  }
}

=== FILE: uri_encoding.dfy ===
/** `encodeURIComponent` (section 19.2.6 of ECMA-262): every character outside
    the unescaped set is written as the percent-encoded (section 2.1 of
    RFC 3986) octets of its UTF-8 encoding, with upper-case hex digits. */
module UriEncoding {
  import opened Wrappers

  newtype byte = x: int | 0 <= x < 256

  /** The characters `encodeURIComponent` leaves as they are: ASCII letters,
      decimal digits and the marks `- _ . ! ~ * ' ( )`. */
  predicate Unescaped(c: char) {
    || 'A' <= c <= 'Z' || 'a' <= c <= 'z' || '0' <= c <= '9'
    || c in "-_.!~*'()"
  }

  predicate IsHexDigit(c: char) {
    '0' <= c <= '9' || 'A' <= c <= 'F'
  }

  /** A character that may appear in an encoded component. */
  predicate EncodedChar(c: char) {
    Unescaped(c) || c == '%' || IsHexDigit(c)
  }

  function HexDigit(n: int): (c: char)
    requires 0 <= n < 16
    ensures IsHexDigit(c)
    ensures HexValue(c) == n
  {
    if n < 10 then ('0' as int + n) as char else ('A' as int + n - 10) as char
  }

  function HexValue(c: char): (n: int)
    requires IsHexDigit(c)
    ensures 0 <= n < 16
  {
    if '0' <= c <= '9' then c as int - '0' as int else c as int - 'A' as int + 10
  }

  /** The UTF-8 octets of one Unicode scalar value. */
  function Utf8(c: char): (bs: seq<byte>)
    ensures 1 <= |bs| <= 4
    ensures (c as int < 0x80) <==> |bs| == 1
    ensures |bs| == 1 ==> bs[0] as int == c as int
  {
    var n := c as int;
    if n < 0x80 then [n as byte]
    else if n < 0x800 then [(0xC0 + n / 64) as byte, (0x80 + n % 64) as byte]
    else if n < 0x10000 then
      [(0xE0 + n / 4096) as byte, (0x80 + (n / 64) % 64) as byte, (0x80 + n % 64) as byte]
    else
      [(0xF0 + n / 262144) as byte, (0x80 + (n / 4096) % 64) as byte,
       (0x80 + (n / 64) % 64) as byte, (0x80 + n % 64) as byte]
  }

  /** The UTF-8 octets of a whole string. */
  function Utf8String(s: string): seq<byte>
  {
    if |s| == 0 then [] else Utf8(s[0]) + Utf8String(s[1..])
  }

  /** One octet: itself when it is an unescaped ASCII character, else `%XY`. */
  function EncodeByte(b: byte): (r: string)
    ensures forall i :: 0 <= i < |r| ==> EncodedChar(r[i])
    ensures |r| == 1 || (|r| == 3 && r[0] == '%')
    ensures |r| == 1 ==> r[0] != '%' && r[0] as int == b as int
  {
    if b < 0x80 && Unescaped(b as int as char) then [b as int as char]
    else ['%', HexDigit(b as int / 16), HexDigit(b as int % 16)]
  }

  function EncodeBytes(bs: seq<byte>): (r: string)
    ensures forall i :: 0 <= i < |r| ==> EncodedChar(r[i])
  {
    if |bs| == 0 then [] else EncodeByte(bs[0]) + EncodeBytes(bs[1..])
  }

  /** `encodeURIComponent(s)`. */
  function Encode(s: string): (r: string)
    ensures forall i :: 0 <= i < |r| ==> EncodedChar(r[i])
  {
    if |s| == 0 then [] else EncodeBytes(Utf8(s[0])) + Encode(s[1..])
  }

  /** Percent-decoding back to octets; `None` on a malformed escape. */
  function PercentDecode(t: string): Option<seq<byte>>
  {
    if |t| == 0 then Some([])
    else if t[0] == '%' then
      if |t| >= 3 && IsHexDigit(t[1]) && IsHexDigit(t[2]) then
        match PercentDecode(t[3..])
        case Some(rest) => Some([(HexValue(t[1]) * 16 + HexValue(t[2])) as byte] + rest)
        case None => None
      else None
    else if t[0] as int < 256 then
      match PercentDecode(t[1..])
      case Some(rest) => Some([t[0] as int as byte] + rest)
      case None => None
    else None
  }

  lemma EncodeBytesAppend(a: seq<byte>, b: seq<byte>)
    ensures EncodeBytes(a + b) == EncodeBytes(a) + EncodeBytes(b)
  {
    if |a| > 0 {
      assert (a + b)[0] == a[0];
      assert (a + b)[1..] == a[1..] + b;
      EncodeBytesAppend(a[1..], b);
      calc {
        EncodeBytes(a + b);
        EncodeByte(a[0]) + EncodeBytes(a[1..] + b);
        EncodeByte(a[0]) + (EncodeBytes(a[1..]) + EncodeBytes(b));
        (EncodeByte(a[0]) + EncodeBytes(a[1..])) + EncodeBytes(b);
      }
    } else {
      assert a + b == b;
    }
  }

  lemma {:induction false} EncodeIsEncodeBytes(s: string)
    ensures Encode(s) == EncodeBytes(Utf8String(s))
  {
    if |s| > 0 {
      EncodeIsEncodeBytes(s[1..]);
      EncodeBytesAppend(Utf8(s[0]), Utf8String(s[1..]));
    }
  }

  lemma {:induction false} DecodeEncodedBytes(bs: seq<byte>)
    ensures PercentDecode(EncodeBytes(bs)) == Some(bs)
  {
    if |bs| > 0 {
      DecodeEncodedBytes(bs[1..]);
      DecodeOneByte(bs[0], EncodeBytes(bs[1..]), bs[1..]);
      assert [bs[0]] + bs[1..] == bs;
    }
  }

  /** Decoding reads back one encoded octet in front of any decodable text. */
  lemma DecodeOneByte(b: byte, rest: string, tail: seq<byte>)
    requires PercentDecode(rest) == Some(tail)
    ensures PercentDecode(EncodeByte(b) + rest) == Some([b] + tail)
  {
    var head := EncodeByte(b);
    var t := head + rest;
    if |head| == 3 {
      assert t[3..] == rest;
      assert t[1] == HexDigit(b as int / 16) && t[2] == HexDigit(b as int % 16);
      assert HexValue(t[1]) * 16 + HexValue(t[2]) == b as int;
    } else {
      assert t[1..] == rest;
      assert t[0] != '%' && t[0] as int == b as int;
    }
  }

  /** Decoding an encoded component gives back the UTF-8 octets of the
      original string. */
  lemma RoundTrip(s: string)
    ensures PercentDecode(Encode(s)) == Some(Utf8String(s))
  {
    EncodeIsEncodeBytes(s);
    DecodeEncodedBytes(Utf8String(s));
  }

  /** A string made only of unescaped characters is its own encoding. */
  lemma {:induction false} EncodeUnescapedIsIdentity(s: string)
    requires forall i :: 0 <= i < |s| ==> Unescaped(s[i])
    ensures Encode(s) == s
  {
    if |s| > 0 {
      EncodeUnescapedIsIdentity(s[1..]);
      EncodeUnescapedChar(s[0]);
      assert Encode(s) == [s[0]] + s[1..];
    }
  }

  /** An unescaped character is encoded as itself. */
  lemma EncodeUnescapedChar(c: char)
    requires Unescaped(c)
    ensures EncodeBytes(Utf8(c)) == [c]
  {
    UnescapedIsAscii(c);
    var b := c as int as byte;
    assert Utf8(c) == [b];
    assert EncodeByte(b) == [c];
    assert EncodeBytes([b]) == EncodeByte(b) + EncodeBytes([]);
  }

  lemma UnescapedIsAscii(c: char)
    requires Unescaped(c)
    ensures (c as int) < 0x80
  {
  }
}

=== FILE: wrappers.dfy ===
/** Failure-carrying datatypes used in place of JavaScript's `null`/`undefined`
    and thrown exceptions. */
module Wrappers {

  /** A nullable value: `None` stands for `null` or `undefined`. */
  datatype Option<+T> = None | Some(value: T) {
    function GetOr(default: T): T {
      match this
      case Some(v) => v
      case None => default
    }
  }

  /** The outcome of an awaited call: a value, or the error it threw. */
  datatype Result<+T, +E> = Ok(value: T) | Err(error: E)

  /** The outcome of an awaited call that yields nothing. */
  datatype Outcome<+E> = Pass | Fail(error: E)
}
